=== FILE: README.md ===
# Course platform rule layer

A Dafny model of the rules of a small course platform: an Express/Prisma
backend that keeps a hierarchy of courses, modules and videos together with
users and enrollments, and a React admin and storefront that mirror the
server's operations in client-side lists.

Backend (one module per controller):

- `Database` — the store: five tables (courses, modules, videos, users,
  enrollments) as maps from integer id to row, each with its autoincrement
  counter; `Consistent` is the invariant that no module lacks its course and
  no video its module, and that e-mails and (user, course) enrollment pairs
  are unique.
- `CoursesController`, `ModulesController`, `VideosController`,
  `AuthController`, `CommentsController` — each routed handler as a pure
  function from a store and the request's fields to an `Outcome` (the
  response and the new store). The guard order of the source (id parse,
  lookup, field check, write) is kept, status codes and messages are the
  source's, and `fault` stands for a store write that fails: inside a `try`
  it is the 500 reply with the store unchanged; outside one it is a
  rejection of the async handler that nothing catches, written `Unanswered`
  with the store unchanged (what the runtime then does is left out, below).
- `Jwt` (`authenticate`, the token payload), `AdminGate` (`isAdmin`),
  `Routes` (the route table under `/api` composing the middleware and the
  handlers).
- `JsText`, `JsValues` — the JavaScript semantics the guards depend on:
  `parseInt` without radix (white space, sign, `0x`, longest digit prefix,
  `NaN` as `None`), `String(v)`, truthiness, `trim`, `startsWith`,
  `includes` and `split`.

Frontend (one module per screen or component):

- `Catalog` — the static course catalogue and its three queries.
- `ModuleManager`, `CourseManager`, `AdminCommon`, `Lists` — the admin
  screens' list reducers; a request outcome is an `Option` (`None` when the
  request failed). A failed add, update or delete only logs or alerts and
  leaves the list alone; a failed load of the module screen or of the
  sidebar's course menu empties the list, while the course screen's failed
  load leaves it alone.
- `ModuleSystem`, `VideoSystem` — the submit guards of the add/edit dialogs
  and the video grid.
- `CourseDetailPage` — the Enroll button, its error-to-text mapping and the
  message colour, linked to the server's enroll handler and token gate.
- `AdminLayout` — the sidebar's course menu: response normalisation,
  30-character truncation and module-screen links, linked to the server's
  path-id guard.
- `ThumbnailSlider` — the cyclic slide index.

Signing and verifying tokens, hashing and comparing passwords and
`parseFloat` are uninterpreted functions in `Http.Env`; the admin e-mail is
a field of it.

## Model

| member | source | states |
|---|---|---|
| Database.UserByEmail | backend/Controllers/auth.controller.js:11 | `findUnique({ where: { email } })` finds a user row carrying that e-mail, and finds none exactly when no user has it |
| Database.UserByEmailIsTheOne | backend/Controllers/auth.controller.js:29-30 | while e-mails are unique, the lookup by e-mail returns the one user with that address |
| Database.ModuleTrees | backend/Controllers/courses/courses.controller.js:157-167 | the `include: { modules: { include: { videos } } }` tree holds exactly the course's modules, each with exactly its own videos |
| CoursesController.EnrollmentMatches | backend/Controllers/courses/courses.controller.js:7-9 | the duplicate check's filter `{ userId, courseId }`: the caller's row, for that course unless `courseId` is undefined, which Prisma drops from the filter |
| CoursesController.AlreadyEnrolled | backend/Controllers/courses/courses.controller.js:7-11 | `findFirst` finds a row: some enrollment matches the filter |
| CoursesController.EnrollmentFilter | backend/Controllers/courses/courses.controller.js:7-9 | a numeric `courseId` finds exactly a (caller, course) row; an undefined one finds any row of the caller |
| CoursesController.Enroll | backend/Controllers/courses/courses.controller.js:4-18 | an existing (caller, courseId) row gives 400 "Already enrolled" with the store unchanged; otherwise exactly one enrollment row with the caller's id and the given course id is added and returned |
| CoursesController.EnrollKeepsPairsUnique | backend/Controllers/courses/courses.controller.js:7-17 | sequential enrolls keep each (user, course) pair on at most one row |
| CoursesController.EnrollIgnoresCourses | backend/Controllers/courses/courses.controller.js:5-15 | enrolling in a course id that names no course still answers 200: only the duplicate check guards the insert |
| CoursesController.TitleTaken | backend/Controllers/courses/courses.controller.js:23-25 | `findFirst({ where: { title } })` finds a course with that title, or any course when the title is undefined |
| CoursesController.TitleFilter | backend/Controllers/courses/courses.controller.js:23-25 | without a title every existing course is a clash, so a non-empty table refuses an untitled course; with one, only a course carrying the same title is |
| CoursesController.AddCourse | backend/Controllers/courses/courses.controller.js:21-40 | a title already present gives 400 and creates nothing; a failing write gives 500; otherwise one course with the five given fields is created and returned |
| CoursesController.AddCourseKeepsTitlesUnique | backend/Controllers/courses/courses.controller.js:24-35 | adding courses keeps course titles unique |
| CoursesController.UpdateCourse | backend/Controllers/courses/courses.controller.js:42-84 | non-numeric id is 400 before any lookup, then a missing course 404, then missing or unparsable fields 400; success overwrites exactly the five fields of that one course |
| CoursesController.CourseFieldsValid | backend/Controllers/courses/courses.controller.js:57-61 | the update's field check: title, description and thumbnail truthy and both prices readable by `parseFloat` |
| CoursesController.UpdateCourseCanDuplicateTitle | backend/Controllers/courses/courses.controller.js:57-78 | renaming one course to another's title succeeds, so the update breaks the title uniqueness the add keeps |
| CoursesController.CourseCascade | backend/Controllers/courses/courses.controller.js:107-123 | the delete transaction removes the course, exactly the modules of that course and exactly their videos, and changes no other row |
| CoursesController.CascadeStep | backend/Controllers/courses/courses.controller.js:108-114 | one loop turn (deleting a module's videos, skipped when it has none) extends the set of modules whose videos are gone |
| CoursesController.RunCourseCascade | backend/Controllers/courses/courses.controller.js:107-123 | running the loop over the course's modules, then the two deletes, yields the cascade |
| CoursesController.NameOr | backend/Controllers/courses/courses.controller.js:127 | the reply names the deleted row by its title when truthy, else by the fallback text |
| CoursesController.DeleteCourse | backend/Controllers/courses/courses.controller.js:86-133 | non-numeric id 400, absent course 404 with no writes, failing transaction 500 with the store unchanged, success the cascade and a reply naming the title or `Course ID: n` |
| CoursesController.CourseCascadeKeepsConsistency | backend/Controllers/courses/courses.controller.js:107-123 | after the cascade no module lacks its course and no video its module |
| CoursesController.EnrollmentsOf | backend/Controllers/courses/courses.controller.js:138-141 | the caller's enrollments are exactly the rows with their user id |
| CoursesController.CourseRowOf | backend/Controllers/courses/courses.controller.js:140 | `include: { course }` finds the course row when it exists and nothing otherwise |
| CoursesController.GetUserCourses | backend/Controllers/courses/courses.controller.js:137-143 | one entry per enrollment of the caller, holding that enrollment's course, and none from other users; nothing is written |
| CoursesController.GetAllCourses | backend/Controllers/courses/courses.controller.js:145-148 | every course row, with the store unchanged |
| CoursesController.EnrollmentsIn | backend/Controllers/courses/courses.controller.js:165 | the enrollments included for a course are exactly those referencing it |
| CoursesController.GetCourseById | backend/Controllers/courses/courses.controller.js:149-178 | non-numeric id 400 `error`, absent course 404, else the course with its module tree and its enrollments |
| CoursesController.GetCourseEnrollmentStats | backend/Controllers/courses/courses.controller.js:179-222 | non-numeric id 400, absent course 404, else the course's id, title and the number of enrollments referencing it |
| CoursesController.EnrollKeepsConsistency | backend/Controllers/courses/courses.controller.js:4-18 | enrolling keeps the store consistent |
| CoursesController.AddCourseKeepsConsistency | backend/Controllers/courses/courses.controller.js:21-40 | adding a course keeps the store consistent |
| CoursesController.UpdateCourseKeepsConsistency | backend/Controllers/courses/courses.controller.js:42-84 | updating a course keeps the tree and the other uniqueness rules |
| CoursesController.DeleteCourseKeepsConsistency | backend/Controllers/courses/courses.controller.js:86-133 | deleting a course keeps the store consistent |
| ModulesController.PathId | backend/Controllers/Modules/module.controller.js:36 | the guard `!x \|\| isNaN(parseInt(x))` passes exactly for a non-empty parameter that `parseInt` reads, and yields that number |
| ModulesController.AddModule | backend/Controllers/Modules/module.controller.js:4-30 | missing title or missing/non-numeric courseId is 400 before the store is read; an absent course is 400, not 404; success creates one module whose course id is the parsed id |
| ModulesController.AddModuleAcceptsNumericPrefix | backend/Controllers/Modules/module.controller.js:7-12 | the course id `"5abc"` is accepted and the module is added to course 5 |
| ModulesController.UpdateModule | backend/Controllers/Modules/module.controller.js:32-54 | invalid id 400, non-string or empty title 400, absent module 500 (not 404), success changes only that module's title |
| ModulesController.ModuleCascade | backend/Controllers/Modules/module.controller.js:73-83 | the transaction removes the module and exactly the videos with its id; other modules, videos and tables are untouched |
| ModulesController.DeleteModule | backend/Controllers/Modules/module.controller.js:56-96 | invalid id 400, absent module 404 with no writes, failing transaction 500 unchanged, success the cascade with the title (or `Module ID: ` and the raw parameter) and the video count read before |
| ModulesController.DeletedVideosCountIsExact | backend/Controllers/Modules/module.controller.js:85-89 | the reported count equals the number of videos the delete removed |
| ModulesController.DeleteModuleKeepsConsistency | backend/Controllers/Modules/module.controller.js:56-96 | deleting a module leaves no video without its module |
| ModulesController.AddModuleKeepsConsistency | backend/Controllers/Modules/module.controller.js:14-26 | a new module always has its course, so no orphan is created |
| ModulesController.UpdateModuleKeepsConsistency | backend/Controllers/Modules/module.controller.js:44-50 | renaming a module keeps the store consistent |
| ModulesController.GetModules | backend/Controllers/Modules/module.controller.js:101-124 | invalid id 400; otherwise exactly the modules of that course with their videos, the empty list when there are none |
| VideosController.AddVideo | backend/Controllers/Videos/video.controller.js:3-19 | a non-number module id makes Prisma reject (unanswered); an absent module 400 and no video; success stores exactly the four given fields |
| VideosController.Patch | backend/Controllers/Videos/video.controller.js:35-43 | each truthy field replaces the stored one, every other field and the module id stay |
| VideosController.PatchNeverClears | backend/Controllers/Videos/video.controller.js:35-43 | a field becomes falsy only if it already was: an update can never clear a field to `""` |
| VideosController.UpdateVideo | backend/Controllers/Videos/video.controller.js:21-47 | invalid id 400, all three fields falsy 400, absent video 500 (not 404), success the patch of that one video |
| VideosController.DeleteVideo | backend/Controllers/Videos/video.controller.js:49-69 | invalid id 400, absent id 404 (P2025), a failing write 500, success removes exactly that video |
| VideosController.AddVideoKeepsConsistency | backend/Controllers/Videos/video.controller.js:3-19 | a created video's module exists |
| VideosController.UpdateVideoKeepsConsistency | backend/Controllers/Videos/video.controller.js:21-47 | the partial update keeps the store consistent |
| VideosController.DeleteVideoKeepsConsistency | backend/Controllers/Videos/video.controller.js:49-69 | deleting a video keeps the store consistent |
| AuthController.SignUp | backend/Controllers/auth.controller.js:7-21 | a registered e-mail is 400 with no user created; otherwise one user storing the hash of the password (never the text) is created and returned with a token for it |
| AuthController.SignUpKeepsConsistency | backend/Controllers/auth.controller.js:11-17 | sign-up keeps e-mails unique |
| AuthController.SignIn | backend/Controllers/auth.controller.js:24-49 | unknown e-mail 404 before the password is compared, wrong password 401, otherwise a token and the user, with "Welcome Admin" exactly for the admin's e-mail |
| AuthController.SignInNeedsPassword | backend/Controllers/auth.controller.js:29-35 | a 200 from sign-in implies the password matches the stored hash of the user returned |
| AuthController.SignUpThenSignIn | backend/Controllers/auth.controller.js:7-49 | a user just signed up signs in with that password and gets back the same user row |
| AuthController.GetUserProfile | backend/Controllers/auth.controller.js:52-55 | the caller's own row, or `null` when it is gone |
| AuthController.UpdateUserProfile | backend/Controllers/auth.controller.js:57-64 | only the caller's name changes (an undefined name leaves it); a missing row is an unanswered rejection |
| AuthController.UpdateUserProfileOnlyName | backend/Controllers/auth.controller.js:57-63 | the profile update keeps the store consistent, touching no other user and no other field |
| Jwt.GenerateToken | backend/middlewares/JWT.js:4-10 | the token is the secret's signature of the id/e-mail/role payload |
| Jwt.TokenPayload | backend/middlewares/JWT.js:4-10 | the payload carries exactly the user's id, e-mail and role (a user row has no role) |
| Jwt.IssuedTokenAdmits | backend/middlewares/JWT.js:4-28 | a token from `generateToken`, sent back as `Bearer <token>`, admits its user with exactly the signed payload, given that verification inverts signing and the token has no space |
| Jwt.TokenOf | backend/middlewares/JWT.js:19 | `split(' ')[1]` is a space-free text |
| Jwt.Authenticate | backend/middlewares/JWT.js:12-28 | a missing header or one not starting with the exact `"Bearer "` is 401; a token that fails verification is 401; otherwise the decoded claims become `req.user`; every rejection is a 401 |
| Jwt.TokenIsSecondPiece | backend/middlewares/JWT.js:19 | the token is the first space-separated piece after `"Bearer "` |
| Jwt.FirstPiece | backend/middlewares/JWT.js:19 | a space-free text followed by nothing or a space is the first piece of the split |
| Jwt.TokenAfterScheme | backend/middlewares/JWT.js:19 | the token is the run of non-space text right after `"Bearer "` |
| Jwt.TokenExamples | backend/middlewares/JWT.js:19 | `"Bearer a b"` carries `"a"` and `"Bearer  x"` the empty token |
| Jwt.LowerCaseSchemeRejected | backend/middlewares/JWT.js:13-17 | the scheme is matched case-sensitively: a `bearer` header is refused |
| AdminGate.CheckAdmin | backend/middlewares/isAdmin.js:1-7 | `next` runs exactly when there is a user whose e-mail equals ADMIN_EMAIL; otherwise the 403 |
| AdminGate.IsAdmin | backend/middlewares/isAdmin.js:3 | there is a user and its e-mail is strictly equal to ADMIN_EMAIL, `undefined` included |
| AdminGate.OwnTokenIsAdminIff | backend/middlewares/isAdmin.js:2-3 | a token this server signed passes exactly when its user's e-mail is the configured admin e-mail; with ADMIN_EMAIL unset, none passes |
| AdminGate.CaseMattersForAdmin | backend/middlewares/isAdmin.js:3 | the comparison is exact: an e-mail differing in letter case is refused |
| CommentsController.CommentOnVideo | backend/Controllers/comments/comments.controller.js:4-25 | a falsy comment or video id, or a video id `parseInt` cannot read, is 400 "Missing required fields"; any other call is the 500 reply, since the file never declares `prisma`; the store never changes |
| CommentsController.GetCommentsByVideoId | backend/Controllers/comments/comments.controller.js:30-58 | a path id `parseInt` cannot read is 400 "Invalid video ID"; any other is the 500 reply "Failed to load comments"; the store never changes |
| Routes.Match | backend/Routes/routes.js:19-59 | a request selects a route only when its method and path are that route's line of the table |
| Routes.MatchFindsEveryRoute | backend/Routes/routes.js:19-59 | every line of the table is reached by its own method and path |
| Routes.Dispatch | backend/Routes/routes.js:19-59 | a request no route matches is 404 with the store unchanged |
| Routes.HandlePublic | backend/Routes/routes.js:19-37 | a public handler writes to the store only for a sign-up whose insert succeeds; a failing write reaches sign-up like any other handler |
| Routes.HandleAuthenticated | backend/Routes/routes.js:30-59 | reading the profile, listing one's courses and commenting never write to the store, and a failing write leaves it as it was |
| Routes.AdminRoutesAreGuarded | backend/Routes/routes.js:47-59 | every create/update/delete of a course, module or video runs `authenticate` then `isAdmin`: 401 or 403 with the store untouched unless the verified caller is the admin |
| Routes.UserRoutesAuthenticateOnly | backend/Routes/routes.js:21-40 | the profile routes, enroll, mycourses and comment run `authenticate` alone: a rejected token is 401 with the store untouched, and every verified caller, admin or not, reaches the handler |
| Routes.PublicRoutesReachHandler | backend/Routes/routes.js:19-37 | sign-up, sign-in, the course list, a course, modules by course and `GET /video/:videoId` run no middleware and go straight to their handler |
| Routes.NoTokenIsNever403 | backend/Routes/routes.js:47-59 | without a token, a protected route is 401, never 403 |
| Routes.PublicRoutesIgnoreHeader | backend/Routes/routes.js:26-37 | the public routes do not depend on the Authorization header |
| Routes.StatsAreUnreachable | backend/Routes/routes.js:19-59 | no route answers with the enrollment statistics |
| Routes.DispatchKeepsConsistency | backend/Routes/routes.js:19-59 | every request, answered or not, keeps the store consistent |
| JsText.TrimIsEmptyIffBlank | newfolder/src/Admin/Modules/ModuleSystem.tsx:75 | `!s.trim()` holds exactly for the texts made of white space only |
| JsText.IndexOf | backend/middlewares/JWT.js:19 | the first position of a character, none exactly when it does not occur |
| JsText.Split | backend/middlewares/JWT.js:19 | the pieces of a split hold no separator, and there is one piece exactly when the text has no separator |
| JsText.JoinSplit | backend/middlewares/JWT.js:19 | joining the pieces of a split with the separator gives the text back |
| JsText.SplitJoin | backend/middlewares/JWT.js:19 | separator-free pieces are recovered by splitting their join |
| JsText.ParseInt | backend/Controllers/Modules/module.controller.js:7 | `parseInt(s)` without radix: leading white space, an optional sign, then `0x` hexadecimal or decimal digits, the longest digit prefix; no digit is `NaN` (`None`) |
| JsText.ParseIntDecimalPrefix | backend/Controllers/Modules/module.controller.js:7 | after white space and an optional sign, `parseInt` reads the longest decimal prefix (`"12abc"` is 12) |
| JsText.ParseIntNoDigits | backend/Controllers/Modules/module.controller.js:7 | with no digit after the white space and sign, `parseInt` is `NaN` |
| JsText.ParseIntOfIntToString | backend/Controllers/courses/courses.controller.js:184 | `parseInt(String(n))` is `n` for every integer |
| JsValues.ParseIntOfNum | backend/Controllers/Modules/module.controller.js:12 | `parseInt` of a number body field is that number |
| JsValues.ParseIntOfNonNumeric | backend/Controllers/Modules/module.controller.js:7 | `undefined`, `null` and the booleans are `NaN` to `parseInt` |
| JsValues.Truthy | backend/Controllers/Modules/module.controller.js:7 | `!v` is false exactly for `undefined`, `null`, `false`, `0` and the empty string |
| JsValues.ToString | backend/Controllers/Modules/module.controller.js:7 | the text `parseInt` reads from a non-text argument: `String(v)` of `undefined`, `null`, a boolean or an integer |
| Catalog.FeaturedCourses | newfolder/src/data/courses.ts:103-105 | exactly the featured entries, in catalogue order |
| Catalog.CourseById | newfolder/src/data/courses.ts:107-109 | an entry with that id, or none exactly when no entry has it |
| Catalog.CoursesByCategory | newfolder/src/data/courses.ts:111-114 | `'all'` is the whole catalogue; any other argument exactly the entries of that category, in order |
| Catalog.IdsDistinct | newfolder/src/data/courses.ts:16-101 | catalogue ids are distinct |
| Catalog.CourseByIdFindsEntry | newfolder/src/data/courses.ts:16-109 | looking up an entry's id finds that very entry |
| Catalog.DiscountIsReal | newfolder/src/data/courses.ts:16-101 | every entry's discounted price is below its full price |
| Catalog.UnknownCategoryIsEmpty | newfolder/src/data/courses.ts:111-114 | any argument other than `'all'` that no entry's category matches gives the empty list |
| Catalog.IdIsPosition | newfolder/src/data/courses.ts:16-101 | the entry at position `i` carries the one-digit id `i + 1` |
| Catalog.FeaturedAreOneFourSix | newfolder/src/data/courses.ts:16-101 | entries 1, 4 and 6 are featured, and no other entry is |
| Catalog.CategoriesInUse | newfolder/src/data/courses.ts:16-101 | every entry is filed under `web` or `blockchain` |
| Catalog.NoDevopsNorWeb3 | newfolder/src/data/courses.ts:111-114 | filtering by `devops` or by `web3` gives the empty list |
| AdminCommon.Normalise | newfolder/src/Admin/Modules/ModuleManager.tsx:45 | an array body is used as is, else its named list field, else the empty list |
| AdminCommon.NormaliseIsStable | newfolder/src/Admin/AdminLayout.tsx:29 | normalising an already normalised list changes nothing |
| AdminCommon.Toggle | newfolder/src/Admin/Courses/CourseManager.tsx:40-42 | the expanded id collapses when clicked again, otherwise the clicked id expands |
| AdminCommon.ToggleTwice | newfolder/src/Admin/Modules/ModuleManager.tsx:63-65 | two clicks on the same header restore an expanded row and collapse any other |
| AdminCommon.ToggleSwitches | newfolder/src/Admin/Modules/ModuleManager.tsx:63-65 | clicking another row's header switches to it |
| Lists.Filter | newfolder/src/Admin/Modules/ModuleManager.tsx:113 | `filter` keeps only passing elements and every passing element, in their original order |
| Lists.FilterCounts | newfolder/src/Admin/Modules/ModuleManager.tsx:113 | `filter` keeps every copy of a passing element, duplicates included, and no copy of a failing one |
| Lists.FilterAppend | newfolder/src/Admin/Modules/ModuleManager.tsx:113 | filtering a concatenation filters each part |
| Lists.MapWhere | newfolder/src/Admin/Modules/ModuleManager.tsx:94-96 | the conditional `map` keeps the length and changes exactly the hit elements |
| Lists.FindIndex | newfolder/src/Admin/Modules/ModuleManager.tsx:209-211 | the first index satisfying the test, none exactly when no element does |
| Lists.Find | newfolder/src/Admin/Modules/ModuleManager.tsx:209-211 | `find` gives an element satisfying the test, none exactly when no element does |
| AdminCommon.LoadOrEmpty | newfolder/src/Admin/Modules/ModuleManager.tsx:40-54 | the normalised response, or the empty list when the request failed; the sidebar loads its courses by the same rule (newfolder/src/Admin/AdminLayout.tsx:26-37) |
| ModuleManager.ToggleModuleExpand | newfolder/src/Admin/Modules/ModuleManager.tsx:63-65 | collapses the expanded id, otherwise expands the given one |
| ModuleManager.CardVideoCount | newfolder/src/components/ModuleCard.tsx:48 | a card's header can read the video count exactly when the entry carries a video list |
| ModuleManager.AddModuleAsWritten | newfolder/src/Admin/Modules/ModuleManager.tsx:68-83 | as written: the server's bare row is appended after the unchanged list |
| ModuleManager.AddModuleAsWrittenBreaksCard | newfolder/src/Admin/Modules/ModuleManager.tsx:78 | after a successful add, the new entry's card cannot read its video count |
| ModuleManager.AddModule | newfolder/src/Admin/Modules/ModuleManager.tsx:68-83 | corrected: the created module is appended with an empty video list; a failed request changes nothing |
| ModuleManager.AddModuleRendersEveryCard | newfolder/src/Admin/Modules/ModuleManager.tsx:78 | every card of the corrected list renders, the new one showing 0 videos |
| ModuleManager.UpdateModuleAsWritten | newfolder/src/Admin/Modules/ModuleManager.tsx:85-103 | as written: every module with that id is replaced by the bare row, the rest kept in place |
| ModuleManager.UpdateModuleAsWrittenBreaksCard | newfolder/src/Admin/Modules/ModuleManager.tsx:94-96 | after a successful rename, the renamed module's card cannot read its video count |
| ModuleManager.UpdateModule | newfolder/src/Admin/Modules/ModuleManager.tsx:85-103 | corrected: the modules with that id take the reply's title and keep their videos; length and order are kept; a failure changes nothing |
| ModuleManager.UpdateModuleOnlyRetitles | newfolder/src/Admin/Modules/ModuleManager.tsx:94-96 | a rename changes only titles: ids, videos and order stay |
| ModuleManager.DeleteModule | newfolder/src/Admin/Modules/ModuleManager.tsx:105-118 | only after confirmation and a successful request, exactly the modules with that id go, the others stay in order, each with all its copies |
| ModuleManager.AddThenDeleteModule | newfolder/src/Admin/Modules/ModuleManager.tsx:68-118 | deleting a module just added under a new id gives the list back |
| ModuleManager.AddVideo | newfolder/src/Admin/Modules/ModuleManager.tsx:121-142 | the reply is appended to the videos of the modules with that id; every other module is unchanged |
| ModuleManager.UpdateVideo | newfolder/src/Admin/Modules/ModuleManager.tsx:144-172 | inside the modules with that id, exactly the videos with that id are replaced; everything else is unchanged |
| ModuleManager.DeleteVideo | newfolder/src/Admin/Modules/ModuleManager.tsx:174-193 | after confirmation and success, exactly the matching videos of the matching modules go; every other video stays in order with all its copies, and other modules are untouched |
| ModuleManager.AddThenDeleteVideo | newfolder/src/Admin/Modules/ModuleManager.tsx:121-193 | deleting a video just added under a new id gives the list back |
| ModuleManager.OpenEditVideoModal | newfolder/src/Admin/Modules/ModuleManager.tsx:206-216 | the first module holding the video is selected; the selection is unchanged when none holds it |
| ModuleManager.EditAfterAddSelectsItsModule | newfolder/src/Admin/Modules/ModuleManager.tsx:121-216 | editing a video just added to a module selects that module |
| ModuleSystem.SubmitAddModule | newfolder/src/Admin/Modules/ModuleSystem.tsx:73-78 | submits the untrimmed title exactly when its trim is non-empty, and closes exactly then |
| ModuleSystem.SubmitEditModule | newfolder/src/Admin/Modules/ModuleSystem.tsx:109-117 | a blank or unchanged title closes without submitting; otherwise the untrimmed title is submitted and the dialog stays open |
| ModuleSystem.NonBlankAppend | newfolder/src/Admin/Modules/ModuleSystem.tsx:111 | appending to a non-blank title leaves it non-blank |
| ModuleSystem.TrailingSpaceIsAChange | newfolder/src/Admin/Modules/ModuleSystem.tsx:111 | a title with an added trailing space counts as a change and is submitted |
| ModuleSystem.SentTitleIsTruthy | newfolder/src/Admin/Modules/ModuleSystem.tsx:73-78 | a submitted title passes the server's `!title` check |
| VideoSystem.VideoGrid | newfolder/src/Admin/Video/VideoSystem.tsx:91-118 | the add-first prompt exactly for an empty list, otherwise cards carrying the module id |
| VideoSystem.GridShowsEveryVideo | newfolder/src/Admin/Video/VideoSystem.tsx:106-117 | the grid shows one card per video, in order |
| VideoSystem.SubmitAddVideo | newfolder/src/Admin/Video/VideoSystem.tsx:140-146 | ignored exactly when title or url is empty; otherwise the form is passed with the module id, reset to blanks and the dialog closes |
| VideoSystem.EditForm | newfolder/src/Admin/Video/VideoSystem.tsx:178-182 | the form starts from the video's fields, a missing thumbnail as `''` |
| VideoSystem.SubmitEditVideo | newfolder/src/Admin/Video/VideoSystem.tsx:189-195 | ignored exactly when title or url is blank; otherwise the original video id and the given module id are submitted and the dialog closes |
| VideoSystem.EditGuardIsStricter | newfolder/src/Admin/Video/VideoSystem.tsx:140-191 | every edit the edit guard passes would pass the add guard, but a one-space title passes only the add guard |
| VideoSystem.UntouchedEditResends | newfolder/src/Admin/Video/VideoSystem.tsx:178-195 | saving an untouched form of a video with a non-blank title and url resends its fields |
| CourseManager.LoadCourses | newfolder/src/Admin/Courses/CourseManager.tsx:23-34 | the normalised response replaces the list; a failure leaves the screen unchanged |
| CourseManager.ToggleCourseExpand | newfolder/src/Admin/Courses/CourseManager.tsx:40-42 | the toggle applied to the expanded course |
| CourseManager.OpenEdit | newfolder/src/Admin/Courses/CourseManager.tsx:44-47 | the edit dialog opens about that course; the list is unchanged |
| CourseManager.OpenDeleteConfirm | newfolder/src/Admin/Courses/CourseManager.tsx:49-52 | the delete dialog opens about that course; the list is unchanged |
| CourseManager.AddCourse | newfolder/src/Admin/Courses/CourseManager.tsx:54-67 | the reply is appended and the dialog closes; a failure changes nothing |
| CourseManager.UpdateCourse | newfolder/src/Admin/Courses/CourseManager.tsx:69-81 | no current course or a failure is a no-op; otherwise exactly the courses with the current id are replaced, the length kept, the dialog closed and the current course cleared |
| CourseManager.DeleteCourse | newfolder/src/Admin/Courses/CourseManager.tsx:83-95 | no current course or a failure is a no-op; otherwise exactly the courses with the current id go, the others stay in order, each with all its copies |
| CourseManager.AddThenDeleteCourse | newfolder/src/Admin/Courses/CourseManager.tsx:54-95 | deleting a course just added under a new id gives the list back |
| CourseManager.UpdateKeepsIds | newfolder/src/Admin/Courses/CourseManager.tsx:69-77 | an update whose reply keeps the id keeps the list's ids in order |
| CourseDetailPage.MessageOf | newfolder/src/Users/CourseDetailPage.tsx:102-104 | `error.response.data.message` for the reply bodies that carry one |
| CourseDetailPage.AnswerOf | newfolder/src/Users/CourseDetailPage.tsx:79-105 | a 2xx reply resolves, any other rejects with its status and the body's message when it is a non-empty text |
| CourseDetailPage.FailureText | newfolder/src/Users/CourseDetailPage.tsx:97-107 | 401 is the sign-in text; 400 the server's message or "Already enrolled in this course"; anything else the server's message or "Failed to enroll in course" |
| CourseDetailPage.HandleBuy | newfolder/src/Users/CourseDetailPage.tsx:64-111 | no token: sign-in text, no request; no course: "Course data not available", no request; else the body `{ courseId }` alone, and loading is cleared on every answered path |
| CourseDetailPage.MessageStyle | newfolder/src/Users/CourseDetailPage.tsx:249-254 | green exactly when the text contains `Success` or `enrolled` |
| CourseDetailPage.GreenWithMarker | newfolder/src/Users/CourseDetailPage.tsx:251 | any text containing `Success` or `enrolled` is green |
| CourseDetailPage.EnrolledTextIsGreen | newfolder/src/Users/CourseDetailPage.tsx:91 | the success text is green |
| CourseDetailPage.AlreadyEnrolledTextIsGreen | newfolder/src/Users/CourseDetailPage.tsx:102 | the default already-enrolled text is green |
| CourseDetailPage.RedWithout | newfolder/src/Users/CourseDetailPage.tsx:251-253 | a text lacking a letter of each keyword is red |
| CourseDetailPage.SignInPromptIsRed | newfolder/src/Users/CourseDetailPage.tsx:100 | the sign-in text is red although it contains `enroll` |
| CourseDetailPage.AlreadyEnrolledLooksLikeSuccess | newfolder/src/Users/CourseDetailPage.tsx:101-102 | a second enroll makes the server answer 400 "Already enrolled", which the page shows, in green |
| CourseDetailPage.RejectedTokenAsksToSignIn | newfolder/src/Users/CourseDetailPage.tsx:99-100 | whenever the token gate turns the request away, the page asks the user to sign in |
| AdminLayout.Truncate | newfolder/src/Admin/AdminLayout.tsx:137-139 | a title of at most 30 characters is unchanged; a longer one is its first 30 followed by `...` |
| AdminLayout.TruncateProperties | newfolder/src/Admin/AdminLayout.tsx:137-139 | the caption is at most 33 long, starts like the title, and truncating twice is truncating once |
| AdminLayout.Links | newfolder/src/Admin/AdminLayout.tsx:125-140 | one link per course, in order, to `/admin/modules/` followed by the course id, captioned with the truncated title |
| AdminLayout.CourseMenu | newfolder/src/Admin/AdminLayout.tsx:120-142 | "Loading..." while loading, "No courses found" exactly for an empty list, otherwise the links |
| AdminLayout.FailedLoadShowsNoCourses | newfolder/src/Admin/AdminLayout.tsx:31-33 | a failed load ends in the "No courses found" menu |
| AdminLayout.LinkLeadsToItsCourse | newfolder/src/Admin/AdminLayout.tsx:128 | the link's last segment is read back by the server's path-id guard as the course id |
| ThumbnailSlider.Tick | newfolder/src/components/ThumbnailSlider.tsx:15 | one tick moves to the next index, wrapping from the last to 0 |
| ThumbnailSlider.Ticks | newfolder/src/components/ThumbnailSlider.tsx:11-19 | with at most one thumbnail no timer runs and the index stays; otherwise any tick lands in range |
| ThumbnailSlider.TicksCount | newfolder/src/components/ThumbnailSlider.tsx:15 | below the wrap-around point, `k` ticks add `k` |
| ThumbnailSlider.TicksCompose | newfolder/src/components/ThumbnailSlider.tsx:14-16 | `a` ticks then `b` ticks are `a + b` ticks |
| ThumbnailSlider.StaysInRange | newfolder/src/components/ThumbnailSlider.tsx:9-15 | from the mount index 0 with at least one thumbnail, the index stays in range |
| ThumbnailSlider.FullCycleReturns | newfolder/src/components/ThumbnailSlider.tsx:15 | after `n` ticks the index is back where it started |
| ThumbnailSlider.ShrinkBehaviour | newfolder/src/components/ThumbnailSlider.tsx:9-19 | an index left out of range by a shrink stays out of range with at most one thumbnail, and re-enters on the next tick otherwise |

## Left out

- I/O, timers and rendering: requests, `alert`, `console`, `localStorage` and the 2.5-second interval are not modelled; a request's outcome and a timer tick are inputs.
- Concurrency: each handler runs alone, so the check-then-insert races in enroll, addCourse and signUp and the read-then-transaction gap in both deletes are not modelled.
- Numbers are integers: fractional numbers, `NaN` and the infinities in request bodies, `parseFloat` (an uninterpreted function of `Env`), prices and `discountPercentage` are not modelled, and ids are unbounded rather than 32-bit.
- Strings are sequences of Unicode code points (Dafny `char`), not the UTF-16 code units JavaScript counts; the two agree on text inside the Basic Multilingual Plane. `parseInt` covers radix 10 and the `0x` prefix only.
- AdminLayout.Truncate: it counts and cuts code points, while `title.length` and `substring(0, 30)` count UTF-16 code units. For titles outside the Basic Multilingual Plane the page differs: a title of 20 emoji has length 40, so the page shows 15 emoji and `...` where the model keeps all 20, and one of 31 emoji is cut to 15 on the page and to 30 in the model, and the page can split a surrogate pair.
- Prisma's validation of column types is modelled only for id and foreign-key values (a non-numeric id makes the call throw). A wrongly typed value for another column, such as a number sent as `title`, is stored as given by the model, where Prisma would reject the write.
- Store reads never fail; only writes carry the `fault` flag.
- `Unanswered` stands for a rejection of an async handler that no `try` catches (an invalid Prisma filter, bcrypt on a missing password, a failing write outside a `try`). What the runtime does next is not modelled: no error handler is installed, so under Express 4 on Node 15 or later the unhandled rejection ends the server process and later requests fail until a restart, while Express 5 turns it into a 500 reply. The model answers later requests from the unchanged store, and the page's `Pending` state is the request before it settles; once the connection drops, the page would show its generic failure text.
- `createdAt` and other columns the handlers do not mention are not modelled; query results are maps by id, since Prisma promises no order without `orderBy`.
- CommentsController: the file never declares `prisma`, so past its 400 guards every call ends in the 500 reply; the comment table and the 201 and 200 replies that code cannot reach are not modelled.
- The text of a caught exception (`error.message`, the `Thrown` body) is not modelled.
- `markVideoComplete` (backend/Controllers/Videos/video.controller.js:71-74) is not routed and not modelled.
- Express's case-insensitive paths and optional trailing slash are not modelled: the route table matches segments exactly.
- The unrouted controllers (admin.controller.js, user.controller.js, course.controller.js) and the unrouted duplicate screens under `pages/admin`, `Admin/Modules/modal`, `Admin/Video/Modals` and `frontend/` are not part of this model.
- Rendering state is not modelled beyond the lists and selections: ModuleManager's dialog flags, loading and error state; CourseManager's `loading` flag and its "Loading courses..." screen; and the sidebar's `isCoursesExpanded` switch that shows or hides the course menu at all.
- Catalog: the description, image, dates, tags and syllabus of the catalogue entries are not modelled.
- Routes.Dispatch: its own contract states only the no-route case; which middleware each route runs is stated by PublicRoutesReachHandler (the six public routes), UserRoutesAuthenticateOnly (the five routes behind `authenticate` alone) and AdminRoutesAreGuarded (the nine admin routes), and the outcome of every request by NoTokenIsNever403, PublicRoutesIgnoreHeader, StatsAreUnreachable and DispatchKeepsConsistency.
- Jwt.TokenOf: its own contract states only that the token has no space; the lemmas after it pin down which text it is.
- CourseDetailPage.HandleBuy: the message of a still-pending request is `None` and loading is on; the promise's later settlement is the same function applied to its answer.

## Findings

| source | as written | input that shows it | evidently intended | confidence | as-written member | corrected member |
|---|---|---|---|---|---|---|
| newfolder/src/Admin/Modules/ModuleManager.tsx:78 | `setModules([...modules, res.data])` appends the server reply, which is the bare module row created at backend/Controllers/Modules/module.controller.js:22-26 with no `videos` field; each module card reads `module.videos.length` (newfolder/src/components/ModuleCard.tsx:48) | any successful add, e.g. a reply `{ id: 7, title: "Intro", courseId: 3 }` | append the new module with an empty video list, so its card shows 0 videos | not executed | ModuleManager.AddModuleAsWritten, ModuleManager.AddModuleAsWrittenBreaksCard | ModuleManager.AddModule, ModuleManager.AddModuleRendersEveryCard |
| newfolder/src/Admin/Modules/ModuleManager.tsx:94-96 | every module with the edited id is replaced by the reply, which is the bare updated row of backend/Controllers/Modules/module.controller.js:45-50 with no `videos` field, so the renamed module's card can no longer read its video count and its videos vanish from the screen | any successful rename of a listed module | keep the module's videos and take only the new title | not executed | ModuleManager.UpdateModuleAsWritten, ModuleManager.UpdateModuleAsWrittenBreaksCard | ModuleManager.UpdateModule, ModuleManager.UpdateModuleOnlyRetitles |

=== FILE: admin_common.dfy ===
/** Small rules the admin screens share: how a list response is
    normalised and loaded, and how clicking a row's header toggles which row is
    expanded. */
module AdminCommon {
  import opened Wrappers

  /** A list response body: a JSON array, or an object whose named list
      field (`courses`, `modules`) is present and truthy, or is not. */
  datatype Payload<T> = ArrayBody(items: seq<T>) | ObjectBody(field: Option<seq<T>>)

  /** `Array.isArray(data) ? data : data.<field> || []`. */
  function Normalise<T>(p: Payload<T>): (r: seq<T>)
    ensures p.ArrayBody? ==> r == p.items
    ensures p.ObjectBody? && p.field.Some? ==> r == p.field.value
    ensures p.ObjectBody? && p.field.None? ==> r == []
  {
    match p
    case ArrayBody(items) => items
    case ObjectBody(field) => field.GetOr([])
  }

  /** The list a screen shows after a fetch that empties it on failure:
      the normalised response, or the empty list when the request failed. */
  function LoadOrEmpty<T>(response: Option<Payload<T>>): (r: seq<T>)
    ensures response.None? ==> r == []
    ensures response.Some? ==> r == Normalise(response.value)
  {
    match response
    case None => []
    case Some(p) => Normalise(p)
  }

  /** Normalising is stable: an array built from a normalised response
      normalises to the same list. */
  lemma NormaliseIsStable<T>(p: Payload<T>)
    ensures Normalise(ArrayBody(Normalise(p))) == Normalise(p)
    ensures Normalise(ObjectBody(Some(Normalise(p)))) == Normalise(p)
  {}

  /** `setExpanded(expanded === id ? null : id)`. */
  function Toggle<T(==)>(expanded: Option<T>, id: T): (r: Option<T>)
    ensures expanded == Some(id) ==> r.None?
    ensures expanded != Some(id) ==> r == Some(id)
  {
    if expanded == Some(id) then None else Some(id)
  }

  /** Clicking the same header twice restores an expanded row, and leaves
      every other starting state collapsed; at most one row is ever open. */
  lemma ToggleTwice<T>(expanded: Option<T>, id: T)
    ensures Toggle(Toggle(expanded, id), id) == if expanded == Some(id) then expanded else None
  {}

  /** Clicking another row's header switches to it. */
  lemma ToggleSwitches<T>(current: T, id: T)
    requires current != id
    ensures Toggle(Some(current), id) == Some(id)
  {}
}

=== FILE: admin_layout.dfy ===
/** The admin sidebar's course menu: the course list it loads, the title
    shortening it applies, and the link each course gets. */
module AdminLayout {
  import opened Wrappers
  import opened JsText
  import opened JsValues
  import opened AdminCommon
  import ModulesController

  /** A course as the sidebar reads it. */
  datatype Course = Course(id: JsValue, title: string)

  const MaxTitle: nat := 30
  const Ellipsis: string := "..."

  /** A title longer than 30 characters is cut to its first 30 followed by
      `...`; a shorter one is shown as it is. */
  function Truncate(title: string): (r: string)
    ensures |title| <= MaxTitle ==> r == title
    ensures |title| > MaxTitle ==> r == title[..MaxTitle] + Ellipsis
  {
    if |title| > MaxTitle then title[..MaxTitle] + Ellipsis else title
  }

  /** The shown caption is at most 33 characters long, starts like the title,
      and truncating it again changes nothing. */
  lemma TruncateProperties(title: string)
    ensures |Truncate(title)| <= MaxTitle + |Ellipsis|
    ensures |title| > MaxTitle ==> Truncate(title)[..MaxTitle] == title[..MaxTitle]
    ensures Truncate(Truncate(title)) == Truncate(title)
  {
    if |title| > MaxTitle {
      var r := Truncate(title);
      assert r[..MaxTitle] == title[..MaxTitle];
    }
  }

  /** A link of the course menu: its target and its caption. */
  datatype Link = Link(to: string, caption: string)

  const ModulesRoute: string := "/admin/modules/"

  /** One link per course, in list order, to that course's module screen. */
  function Links(courses: seq<Course>): (r: seq<Link>)
    ensures |r| == |courses|
    ensures forall i :: 0 <= i < |courses| ==>
              r[i].caption == Truncate(courses[i].title)
              && StartsWith(r[i].to, ModulesRoute)
              && r[i].to[|ModulesRoute|..] == ToString(courses[i].id)
  {
    seq(|courses|, i requires 0 <= i < |courses| => Link(ModulesRoute + ToString(courses[i].id), Truncate(courses[i].title)))
  }

  /** What the course menu shows. */
  datatype Menu = LoadingMenu | NoCourses | CourseLinks(links: seq<Link>)

  function CourseMenu(loading: bool, courses: seq<Course>): (m: Menu)
    ensures loading <==> m.LoadingMenu?
    ensures !loading ==> (m.NoCourses? <==> |courses| == 0)
    ensures m.CourseLinks? ==> m.links == Links(courses)
  {
    if loading then LoadingMenu
    else if |courses| == 0 then NoCourses
    else CourseLinks(Links(courses))
  }

  /** A failed load ends in the "No courses found" menu. */
  lemma FailedLoadShowsNoCourses()
    ensures CourseMenu(false, LoadOrEmpty<Course>(None)) == NoCourses
  {}

  /** A course with a numeric id links to the module screen of that very
      course: the path segment after `/admin/modules/` is read back by the
      server's `parseInt` as the id. */
  lemma LinkLeadsToItsCourse(id: int, title: string)
    ensures var link := Links([Course(Num(id), title)])[0];
      ModulesController.PathId(link.to[|ModulesRoute|..]) == Some(id)
  {
    ParseIntOfIntToString(id);
  }
}

=== FILE: auth_controller.dfy ===
/** The user handlers: sign-up, sign-in and the caller's profile. Hashing
    and comparing passwords are the uninterpreted `Env.hash`/`Env.compare`. */
module AuthController {
  import opened Wrappers
  import opened JsValues
  import opened Database
  import opened Http
  import opened Jwt

  /** `POST /signUp`. The lookup by e-mail, the hash and the insert all run
      outside any `try`: a non-text e-mail fails the lookup, a non-text
      password fails bcrypt, and a failed insert is a rejected promise; none
      of them is answered. */
  function SignUp(env: Env, s: Store, name: JsValue, email: JsValue, password: JsValue, fault: bool): (o: Outcome)
    requires TablesValid(s)
    ensures !email.Str? ==> o == Outcome(Unanswered, s)
    ensures email.Str? && UserByEmail(s, email.s).Some? ==>
              o == Outcome(Reply(400, Message("Email already registered")), s)
    ensures email.Str? && UserByEmail(s, email.s).None? && (!password.Str? || fault) ==>
              o == Outcome(Unanswered, s)
    ensures email.Str? && UserByEmail(s, email.s).None? && password.Str? && !fault ==>
              o.response.Reply? && o.response.status == 200 && o.response.body.Auth?
              && var row := o.response.body.user;
                 row.value == User(name, email.s, env.hash(password.s))
                 && row.id !in s.users.rows
                 && o.response.body.token == GenerateToken(env, row)
                 && o.response.body.welcome.None?
                 && o.store == s.(users := o.store.users)
                 && o.store.users.rows == s.users.rows[row.id := row.value]
  {
    if !email.Str? then Outcome(Unanswered, s)
    else if UserByEmail(s, email.s).Some? then Outcome(Reply(400, Message("Email already registered")), s)
    else if !password.Str? || fault then Outcome(Unanswered, s)
    else
      var u := User(name, email.s, env.hash(password.s));
      var (t, id) := s.users.Insert(u);
      var row := Row(id, u);
      Outcome(Reply(200, Auth(None, GenerateToken(env, row), row)), s.(users := t))
  }

  /** Sign-up keeps e-mail addresses unique. */
  lemma SignUpKeepsConsistency(env: Env, s: Store, name: JsValue, email: JsValue, password: JsValue, fault: bool)
    requires Consistent(s)
    ensures Consistent(SignUp(env, s, name, email, password, fault).store)
  {
    var o := SignUp(env, s, name, email, password, fault);
    if o.store != s {
      assert forall u :: u in s.users.rows ==> s.users.rows[u].email != email.s;
    }
  }

  /** `POST /signIn`, all inside a `try`: an unknown e-mail is a 404 before the
      password is compared, a wrong password a 401; a non-text e-mail or
      password makes Prisma or bcrypt throw, answered with its message. The
      admin's sign-in carries a welcome message. */
  function SignIn(env: Env, s: Store, email: JsValue, password: JsValue): (o: Outcome)
    ensures o.store == s
    ensures !email.Str? ==> o.response == Reply(500, Thrown)
    ensures email.Str? && UserByEmail(s, email.s).None? ==> o.response == Reply(404, Message("User not found"))
    ensures email.Str? && UserByEmail(s, email.s).Some? ==>
              var row := UserByEmail(s, email.s).value;
              if !password.Str? then o.response == Reply(500, Thrown)
              else if !env.compare(password.s, row.value.password) then
                o.response == Reply(401, Message("Invalid password"))
              else
                o.response == Reply(200, Auth(if Some(email.s) == env.adminEmail then Some("Welcome Admin") else None,
                                              GenerateToken(env, row), row))
  {
    if !email.Str? then Outcome(Reply(500, Thrown), s)
    else match UserByEmail(s, email.s)
      case None => Outcome(Reply(404, Message("User not found")), s)
      case Some(row) =>
        if !password.Str? then Outcome(Reply(500, Thrown), s)
        else if !env.compare(password.s, row.value.password) then Outcome(Reply(401, Message("Invalid password")), s)
        else
          var token := GenerateToken(env, row);
          if Some(email.s) == env.adminEmail then Outcome(Reply(200, Auth(Some("Welcome Admin"), token, row)), s)
          else Outcome(Reply(200, Auth(None, token, row)), s)
  }

  /** Only a correct e-mail/password pair gets a token: whenever sign-in
      answers 200, the password matches the stored hash of that user. */
  lemma SignInNeedsPassword(env: Env, s: Store, email: JsValue, password: JsValue)
    requires EmailsUnique(s)
    ensures var o := SignIn(env, s, email, password);
      o.response.Reply? && o.response.status == 200 ==>
        email.Str? && password.Str?
        && exists u :: u in s.users.rows && s.users.rows[u].email == email.s
                       && env.compare(password.s, s.users.rows[u].password)
                       && o.response.body.user == Row(u, s.users.rows[u])
  {}

  /** A user signed up with a password signs in with it, provided the hash
      and compare functions agree, as bcrypt's do. */
  lemma SignUpThenSignIn(env: Env, s: Store, name: JsValue, email: string, password: string)
    requires Consistent(s)
    requires UserByEmail(s, email).None?
    requires env.compare(password, env.hash(password))
    ensures var o := SignUp(env, s, name, Str(email), Str(password), false);
      var o2 := SignIn(env, o.store, Str(email), Str(password));
      o2.response.Reply? && o2.response.status == 200 && o2.response.body.user == o.response.body.user
  {
    var o := SignUp(env, s, name, Str(email), Str(password), false);
    SignUpKeepsConsistency(env, s, name, Str(email), Str(password), false);
    var row := o.response.body.user;
    UserByEmailIsTheOne(o.store, email, row.id);
  }

  /** `GET /profile`: the caller's row, or `null` when it is gone. */
  function GetUserProfile(s: Store, user: Claims): (o: Outcome)
    ensures o.store == s && o.response.Reply? && o.response.status == 200 && o.response.body.Profile?
    ensures o.response.body.found.Some? <==> user.id in s.users.rows
    ensures o.response.body.found.Some? ==> o.response.body.found.value == Row(user.id, s.users.rows[user.id])
  {
    if user.id in s.users.rows then Outcome(Reply(200, Profile(Some(Row(user.id, s.users.rows[user.id])))), s)
    else Outcome(Reply(200, Profile(None)), s)
  }

  /** `PUT /profile`: only the caller's name changes; an undefined name leaves
      the row as it is. A missing row makes the update throw outside any
      `try`, so the request is not answered. */
  function UpdateUserProfile(s: Store, user: Claims, name: JsValue, fault: bool): (o: Outcome)
    ensures user.id !in s.users.rows || fault ==> o == Outcome(Unanswered, s)
    ensures user.id in s.users.rows && !fault ==>
              var u := s.users.rows[user.id];
              var u' := if name.Undefined? then u else u.(name := name);
              o == Outcome(Reply(200, Profile(Some(Row(user.id, u')))), s.(users := s.users.Put(user.id, u')))
  {
    if user.id !in s.users.rows || fault then Outcome(Unanswered, s)
    else
      var u := s.users.rows[user.id];
      var u' := if name.Undefined? then u else u.(name := name);
      Outcome(Reply(200, Profile(Some(Row(user.id, u')))), s.(users := s.users.Put(user.id, u')))
  }

  /** Updating the profile touches no other user and no other field. */
  lemma UpdateUserProfileOnlyName(s: Store, user: Claims, name: JsValue, fault: bool)
    requires Consistent(s)
    ensures var o := UpdateUserProfile(s, user, name, fault);
      Consistent(o.store)
      && o.store == s.(users := o.store.users)
      && o.store.users.rows.Keys == s.users.rows.Keys
      && forall u :: u in s.users.rows ==>
           o.store.users.rows[u].email == s.users.rows[u].email
           && o.store.users.rows[u].password == s.users.rows[u].password
           && (u != user.id ==> o.store.users.rows[u] == s.users.rows[u])
  {}
}

=== FILE: catalog.dfy ===
/** The static course catalogue the storefront ships with, and its three
    queries: featured courses, lookup by id and filtering by category. */
module Catalog {
  import opened Wrappers
  import opened Lists

  datatype Category = Web | Devops | Web3 | Blockchain

  /** The category as the catalogue spells it. */
  function CategoryName(c: Category): string {
    match c
    case Web => "web"
    case Devops => "devops"
    case Web3 => "web3"
    case Blockchain => "blockchain"
  }

  /** A catalogue entry; descriptions, images, dates, tags and the
      floating-point discount percentage are not modelled. Prices are whole
      rupees. */
  datatype CatalogCourse = CatalogCourse(id: string, title: string, fullPrice: nat, discountedPrice: nat,
                                         category: Category, featured: bool)

  /** The catalogue entries of `courses.ts`, one constant each. */
  const Entry1: CatalogCourse := CatalogCourse("1", "Complete Web Development + Devops + Blockchain Cohort", 8499, 5989, Web, true)
  const Entry2: CatalogCourse := CatalogCourse("2", "Complete Web development + Devops Cohort", 5999, 4989, Web, false)
  const Entry3: CatalogCourse := CatalogCourse("3", "Complete Web3/Blockchain Cohort", 5999, 4989, Blockchain, false)
  const Entry4: CatalogCourse := CatalogCourse("4", "Frontend Development Masterclass", 4999, 3989, Web, true)
  const Entry5: CatalogCourse := CatalogCourse("5", "Backend Engineering with Node.js", 4999, 3989, Web, false)
  const Entry6: CatalogCourse := CatalogCourse("6", "Smart Contract Development", 6999, 5499, Blockchain, true)

  /** The catalogue, in its declared order. */
  const Courses: seq<CatalogCourse> := [Entry1, Entry2, Entry3, Entry4, Entry5, Entry6]

  predicate IsFeatured(c: CatalogCourse) {
    c.featured
  }

  /** The featured entries of `xs`, in order. */
  function FeaturedIn(xs: seq<CatalogCourse>): (r: seq<CatalogCourse>)
    ensures forall i :: 0 <= i < |r| ==> r[i] in xs && IsFeatured(r[i])
    ensures forall i :: 0 <= i < |xs| && IsFeatured(xs[i]) ==> xs[i] in r
    ensures IsSubsequence(r, xs)
  {
    Filter(xs, IsFeatured)
  }

  /** `getFeaturedCourses()`: the featured entries, in catalogue order. */
  function FeaturedCourses(): (r: seq<CatalogCourse>)
    ensures forall i :: 0 <= i < |r| ==> r[i] in Courses && IsFeatured(r[i])
    ensures forall i :: 0 <= i < |Courses| && IsFeatured(Courses[i]) ==> Courses[i] in r
    ensures IsSubsequence(r, Courses)
  {
    FeaturedIn(Courses)
  }

  /** The first entry of `xs` with that id, or undefined. */
  function EntryWithId(xs: seq<CatalogCourse>, id: string): (r: Option<CatalogCourse>)
    ensures r.None? <==> forall i :: 0 <= i < |xs| ==> xs[i].id != id
    ensures r.Some? ==> r.value in xs && r.value.id == id
  {
    Find(xs, (c: CatalogCourse) => c.id == id)
  }

  /** `getCourseById(id)`: the first catalogue entry with that id, or undefined. */
  function CourseById(id: string): (r: Option<CatalogCourse>)
    ensures r.None? <==> forall i :: 0 <= i < |Courses| ==> Courses[i].id != id
    ensures r.Some? ==> r.value in Courses && r.value.id == id
  {
    EntryWithId(Courses, id)
  }

  /** The entries of `xs` whose category is spelt `category`, in order. */
  function EntriesIn(xs: seq<CatalogCourse>, category: string): (r: seq<CatalogCourse>)
    ensures forall i :: 0 <= i < |r| ==> r[i] in xs && CategoryName(r[i].category) == category
    ensures forall i :: 0 <= i < |xs| && CategoryName(xs[i].category) == category ==> xs[i] in r
    ensures IsSubsequence(r, xs)
  {
    Filter(xs, (c: CatalogCourse) => CategoryName(c.category) == category)
  }

  /** `getCoursesByCategory(category)`: `'all'` is the whole catalogue,
      anything else the entries whose category is spelt that way, in order. */
  function CoursesByCategory(category: string): (r: seq<CatalogCourse>)
    ensures category == "all" ==> r == Courses
    ensures category != "all" ==>
              && (forall i :: 0 <= i < |r| ==> r[i] in Courses && CategoryName(r[i].category) == category)
              && (forall i :: 0 <= i < |Courses| && CategoryName(Courses[i].category) == category ==> Courses[i] in r)
    ensures IsSubsequence(r, Courses)
  {
    if category == "all" then
      SubsequenceOfItself(Courses);
      Courses
    else EntriesIn(Courses, category)
  }

  /** The catalogue's ids are pairwise distinct. */
  lemma IdsDistinct()
    ensures forall i, j :: 0 <= i < j < |Courses| ==> Courses[i].id != Courses[j].id
  {
    forall i, j | 0 <= i < j < |Courses|
      ensures Courses[i].id != Courses[j].id
    {
      IdIsPosition(i);
      IdIsPosition(j);
      assert Courses[i].id[0] != Courses[j].id[0];
    }
  }

  /** The entry at position `i` has the id `i + 1`, written as one digit. */
  lemma IdIsPosition(i: nat)
    requires i < |Courses|
    ensures Courses[i].id == [('1' as int + i) as char]
  {
    if i == 0 {} else if i == 1 {} else if i == 2 {} else if i == 3 {} else if i == 4 {} else {}
  }

  /** Because ids are distinct, looking an entry up by its id finds that very entry. */
  lemma CourseByIdFindsEntry(i: nat)
    requires i < |Courses|
    ensures CourseById(Courses[i].id) == Some(Courses[i])
  {
    IdsDistinct();
  }

  /** Every entry is sold below its full price. */
  lemma DiscountIsReal()
    ensures forall i :: 0 <= i < |Courses| ==> Courses[i].discountedPrice < Courses[i].fullPrice
  {
    forall i | 0 <= i < |Courses|
      ensures Courses[i].discountedPrice < Courses[i].fullPrice
    {
      if i == 0 {} else if i == 1 {} else if i == 2 {} else if i == 3 {} else if i == 4 {} else {}
    }
  }

  /** A category no entry carries, and any text that is not a category name,
      gives the empty list. */
  lemma UnknownCategoryIsEmpty(category: string)
    requires category != "all"
    requires forall i :: 0 <= i < |Courses| ==> CategoryName(Courses[i].category) != category
    ensures CoursesByCategory(category) == []
  {}

  /** The entries featured on the home page are courses 1, 4 and 6 and no
      others. */
  lemma FeaturedAreOneFourSix()
    ensures forall i :: 0 <= i < |Courses| ==> (IsFeatured(Courses[i]) <==> i == 0 || i == 3 || i == 5)
  {
    forall i | 0 <= i < |Courses|
      ensures IsFeatured(Courses[i]) <==> i == 0 || i == 3 || i == 5
    {
      if i == 0 {} else if i == 1 {} else if i == 2 {} else if i == 3 {} else if i == 4 {} else {}
    }
  }

  /** Every entry is filed under `web` or `blockchain`. */
  lemma CategoriesInUse()
    ensures forall i :: 0 <= i < |Courses| ==> Courses[i].category == Web || Courses[i].category == Blockchain
  {
    forall i | 0 <= i < |Courses|
      ensures Courses[i].category == Web || Courses[i].category == Blockchain
    {
      if i == 0 {} else if i == 1 {} else if i == 2 {} else if i == 3 {} else if i == 4 {} else {}
    }
  }

  /** No entry is filed under `devops` or `web3`. */
  lemma NoDevopsNorWeb3()
    ensures CoursesByCategory("devops") == [] && CoursesByCategory("web3") == []
  {
    CategoriesInUse();
    UnknownCategoryIsEmpty("devops");
    UnknownCategoryIsEmpty("web3");
  }
}

=== FILE: comments_controller.dfy ===
/** The comment handlers. Their file never declares the Prisma client, so
    past the input checks every call throws a ReferenceError inside the
    `try` and ends in the 500 branch; the store is never touched. */
module CommentsController {
  import opened JsValues
  import opened Database
  import opened Http
  import opened ModulesController

  /** `POST /comment`. */
  function CommentOnVideo(s: Store, videoId: JsValue, comment: JsValue): (o: Outcome)
    ensures o.store == s
    ensures o.response.Reply? && o.response.body.Message?
    ensures o.response.status == 400 <==> !Truthy(comment) || !Truthy(videoId) || ParseIntOf(videoId).None?
    ensures o.response.status != 400 ==> o.response.status == 500
  {
    if !Truthy(comment) || !Truthy(videoId) || ParseIntOf(videoId).None? then
      Outcome(Reply(400, Message("Missing required fields")), s)
    else
      Outcome(Reply(500, Message("Server error")), s)
  }

  /** `GET /video/:videoId`. */
  function GetCommentsByVideoId(s: Store, videoId: string): (o: Outcome)
    ensures o.store == s
    ensures o.response.Reply? && o.response.body.Message?
    ensures o.response.status == 400 <==> PathId(videoId).None?
    ensures o.response.status != 400 ==> o.response.status == 500
  {
    if PathId(videoId).None? then Outcome(Reply(400, Message("Invalid video ID")), s)
    else Outcome(Reply(500, Message("Failed to load comments")), s)
  }
}

=== FILE: course_detail_page.dfy ===
/** The storefront's course page: what the Enroll button does, which text
    it shows afterwards, and how that text is styled. */
module CourseDetailPage {
  import opened Wrappers
  import opened JsText
  import opened JsValues
  import opened Database
  import opened Http
  import Jwt
  import CoursesController

  const SignInPrompt: string := "Please sign in to enroll in courses"
  const NoCourseData: string := "Course data not available"
  const EnrolledText: string := "Successfully enrolled in the course!"
  const AlreadyEnrolledText: string := "Already enrolled in this course"
  const EnrollFailedText: string := "Failed to enroll in course"

  /** How the enroll request ended for the page: a 2xx reply, an error
      status with the reply body's `message` when it is a non-empty text,
      or no answer yet (the promise is still pending). */
  datatype EnrollAnswer = Ok | HttpError(status: int, message: Option<string>) | Pending

  /** `body.message`, when the body has such a field. The text of a caught
      exception (`Thrown`) is not modelled and counts as absent. */
  function MessageOf(b: Body): (m: Option<string>)
    ensures b.Message? ==> m == Some(b.message)
    ensures b.Error? || b.Thrown? || b.NoRoute? ==> m.None?
  {
    match b
    case Message(text) => Some(text)
    case InvalidFields(text, _) => Some(text)
    case CourseDeleted(text, _) => Some(text)
    case ModuleDeleted(text, _, _) => Some(text)
    case _ => None
  }

  /** What the page sees of a server response: axios resolves on 2xx and
      rejects with the response otherwise. A handler whose rejection escaped
      sent no reply, so the request has not settled yet (`Pending`); how it
      later settles depends on the server runtime and is not modelled. */
  function AnswerOf(r: Response): (a: EnrollAnswer)
    ensures r.Unanswered? <==> a.Pending?
    ensures r.Reply? && 200 <= r.status < 300 <==> a.Ok?
    ensures a.HttpError? ==> a.status == r.status
    ensures a.HttpError? ==> (a.message.Some? <==> MessageOf(r.body).Some? && MessageOf(r.body).value != "")
    ensures a.HttpError? && a.message.Some? ==> a.message == MessageOf(r.body)
  {
    match r
    case Unanswered => Pending
    case Reply(status, body) =>
      if 200 <= status < 300 then Ok
      else
        var m := MessageOf(body);
        HttpError(status, if m.Some? && m.value != "" then m else None)
  }

  /** The catch block's choice of text: 401 asks to sign in; 400 shows the
      server's message or a default "already enrolled" text; any other
      failure shows the server's message or a generic failure. */
  function FailureText(status: int, message: Option<string>): (t: string)
    ensures status == 401 ==> t == SignInPrompt
    ensures status == 400 ==> t == (if message.Some? then message.value else AlreadyEnrolledText)
    ensures status != 401 && status != 400 ==> t == (if message.Some? then message.value else EnrollFailedText)
  {
    if status == 401 then SignInPrompt
    else if status == 400 then message.GetOr(AlreadyEnrolledText)
    else message.GetOr(EnrollFailedText)
  }

  /** The effect of one click on Enroll: the request body sent, if any, the
      message shown (`None` while it is cleared) and the loading flag. */
  datatype Buy = Buy(request: Option<map<string, JsValue>>, message: Option<string>, loading: bool)

  /** `handleBuy`. `token` is the stored token (falsy when absent or empty),
      `course` the loaded course's id (`None` when no course is loaded). */
  function HandleBuy(token: Option<string>, course: Option<JsValue>, answer: EnrollAnswer, loading: bool): (b: Buy)
    ensures b.request.Some? <==> token.Some? && token.value != "" && course.Some?
    ensures (token.None? || token.value == "") ==> b == Buy(None, Some(SignInPrompt), loading)
    ensures token.Some? && token.value != "" && course.None? ==> b == Buy(None, Some(NoCourseData), loading)
    ensures b.request.Some? ==> b.request.value == map["courseId" := course.value]
    ensures b.request.Some? ==>
              match answer
              case Ok => b.message == Some(EnrolledText) && !b.loading
              case HttpError(status, message) => b.message == Some(FailureText(status, message)) && !b.loading
              case Pending => b.message.None? && b.loading
  {
    if token.None? || token.value == "" then Buy(None, Some(SignInPrompt), loading)
    else if course.None? then Buy(None, Some(NoCourseData), loading)
    else
      var request := Some(map["courseId" := course.value]);
      match answer
      case Ok => Buy(request, Some(EnrolledText), false)
      case HttpError(status, message) => Buy(request, Some(FailureText(status, message)), false)
      case Pending => Buy(request, None, true)
  }

  datatype Style = SuccessStyle | ErrorStyle

  /** The message box's colour: green when the text mentions `Success` or
      `enrolled`, red otherwise. */
  function MessageStyle(text: string): (st: Style)
    ensures st == SuccessStyle <==> Contains(text, "Success") || Contains(text, "enrolled")
  {
    if Contains(text, "Success") || Contains(text, "enrolled") then SuccessStyle else ErrorStyle
  }

  /** A text that mentions `Success` or `enrolled` is green. */
  lemma GreenWithMarker(u: string, marker: string, w: string)
    requires marker == "Success" || marker == "enrolled"
    ensures MessageStyle(u + marker + w) == SuccessStyle
  {
    OccursInMiddle(u, marker, w);
    ContainsAt(u + marker + w, marker, |u|);
  }

  /** The success text is green. */
  lemma EnrolledTextIsGreen()
    ensures MessageStyle(EnrolledText) == SuccessStyle
  {
    assert EnrolledText == "" + "Success" + "fully enrolled in the course!";
    GreenWithMarker("", "Success", "fully enrolled in the course!");
  }

  /** The default "already enrolled" text is green. */
  lemma AlreadyEnrolledTextIsGreen()
    ensures MessageStyle(AlreadyEnrolledText) == SuccessStyle
  {
    assert AlreadyEnrolledText == "Already " + "enrolled" + " in this course";
    GreenWithMarker("Already ", "enrolled", " in this course");
  }

  /** A text lacking a letter of `Success` and a letter of `enrolled` is red. */
  lemma RedWithout(text: string, i: nat, j: nat)
    requires i < 7 && "Success"[i] !in text
    requires j < 8 && "enrolled"[j] !in text
    ensures MessageStyle(text) == ErrorStyle
  {
    MissingCharExcludes(text, "Success", i);
    MissingCharExcludes(text, "enrolled", j);
  }

  /** The sign-in prompt is red, although it contains `enroll`. */
  lemma SignInPromptIsRed()
    ensures MessageStyle(SignInPrompt) == ErrorStyle
  {
    RedWithout(SignInPrompt, 0, 7);
  }

  /** A second click on Enroll for a course the caller already has: the
      server's 400 "Already enrolled" is shown, and in green, like a success. */
  lemma AlreadyEnrolledLooksLikeSuccess(s: Store, user: Claims, courseId: int, fault: bool, token: string,
                                        loading: bool)
    requires TablesValid(s)
    requires CoursesController.AlreadyEnrolled(s, user.id, Num(courseId))
    requires token != ""
    ensures var o := CoursesController.Enroll(s, user, Num(courseId), fault);
      var b := HandleBuy(Some(token), Some(Num(courseId)), AnswerOf(o.response), loading);
      b.message == Some("Already enrolled") && MessageStyle(b.message.value) == SuccessStyle
  {
    var o := CoursesController.Enroll(s, user, Num(courseId), fault);
    assert o.response == Reply(400, Message("Already enrolled"));
    assert "Already enrolled" == "Already " + "enrolled" + "";
    GreenWithMarker("Already ", "enrolled", "");
  }

  /** Whenever the token gate turns the request away, the page asks the
      user to sign in. */
  lemma RejectedTokenAsksToSignIn(env: Env, header: Option<string>, token: string, course: JsValue, loading: bool)
    requires token != ""
    requires Jwt.Authenticate(env, header).Rejected?
    ensures var g := Jwt.Authenticate(env, header);
      HandleBuy(Some(token), Some(course), AnswerOf(g.response), loading).message == Some(SignInPrompt)
  {}
}

=== FILE: course_manager.dfy ===
/** The admin's course screen: the client-side course list, the course the
    edit or delete dialog is about, the expanded row and the dialog flags,
    and how each request's outcome changes them. A request outcome is an
    `Option`: `None` when the request failed, which only logs or alerts. */
module CourseManager {
  import opened Wrappers
  import opened JsValues
  import opened Lists
  import opened AdminCommon

  /** A listed course: its id, its title and its other fields. */
  datatype Course = Course(id: JsValue, title: string, fields: map<string, JsValue>)

  datatype Screen = Screen(courses: seq<Course>, current: Option<Course>, expanded: Option<JsValue>,
                           addOpen: bool, editOpen: bool, deleteOpen: bool)

  /** `fetchCourses`: the normalised response replaces the list; a failed
      request leaves it as it was. */
  function LoadCourses(s: Screen, response: Option<Payload<Course>>): (r: Screen)
    ensures response.None? ==> r == s
    ensures response.Some? ==> r == s.(courses := Normalise(response.value))
  {
    match response
    case None => s
    case Some(p) => s.(courses := Normalise(p))
  }

  /** `toggleCourseExpand`. */
  function ToggleCourseExpand(s: Screen, courseId: JsValue): (r: Screen)
    ensures r == s.(expanded := Toggle(s.expanded, courseId))
  {
    s.(expanded := Toggle(s.expanded, courseId))
  }

  /** `openEditModal` / `openDeleteConfirm`: the dialog is about that course. */
  function OpenEdit(s: Screen, c: Course): (r: Screen)
    ensures r.current == Some(c) && r.editOpen
    ensures r.courses == s.courses
  {
    s.(current := Some(c), editOpen := true)
  }

  function OpenDeleteConfirm(s: Screen, c: Course): (r: Screen)
    ensures r.current == Some(c) && r.deleteOpen
    ensures r.courses == s.courses
  {
    s.(current := Some(c), deleteOpen := true)
  }

  /** `handleAddCourse`: the reply is appended and the add dialog closes. */
  function AddCourse(s: Screen, reply: Option<Course>): (r: Screen)
    ensures reply.None? ==> r == s
    ensures reply.Some? ==> r == s.(courses := s.courses + [reply.value], addOpen := false)
  {
    match reply
    case None => s
    case Some(c) => s.(courses := s.courses + [c], addOpen := false)
  }

  predicate HasId(c: Course, id: JsValue) {
    c.id == id
  }

  /** `handleUpdateCourse`: without a current course nothing happens;
      otherwise every course with the current course's id is replaced by the
      reply, the dialog closes and the current course is cleared. */
  function UpdateCourse(s: Screen, reply: Option<Course>): (r: Screen)
    ensures s.current.None? || reply.None? ==> r == s
    ensures s.current.Some? && reply.Some? ==>
              && r == s.(courses := r.courses, editOpen := false, current := None)
              && |r.courses| == |s.courses|
              && forall i :: 0 <= i < |s.courses| ==>
                   r.courses[i] == if s.courses[i].id == s.current.value.id then reply.value else s.courses[i]
  {
    if s.current.None? || reply.None? then s
    else
      var id := s.current.value.id;
      var c := reply.value;
      s.(courses := MapWhere(s.courses, (x: Course) => HasId(x, id), (x: Course) => c),
         editOpen := false, current := None)
  }

  /** `handleDeleteCourse`: without a current course nothing happens;
      otherwise the courses with its id are removed, the others kept in
      order, the dialog closes and the current course is cleared. */
  function DeleteCourse(s: Screen, ok: bool): (r: Screen)
    ensures s.current.None? || !ok ==> r == s
    ensures s.current.Some? && ok ==>
              && r == s.(courses := r.courses, deleteOpen := false, current := None)
              && (forall i :: 0 <= i < |r.courses| ==> r.courses[i].id != s.current.value.id)
              && (forall i :: 0 <= i < |s.courses| && s.courses[i].id != s.current.value.id ==>
                    s.courses[i] in r.courses)
              && (forall c :: multiset(r.courses)[c] ==
                              if c.id == s.current.value.id then 0 else multiset(s.courses)[c])
              && IsSubsequence(r.courses, s.courses)
  {
    if s.current.None? || !ok then s
    else
      var id := s.current.value.id;
      var keep := (x: Course) => !HasId(x, id);
      FilterCounts(s.courses, keep);
      s.(courses := Filter(s.courses, keep), deleteOpen := false, current := None)
  }

  /** Adding a course under a new id, then confirming its deletion, gives
      back the list it started from. */
  lemma AddThenDeleteCourse(s: Screen, c: Course)
    requires forall i :: 0 <= i < |s.courses| ==> s.courses[i].id != c.id
    ensures DeleteCourse(OpenDeleteConfirm(AddCourse(s, Some(c)), c), true).courses == s.courses
  {
    var keep := (x: Course) => !HasId(x, c.id);
    FilterAppend(s.courses, [c], keep);
    FilterAllPass(s.courses, keep);
  }

  /** An update whose reply keeps the course's id keeps the list's ids, in order. */
  lemma UpdateKeepsIds(s: Screen, reply: Course)
    requires s.current.Some? && reply.id == s.current.value.id
    ensures var r := UpdateCourse(s, Some(reply));
      forall i :: 0 <= i < |s.courses| ==> r.courses[i].id == s.courses[i].id
  {}
}

=== FILE: courses_controller.dfy ===
/** The course handlers: enrolling, the admin's create/update/delete of
    courses (the delete cascading to modules and videos), and the reads. */
module CoursesController {
  import opened Wrappers
  import opened JsText
  import opened JsValues
  import opened Database
  import opened Http

  /** The duplicate check's filter `{ userId, courseId }`. Prisma drops a
      filter whose value is `undefined`, so an undefined `courseId` matches
      every enrollment of the user. */
  predicate EnrollmentMatches(e: Enrollment, userId: int, courseId: JsValue) {
    e.userId == userId && (courseId.Undefined? || courseId == Num(e.courseId))
  }

  predicate AlreadyEnrolled(s: Store, userId: int, courseId: JsValue) {
    exists e :: e in s.enrollments.rows && EnrollmentMatches(s.enrollments.rows[e], userId, courseId)
  }

  /** A numeric `courseId` finds the caller's row for that very course; an
      undefined one finds any row of the caller. */
  lemma EnrollmentFilter(s: Store, userId: int, n: int)
    ensures AlreadyEnrolled(s, userId, Num(n)) <==>
              exists e :: e in s.enrollments.rows && s.enrollments.rows[e] == Enrollment(userId, n)
    ensures AlreadyEnrolled(s, userId, Undefined) <==>
              exists e :: e in s.enrollments.rows && s.enrollments.rows[e].userId == userId
  {}

  /** `POST /enroll`. A `courseId` that is neither a number nor undefined is
      rejected by Prisma's filter validation, outside any `try`; an undefined
      one makes the insert fail for want of a course id. The course itself is
      never looked up. */
  function Enroll(s: Store, user: Claims, courseId: JsValue, fault: bool): (o: Outcome)
    requires TablesValid(s)
    ensures o.response == Reply(400, Message("Already enrolled"))
        <==> (courseId.Undefined? || courseId.Num?) && AlreadyEnrolled(s, user.id, courseId)
    ensures o.response.Reply? ==> o.response.status == 200 || o.response.status == 400
    ensures o.response.Reply? && o.response.status == 200 <==>
              courseId.Num? && !AlreadyEnrolled(s, user.id, courseId) && !fault
    ensures o.response.Reply? && o.response.status == 200 ==>
              o.response.body.EnrollmentRow?
              && var row := o.response.body.enrollment;
                 row.value == Enrollment(user.id, courseId.n)
                 && row.id !in s.enrollments.rows
                 && o.store == s.(enrollments := o.store.enrollments)
                 && o.store.enrollments.rows == s.enrollments.rows[row.id := row.value]
    ensures !(o.response.Reply? && o.response.status == 200) ==> o.store == s
  {
    match courseId
    case Undefined =>
      if AlreadyEnrolled(s, user.id, courseId) then Outcome(Reply(400, Message("Already enrolled")), s)
      else Outcome(Unanswered, s)
    case Num(n) =>
      if AlreadyEnrolled(s, user.id, courseId) then Outcome(Reply(400, Message("Already enrolled")), s)
      else if fault then Outcome(Unanswered, s)
      else
        var e := Enrollment(user.id, n);
        var (t, id) := s.enrollments.Insert(e);
        Outcome(Reply(200, EnrollmentRow(Row(id, e))), s.(enrollments := t))
    case _ => Outcome(Unanswered, s)
  }

  /** Enrolling keeps every (user, course) pair on at most one row. */
  lemma EnrollKeepsPairsUnique(s: Store, user: Claims, courseId: JsValue, fault: bool)
    requires TablesValid(s) && EnrollmentsUnique(s)
    ensures var o := Enroll(s, user, courseId, fault);
      TablesValid(o.store) && EnrollmentsUnique(o.store)
  {
    var o := Enroll(s, user, courseId, fault);
    if o.store != s {
      var row := o.response.body.enrollment;
      forall e | e in s.enrollments.rows
        ensures s.enrollments.rows[e] != row.value
      {
        if s.enrollments.rows[e] == row.value {
          assert EnrollmentMatches(s.enrollments.rows[e], user.id, courseId);
        }
      }
    }
  }

  /** Enrolling in a course id that names no course still succeeds: only the
      duplicate check guards the insert. */
  lemma EnrollIgnoresCourses(s: Store, user: Claims, n: int)
    requires TablesValid(s) && n !in s.courses.rows
    requires forall e :: e in s.enrollments.rows ==> s.enrollments.rows[e].userId != user.id
    ensures Enroll(s, user, Num(n), false).response.Reply?
    ensures Enroll(s, user, Num(n), false).response.status == 200
  {}

  /** The add-course duplicate check `findFirst({ where: { title } })`; an
      undefined title is dropped from the filter and matches any course. */
  predicate TitleTaken(s: Store, title: JsValue) {
    exists c :: c in s.courses.rows && (title.Undefined? || s.courses.rows[c].title == title)
  }

  /** Without a title every existing course counts as a clash; with one,
      only a course carrying that same title does. */
  lemma TitleFilter(s: Store, title: JsValue)
    ensures title.Undefined? ==> (TitleTaken(s, title) <==> s.courses.rows != map[])
    ensures !title.Undefined? ==>
              (TitleTaken(s, title) <==> exists c :: c in s.courses.rows && s.courses.rows[c].title == title)
  {
    if title.Undefined? && forall c :: c !in s.courses.rows {
      assert s.courses.rows == map[];
    }
  }

  /** `POST /courses`. */
  function AddCourse(s: Store, title: JsValue, description: JsValue, thumbnail: JsValue,
                     price: JsValue, originalprice: JsValue, fault: bool): (o: Outcome)
    requires TablesValid(s)
    ensures TitleTaken(s, title) ==>
              o == Outcome(Reply(400, Message("A course with this title already exists")), s)
    ensures !TitleTaken(s, title) && fault ==> o == Outcome(Reply(500, Message("Server error")), s)
    ensures !TitleTaken(s, title) && !fault ==>
              o.response.Reply? && o.response.status == 200 && o.response.body.CourseRow?
              && var row := o.response.body.course;
                 row.value == Course(title, description, thumbnail, price, originalprice)
                 && row.id !in s.courses.rows
                 && o.store == s.(courses := o.store.courses)
                 && o.store.courses.rows == s.courses.rows[row.id := row.value]
  {
    if TitleTaken(s, title) then
      Outcome(Reply(400, Message("A course with this title already exists")), s)
    else if fault then
      Outcome(Reply(500, Message("Server error")), s)
    else
      var c := Course(title, description, thumbnail, price, originalprice);
      var (t, id) := s.courses.Insert(c);
      Outcome(Reply(200, CourseRow(Row(id, c))), s.(courses := t))
  }

  /** Adding courses keeps course titles unique. */
  lemma AddCourseKeepsTitlesUnique(s: Store, title: JsValue, description: JsValue, thumbnail: JsValue,
                                   price: JsValue, originalprice: JsValue, fault: bool)
    requires TablesValid(s) && TitlesUnique(s)
    ensures TitlesUnique(AddCourse(s, title, description, thumbnail, price, originalprice, fault).store)
  {
    var o := AddCourse(s, title, description, thumbnail, price, originalprice, fault);
    if !TitleTaken(s, title) && !fault {
      assert forall c :: c in s.courses.rows ==> s.courses.rows[c].title != title;
    }
  }

  const CourseFieldNames: seq<string> := ["title", "description", "thumbnail", "price", "originalprice"]

  /** The field check of the update: three truthy texts and two prices that parse. */
  predicate CourseFieldsValid(env: Env, title: JsValue, description: JsValue, thumbnail: JsValue,
                              price: JsValue, originalprice: JsValue) {
    Truthy(title) && Truthy(description) && Truthy(thumbnail)
    && env.parseFloat(price).Some? && env.parseFloat(originalprice).Some?
  }

  /** `PUT /courses/:courseId`. The id check comes first, then the lookup,
      then the fields; the title is not checked against other courses. */
  function UpdateCourse(env: Env, s: Store, courseId: string, title: JsValue, description: JsValue,
                        thumbnail: JsValue, price: JsValue, originalprice: JsValue, fault: bool): (o: Outcome)
    ensures ParseInt(courseId).None? ==> o == Outcome(Reply(400, Message("Invalid course ID")), s)
    ensures ParseInt(courseId).Some? && ParseInt(courseId).value !in s.courses.rows ==>
              o == Outcome(Reply(404, Message("Course not found")), s)
    ensures ParseInt(courseId).Some? && ParseInt(courseId).value in s.courses.rows
            && !CourseFieldsValid(env, title, description, thumbnail, price, originalprice) ==>
              o == Outcome(Reply(400, InvalidFields("Missing or invalid required fields", CourseFieldNames)), s)
    ensures ParseInt(courseId).Some? && ParseInt(courseId).value in s.courses.rows
            && CourseFieldsValid(env, title, description, thumbnail, price, originalprice) ==>
              var id := ParseInt(courseId).value;
              var c := Course(title, description, thumbnail,
                              Num(env.parseFloat(price).value), Num(env.parseFloat(originalprice).value));
              o == if fault then Outcome(Reply(500, Message("Server error")), s)
                   else Outcome(Reply(200, CourseRow(Row(id, c))), s.(courses := s.courses.Put(id, c)))
  {
    match ParseInt(courseId)
    case None => Outcome(Reply(400, Message("Invalid course ID")), s)
    case Some(id) =>
      if id !in s.courses.rows then Outcome(Reply(404, Message("Course not found")), s)
      else if !CourseFieldsValid(env, title, description, thumbnail, price, originalprice) then
        Outcome(Reply(400, InvalidFields("Missing or invalid required fields", CourseFieldNames)), s)
      else if fault then Outcome(Reply(500, Message("Server error")), s)
      else
        var c := Course(title, description, thumbnail,
                        Num(env.parseFloat(price).value), Num(env.parseFloat(originalprice).value));
        var t := s.courses.Put(id, c);
        Outcome(Reply(200, CourseRow(Row(id, c))), s.(courses := t))
  }

  /** The store after the delete's transaction: the videos of the course's
      modules, then the modules, then the course. */
  function CourseCascade(s: Store, courseId: int): (t: Store)
    ensures t.courses.rows.Keys == s.courses.rows.Keys - {courseId}
    ensures forall m :: m in t.modules.rows <==> m in s.modules.rows && s.modules.rows[m].courseId != courseId
    ensures forall v :: v in t.videos.rows <==>
              v in s.videos.rows && s.videos.rows[v].moduleId !in ModulesOf(s, courseId)
    ensures forall c :: c in t.courses.rows ==> t.courses.rows[c] == s.courses.rows[c]
    ensures forall m :: m in t.modules.rows ==> t.modules.rows[m] == s.modules.rows[m]
    ensures forall v :: v in t.videos.rows ==> t.videos.rows[v] == s.videos.rows[v]
    ensures t.enrollments == s.enrollments && t.users == s.users
  {
    var modules := ModulesOf(s, courseId);
    s.(videos := s.videos.Without(VideosOf(s, modules)),
       modules := s.modules.Without(modules),
       courses := s.courses.Without({courseId}))
  }

  /** `videos` is the video table after the videos of the modules in `done`
      have been deleted. */
  ghost predicate VideosDeletedFor(s: Store, videos: Table<Video>, done: seq<int>) {
    videos.next == s.videos.next
    && (forall v :: v in videos.rows <==> v in s.videos.rows && s.videos.rows[v].moduleId !in done)
    && (forall v :: v in videos.rows ==> videos.rows[v] == s.videos.rows[v])
  }

  /** One turn of the loop: deleting the videos of module `m` (skipped when
      it has none) extends the set of handled modules by `m`. */
  lemma CascadeStep(s: Store, videos: Table<Video>, done: seq<int>, m: int)
    requires VideosDeletedFor(s, videos, done)
    ensures VideosDeletedFor(s, if |VideosOfModule(s, m)| > 0
                                then videos.Without(set v | v in videos.rows && videos.rows[v].moduleId == m)
                                else videos, done + [m])
  {
    if |VideosOfModule(s, m)| == 0 {
      assert forall v :: v !in VideosOfModule(s, m);
    }
  }

  /** The transaction as the handler runs it: for each module of the course,
      in the order Prisma lists them, delete its videos if it has any; then
      delete the course's modules and the course. */
  method RunCourseCascade(s: Store, courseId: int, modules: seq<int>) returns (t: Store)
    requires forall m :: m in modules <==> m in ModulesOf(s, courseId)
    ensures t == CourseCascade(s, courseId)
  {
    var videos := s.videos;
    var i := 0;
    while i < |modules|
      invariant 0 <= i <= |modules|
      invariant VideosDeletedFor(s, videos, modules[..i])
    {
      var m := modules[i];
      CascadeStep(s, videos, modules[..i], m);
      if |VideosOfModule(s, m)| > 0 {
        videos := videos.Without(set v | v in videos.rows && videos.rows[v].moduleId == m);
      }
      assert modules[..i + 1] == modules[..i] + [m];
      i := i + 1;
    }
    assert modules[..i] == modules;
    var goal := CourseCascade(s, courseId).videos.rows;
    assert forall v :: v in videos.rows <==> v in goal;
    assert forall v :: v in goal ==> goal[v] == videos.rows[v];
    assert videos.rows == goal;
    t := s.(videos := videos,
            modules := s.modules.Without(set m | m in s.modules.rows && s.modules.rows[m].courseId == courseId),
            courses := s.courses.Without({courseId}));
  }

  /** The reply's name for a deleted row: its title when truthy, else the fallback. */
  function NameOr(title: JsValue, fallback: string): (r: JsValue)
    ensures Truthy(title) ==> r == title
    ensures !Truthy(title) ==> r == Str(fallback)
  {
    if Truthy(title) then title else Str(fallback)
  }

  /** `DELETE /courses/:courseId`. */
  function DeleteCourse(s: Store, courseId: string, fault: bool): (o: Outcome)
    ensures ParseInt(courseId).None? ==> o == Outcome(Reply(400, Message("Invalid course ID")), s)
    ensures ParseInt(courseId).Some? && ParseInt(courseId).value !in s.courses.rows ==>
              o == Outcome(Reply(404, Message("Course not found")), s)
    ensures ParseInt(courseId).Some? && ParseInt(courseId).value in s.courses.rows ==>
              var id := ParseInt(courseId).value;
              o == if fault then Outcome(Reply(500, Message("Server error")), s)
                   else Outcome(Reply(200, CourseDeleted("Course and all related content deleted successfully",
                                                         NameOr(s.courses.rows[id].title, "Course ID: " + IntToString(id)))),
                                CourseCascade(s, id))
  {
    match ParseInt(courseId)
    case None => Outcome(Reply(400, Message("Invalid course ID")), s)
    case Some(id) =>
      if id !in s.courses.rows then Outcome(Reply(404, Message("Course not found")), s)
      else if fault then Outcome(Reply(500, Message("Server error")), s)
      else
        var name := NameOr(s.courses.rows[id].title, "Course ID: " + IntToString(id));
        Outcome(Reply(200, CourseDeleted("Course and all related content deleted successfully", name)),
                CourseCascade(s, id))
  }

  /** The cascade leaves no module without its course and no video without
      its module, and keeps every other invariant of the store. */
  lemma CourseCascadeKeepsConsistency(s: Store, courseId: int)
    requires Consistent(s)
    ensures Consistent(CourseCascade(s, courseId))
  {
    var t := CourseCascade(s, courseId);
    forall v | v in t.videos.rows
      ensures t.videos.rows[v].moduleId in t.modules.rows
    {
      var m := s.videos.rows[v].moduleId;
      assert m !in ModulesOf(s, courseId);
    }
  }

  /** The enrollments of the caller, by id. */
  function EnrollmentsOf(s: Store, userId: int): (es: set<int>)
    ensures forall e :: e in es <==> e in s.enrollments.rows && s.enrollments.rows[e].userId == userId
  {
    set e | e in s.enrollments.rows && s.enrollments.rows[e].userId == userId
  }

  /** A course with its id, or None when there is no such course. */
  function CourseRowOf(s: Store, id: int): (r: Option<Row<Course>>)
    ensures r.Some? <==> id in s.courses.rows
    ensures r.Some? ==> r.value == Row(id, s.courses.rows[id])
  {
    if id in s.courses.rows then Some(Row(id, s.courses.rows[id])) else None
  }

  /** `GET /mycourses`: one entry per enrollment of the caller, holding its course. */
  function GetUserCourses(s: Store, user: Claims): (o: Outcome)
    ensures o.store == s && o.response.Reply? && o.response.status == 200
    ensures o.response.body.UserCourses?
    ensures o.response.body.enrolled.Keys == EnrollmentsOf(s, user.id)
    ensures forall e :: e in o.response.body.enrolled ==>
              o.response.body.enrolled[e] == CourseRowOf(s, s.enrollments.rows[e].courseId)
  {
    var courses := map e | e in EnrollmentsOf(s, user.id) :: CourseRowOf(s, s.enrollments.rows[e].courseId);
    Outcome(Reply(200, UserCourses(courses)), s)
  }

  /** `GET /courses`: every course. */
  function GetAllCourses(s: Store): (o: Outcome)
    ensures o == Outcome(Reply(200, AllCourses(s.courses.rows)), s)
  {
    Outcome(Reply(200, AllCourses(s.courses.rows)), s)
  }

  /** The enrollments that reference course `courseId`. */
  function EnrollmentsIn(s: Store, courseId: int): (es: map<int, Enrollment>)
    ensures forall e :: e in es <==> e in s.enrollments.rows && s.enrollments.rows[e].courseId == courseId
    ensures forall e :: e in es ==> es[e] == s.enrollments.rows[e]
  {
    map e | e in s.enrollments.rows && s.enrollments.rows[e].courseId == courseId :: s.enrollments.rows[e]
  }

  /** `GET /courses/:courseId`: the course with its modules, their videos and its enrollments. */
  function GetCourseById(s: Store, courseId: string): (o: Outcome)
    ensures o.store == s
    ensures ParseInt(courseId).None? ==> o.response == Reply(400, Error("Invalid course ID"))
    ensures ParseInt(courseId).Some? && ParseInt(courseId).value !in s.courses.rows ==>
              o.response == Reply(404, Error("Course not found"))
    ensures ParseInt(courseId).Some? && ParseInt(courseId).value in s.courses.rows ==>
              var id := ParseInt(courseId).value;
              o.response == Reply(200, CourseDetail(Row(id, s.courses.rows[id]), ModuleTrees(s, id), EnrollmentsIn(s, id)))
  {
    match ParseInt(courseId)
    case None => Outcome(Reply(400, Error("Invalid course ID")), s)
    case Some(id) =>
      if id !in s.courses.rows then Outcome(Reply(404, Error("Course not found")), s)
      else Outcome(Reply(200, CourseDetail(Row(id, s.courses.rows[id]), ModuleTrees(s, id), EnrollmentsIn(s, id))), s)
  }

  /** `getCourseEnrollmentStats` (no route reaches it): the number of
      enrollments referencing the course named in the body. */
  function GetCourseEnrollmentStats(s: Store, courseId: JsValue): (o: Outcome)
    ensures o.store == s
    ensures ParseIntOf(courseId).None? ==> o.response == Reply(400, Error("Invalid course ID"))
    ensures ParseIntOf(courseId).Some? && ParseIntOf(courseId).value !in s.courses.rows ==>
              o.response == Reply(404, Error("Course not found"))
    ensures ParseIntOf(courseId).Some? && ParseIntOf(courseId).value in s.courses.rows ==>
              var id := ParseIntOf(courseId).value;
              o.response.Reply? && o.response.status == 200 && o.response.body.Stats?
              && o.response.body.courseId == id && o.response.body.title == s.courses.rows[id].title
              && o.response.body.enrollmentCount == |EnrollmentsIn(s, id)|
  {
    match ParseIntOf(courseId)
    case None => Outcome(Reply(400, Error("Invalid course ID")), s)
    case Some(id) =>
      if id !in s.courses.rows then Outcome(Reply(404, Error("Course not found")), s)
      else Outcome(Reply(200, Stats(id, s.courses.rows[id].title, |EnrollmentsIn(s, id).Keys|)), s)
  }

  /** The update does not check the new title against the other courses, so
      giving a course the title of another breaks TitlesUnique, which
      AddCourse keeps. */
  lemma UpdateCourseCanDuplicateTitle(env: Env, s: Store, a: int, b: int, description: JsValue,
                                      thumbnail: JsValue, price: JsValue, originalprice: JsValue)
    requires a in s.courses.rows && b in s.courses.rows && a != b
    requires CourseFieldsValid(env, s.courses.rows[a].title, description, thumbnail, price, originalprice)
    ensures var o := UpdateCourse(env, s, IntToString(b), s.courses.rows[a].title, description,
                                  thumbnail, price, originalprice, false);
      o.response.Reply? && o.response.status == 200 && !TitlesUnique(o.store)
  {
    ParseIntOfIntToString(b);
    var o := UpdateCourse(env, s, IntToString(b), s.courses.rows[a].title, description,
                          thumbnail, price, originalprice, false);
    assert o.store.courses.rows[a].title == o.store.courses.rows[b].title;
  }

  /** Enrolling keeps the store consistent. */
  lemma EnrollKeepsConsistency(s: Store, user: Claims, courseId: JsValue, fault: bool)
    requires Consistent(s)
    ensures Consistent(Enroll(s, user, courseId, fault).store)
  {
    EnrollKeepsPairsUnique(s, user, courseId, fault);
  }

  /** Adding a course keeps the store consistent. */
  lemma AddCourseKeepsConsistency(s: Store, title: JsValue, description: JsValue, thumbnail: JsValue,
                                  price: JsValue, originalprice: JsValue, fault: bool)
    requires Consistent(s)
    ensures Consistent(AddCourse(s, title, description, thumbnail, price, originalprice, fault).store)
  {}

  /** Updating a course keeps the store consistent (though not its titles unique). */
  lemma UpdateCourseKeepsConsistency(env: Env, s: Store, courseId: string, title: JsValue, description: JsValue,
                                     thumbnail: JsValue, price: JsValue, originalprice: JsValue, fault: bool)
    requires Consistent(s)
    ensures Consistent(UpdateCourse(env, s, courseId, title, description, thumbnail, price, originalprice, fault).store)
  {}

  /** Deleting a course keeps the store consistent. */
  lemma DeleteCourseKeepsConsistency(s: Store, courseId: string, fault: bool)
    requires Consistent(s)
    ensures Consistent(DeleteCourse(s, courseId, fault).store)
  {
    if ParseInt(courseId).Some? {
      CourseCascadeKeepsConsistency(s, ParseInt(courseId).value);
    }
  }
}

=== FILE: database.dfy ===
/** The relational store behind the handlers: five tables keyed by an
    autoincrement integer id. The hierarchy is Course ⊃ Module ⊃ Video
    (a module names its course, a video its module); enrollments pair a user
    with a course; users are keyed by id and looked up by e-mail. */
module Database {
  import opened Wrappers
  import opened JsValues

  /** One table: its rows by id and the next id the autoincrement hands out. */
  datatype Table<T> = Table(rows: map<int, T>, next: int) {
    /** Every id in use was handed out before `next`, so `next` is fresh. */
    predicate Valid() {
      forall k :: k in rows ==> k < next
    }

    /** The row created by an insert gets id `next`. */
    function Insert(v: T): (r: (Table<T>, int))
      requires Valid()
      ensures r.1 !in rows && r.0.rows == rows[r.1 := v] && r.0.Valid()
    {
      (Table(rows[next := v], next + 1), next)
    }

    /** The table with the rows whose ids are in `ids` removed. */
    function Without(ids: set<int>): (r: Table<T>)
      ensures r.rows.Keys == rows.Keys - ids
      ensures forall k :: k in r.rows ==> r.rows[k] == rows[k]
      ensures Valid() ==> r.Valid()
    {
      Table(rows - ids, next)
    }

    /** The table with row `id` replaced by `v`. */
    function Put(id: int, v: T): (r: Table<T>)
      requires id in rows
      ensures r.rows.Keys == rows.Keys && r.rows[id] == v
      ensures forall k :: k in rows && k != id ==> r.rows[k] == rows[k]
      ensures Valid() ==> r.Valid()
    {
      Table(rows[id := v], next)
    }
  }

  /** A course; its five fields are stored as the request gave them. */
  datatype Course = Course(title: JsValue, description: JsValue, thumbnail: JsValue,
                           price: JsValue, originalprice: JsValue)
  datatype Module = Module(title: JsValue, courseId: int)
  datatype Video = Video(title: JsValue, url: JsValue, moduleId: int, thumbnail: JsValue)
  datatype Enrollment = Enrollment(userId: int, courseId: int)
  /** A user; `password` holds the bcrypt hash, never the plain text. */
  datatype User = User(name: JsValue, email: string, password: string)

  /** A row together with its id, as Prisma returns it. */
  datatype Row<T> = Row(id: int, value: T)

  datatype Store = Store(courses: Table<Course>, modules: Table<Module>, videos: Table<Video>,
                         enrollments: Table<Enrollment>, users: Table<User>)

  predicate TablesValid(s: Store) {
    s.courses.Valid() && s.modules.Valid() && s.videos.Valid()
    && s.enrollments.Valid() && s.users.Valid()
  }

  /** No module without its course and no video without its module. */
  predicate TreeIntegrity(s: Store) {
    (forall m :: m in s.modules.rows ==> s.modules.rows[m].courseId in s.courses.rows)
    && (forall v :: v in s.videos.rows ==> s.videos.rows[v].moduleId in s.modules.rows)
  }

  /** No two courses share a title. */
  predicate TitlesUnique(s: Store) {
    forall a, b ::
      (a in s.courses.rows && b in s.courses.rows
       && s.courses.rows[a].title == s.courses.rows[b].title) ==> a == b
  }

  /** No two users share an e-mail address. */
  predicate EmailsUnique(s: Store) {
    forall a, b ::
      (a in s.users.rows && b in s.users.rows
       && s.users.rows[a].email == s.users.rows[b].email) ==> a == b
  }

  /** A user is enrolled in a course at most once. */
  predicate EnrollmentsUnique(s: Store) {
    forall a, b ::
      (a in s.enrollments.rows && b in s.enrollments.rows
       && s.enrollments.rows[a] == s.enrollments.rows[b]) ==> a == b
  }

  /** The invariant the routed handlers keep together (see Routes.DispatchKeepsConsistency). */
  predicate Consistent(s: Store) {
    TablesValid(s) && TreeIntegrity(s) && EmailsUnique(s) && EnrollmentsUnique(s)
  }

  /** The ids of the modules of course `courseId`. */
  function ModulesOf(s: Store, courseId: int): (ids: set<int>)
    ensures forall m :: m in ids <==> m in s.modules.rows && s.modules.rows[m].courseId == courseId
  {
    set m | m in s.modules.rows && s.modules.rows[m].courseId == courseId
  }

  /** The ids of the videos that belong to one of the modules `moduleIds`. */
  function VideosOf(s: Store, moduleIds: set<int>): (ids: set<int>)
    ensures forall v :: v in ids <==> v in s.videos.rows && s.videos.rows[v].moduleId in moduleIds
  {
    set v | v in s.videos.rows && s.videos.rows[v].moduleId in moduleIds
  }

  /** A finite non-empty set of ids has a least element. */
  lemma {:induction false} LeastExists(ids: set<int>)
    requires exists y :: y in ids
    ensures exists k :: k in ids && forall j :: j in ids ==> k <= j
    decreases |ids|
  {
    var x :| x in ids;
    var rest := ids - {x};
    if exists y :: y in rest {
      LeastExists(rest);
      var k :| k in rest && forall j :: j in rest ==> k <= j;
      var least := if x < k then x else k;
      forall j | j in ids
        ensures least <= j
      {
        if j != x {
          assert j in rest;
        }
      }
      assert least in ids;
    } else {
      forall j | j in ids
        ensures x <= j
      {
        assert j !in rest;
      }
    }
  }

  /** The least id of a non-empty set: the deterministic stand-in for the row
      Prisma's `findUnique`/`findFirst` return when several could match. */
  function Least(ids: set<int>): (k: int)
    requires exists y :: y in ids
    ensures k in ids && forall j :: j in ids ==> k <= j
  {
    LeastExists(ids);
    var k :| k in ids && forall j :: j in ids ==> k <= j;
    k
  }

  /** `findUnique({ where: { email } })` on the user table. */
  function UserByEmail(s: Store, email: string): (r: Option<Row<User>>)
    ensures r.Some? ==> r.value.id in s.users.rows && s.users.rows[r.value.id] == r.value.value
                        && r.value.value.email == email
    ensures r.None? <==> forall u :: u in s.users.rows ==> s.users.rows[u].email != email
  {
    var ids := set u | u in s.users.rows && s.users.rows[u].email == email;
    assert forall u :: u in s.users.rows && s.users.rows[u].email == email ==> u in ids;
    if !exists u :: u in ids then None
    else
      var k := Least(ids);
      Some(Row(k, s.users.rows[k]))
  }

  /** Under EmailsUnique the user found by e-mail is the only one with that address. */
  lemma UserByEmailIsTheOne(s: Store, email: string, u: int)
    requires EmailsUnique(s)
    requires u in s.users.rows && s.users.rows[u].email == email
    ensures UserByEmail(s, email) == Some(Row(u, s.users.rows[u]))
  {}

  /** A module with its videos, as `include: { videos: true }` returns it. */
  datatype ModuleTree = ModuleTree(mod: Module, videos: map<int, Video>)

  /** The videos of module `m`, by id. */
  function VideosOfModule(s: Store, m: int): (vs: map<int, Video>)
    ensures forall v :: v in vs <==> v in s.videos.rows && s.videos.rows[v].moduleId == m
    ensures forall v :: v in vs ==> vs[v] == s.videos.rows[v]
  {
    map v | v in s.videos.rows && s.videos.rows[v].moduleId == m :: s.videos.rows[v]
  }

  /** The modules of course `courseId`, each with its videos. */
  function ModuleTrees(s: Store, courseId: int): (ms: map<int, ModuleTree>)
    ensures ms.Keys == ModulesOf(s, courseId)
    ensures forall m :: m in ms ==> ms[m] == ModuleTree(s.modules.rows[m], VideosOfModule(s, m))
  {
    map m | m in ModulesOf(s, courseId) :: ModuleTree(s.modules.rows[m], VideosOfModule(s, m))
  }
}

=== FILE: http.dfy ===
/** What a handler answers and what it may call out to. */
module Http {
  import opened Wrappers
  import opened JsValues
  import opened Database

  /** The decoded token payload, `req.user`. A payload signed by this server
      always carries an e-mail (see Jwt.TokenPayload); one signed elsewhere
      with the same secret may not. */
  datatype Claims = Claims(id: int, email: Option<string>, role: Option<string>)

  /** The JSON bodies the handlers send. Lists that Prisma returns without an
      `orderBy` are maps keyed by id, since their order is not specified. */
  datatype Body =
    | Message(message: string)
    | Error(error: string)
    | InvalidFields(message: string, required: seq<string>)
      /** `{ message: error.message }` of an exception the handler caught. */
    | Thrown
    | EnrollmentRow(enrollment: Row<Enrollment>)
    | CourseRow(course: Row<Course>)
    | ModuleRow(mod: Row<Module>)
    | VideoRow(video: Row<Video>)
    | AllCourses(courses: map<int, Course>)
      /** `enrollments.map(e => e.course)`, keyed by enrollment id; None where
          the enrolled course does not exist. */
    | UserCourses(enrolled: map<int, Option<Row<Course>>>)
    | CourseDetail(course: Row<Course>, modules: map<int, ModuleTree>, enrollments: map<int, Enrollment>)
    | Modules(modules: map<int, ModuleTree>)
    | CourseDeleted(message: string, deletedCourse: JsValue)
    | ModuleDeleted(message: string, deletedModule: JsValue, deletedVideosCount: nat)
    | Stats(courseId: int, title: JsValue, enrollmentCount: nat)
    | Auth(welcome: Option<string>, token: string, user: Row<User>)
    | Profile(found: Option<Row<User>>)
      /** Express's own reply when no route matches. */
    | NoRoute

  /** A handler either replies or, when a promise it awaits outside any
      `try` rejects, sends nothing: the rejection escapes the handler
      uncaught, and what the server process does with it is not modelled. */
  datatype Response = Reply(status: int, body: Body) | Unanswered

  /** The response together with the store after the request. */
  datatype Outcome = Outcome(response: Response, store: Store)

  /** The parts of the environment the handlers call into, as uninterpreted
      functions: `process.env.ADMIN_EMAIL`, jsonwebtoken's `sign`/`verify`
      under the server secret, bcrypt's `hash`/`compare`, and `parseFloat`
      (None is `NaN`; only integral results are modelled). */
  datatype Env = Env(
    adminEmail: Option<string>,
    sign: Claims -> string,
    verify: string -> Option<Claims>,
    hash: string -> string,
    compare: (string, string) -> bool,
    parseFloat: JsValue -> Option<int>)
}

=== FILE: is_admin.dfy ===
/** The `isAdmin` middleware: only the user whose token carries the
    configured admin e-mail passes. */
module AdminGate {
  import opened Wrappers
  import opened Database
  import opened Http
  import Jwt

  const Denied: Response := Reply(403, Message("Access denied: Admins only"))

  /** `!req.user || req.user.email !== ADMIN_EMAIL`, with `undefined` as None
      on both sides: strict equality, no case folding or trimming. */
  predicate IsAdmin(env: Env, user: Option<Claims>) {
    user.Some? && user.value.email == env.adminEmail
  }

  /** The middleware's outcome: None when it calls `next`, else the 403 it sends. */
  function CheckAdmin(env: Env, user: Option<Claims>): (r: Option<Response>)
    ensures r.None? <==> user.Some? && user.value.email == env.adminEmail
    ensures r.Some? ==> r.value == Denied
  {
    if user.None? || user.value.email != env.adminEmail then Some(Denied) else None
  }

  /** A token this server signed passes exactly when its user's e-mail is
      the configured admin e-mail; with none configured, none of them passes. */
  lemma OwnTokenIsAdminIff(env: Env, user: Row<User>)
    ensures IsAdmin(env, Some(Jwt.TokenPayload(user))) <==> env.adminEmail == Some(user.value.email)
    ensures env.adminEmail.None? ==> !IsAdmin(env, Some(Jwt.TokenPayload(user)))
  {}

  /** An e-mail that differs from the admin's only in letter case is refused. */
  lemma CaseMattersForAdmin(env: Env, c: Claims)
    requires env.adminEmail == Some("admin@example.com")
    requires c.email == Some("Admin@example.com")
    ensures CheckAdmin(env, Some(c)) == Some(Denied)
  {
    assert "Admin@example.com"[0] != "admin@example.com"[0];
  }
}

=== FILE: js_text.dfy ===
/** The pieces of JavaScript's string semantics that the platform's guards
    rely on: white space as `trim()` and `parseInt` see it, `startsWith`,
    `includes`, `split`, and decimal `parseInt` / `String(n)`.
    Characters are Unicode code points; JavaScript's UTF-16 code units are
    not modelled. */
module JsText {
  import opened Wrappers

  // ---------------------------------------------------------------------
  // White space and trimming
  // ---------------------------------------------------------------------

  /** ECMAScript's StrWhiteSpaceChar: the WhiteSpace code points (tab, vertical
      tab, form feed, ZWNBSP and every Zs space) and the LineTerminators. */
  predicate IsWhiteSpace(c: char) {
    || c == '\t' || c == '\n' || c == '\U{000B}' || c == '\U{000C}' || c == '\r'
    || c == ' ' || c == '\U{00A0}' || c == '\U{1680}'
    || ('\U{2000}' <= c <= '\U{200A}')
    || c == '\U{2028}' || c == '\U{2029}' || c == '\U{202F}' || c == '\U{205F}'
    || c == '\U{3000}' || c == '\U{FEFF}'
  }

  predicate AllWhiteSpace(s: string) {
    forall i :: 0 <= i < |s| ==> IsWhiteSpace(s[i])
  }

  /** `s.trimStart()`: the suffix left after dropping leading white space. */
  function TrimStart(s: string): string {
    if |s| > 0 && IsWhiteSpace(s[0]) then TrimStart(s[1..]) else s
  }

  /** `s.trimEnd()`: the prefix left after dropping trailing white space. */
  function TrimEnd(s: string): string {
    if |s| > 0 && IsWhiteSpace(s[|s| - 1]) then TrimEnd(s[..|s| - 1]) else s
  }

  /** `s.trim()`. */
  function Trim(s: string): string {
    TrimEnd(TrimStart(s))
  }

  /** `trimStart` removes a white-space prefix and nothing more. */
  lemma {:induction false} TrimStartRemovesSpacePrefix(s: string)
    ensures var r := TrimStart(s);
      && |r| <= |s| && r == s[|s| - |r|..]
      && AllWhiteSpace(s[..|s| - |r|])
      && (|r| > 0 ==> !IsWhiteSpace(r[0]))
    decreases |s|
  {
    if |s| > 0 && IsWhiteSpace(s[0]) {
      TrimStartRemovesSpacePrefix(s[1..]);
      var r := TrimStart(s[1..]);
      assert s[..|s| - |r|] == [s[0]] + s[1..][..|s[1..]| - |r|];
    }
  }

  /** `trimEnd` removes a white-space suffix and nothing more. */
  lemma {:induction false} TrimEndRemovesSpaceSuffix(s: string)
    ensures var r := TrimEnd(s);
      && |r| <= |s| && r == s[..|r|]
      && AllWhiteSpace(s[|r|..])
      && (|r| > 0 ==> !IsWhiteSpace(r[|r| - 1]))
    decreases |s|
  {
    if |s| > 0 && IsWhiteSpace(s[|s| - 1]) {
      var p := s[..|s| - 1];
      TrimEndRemovesSpaceSuffix(p);
      var r := TrimEnd(p);
      assert s[|r|..] == p[|r|..] + [s[|s| - 1]];
    }
  }

  /** `!s.trim()` holds exactly for the strings made of white space only. */
  lemma TrimIsEmptyIffBlank(s: string)
    ensures Trim(s) == "" <==> AllWhiteSpace(s)
  {
    TrimStartRemovesSpacePrefix(s);
    var t := TrimStart(s);
    TrimEndRemovesSpaceSuffix(t);
    var k := |s| - |t|;
    if Trim(s) == "" {
      assert AllWhiteSpace(t[0..]);
      forall i | 0 <= i < |s| ensures IsWhiteSpace(s[i]) {
        assert s[i] == s[..k][i];
      }
    }
  }

  /** Trimming the front of white space followed by text that does not start
      with white space leaves exactly that text. */
  lemma {:induction false} TrimStartOfPadded(ws: string, v: string)
    requires AllWhiteSpace(ws)
    requires |v| == 0 || !IsWhiteSpace(v[0])
    ensures TrimStart(ws + v) == v
    decreases |ws|
  {
    if |ws| == 0 {
      assert ws + v == v;
    } else {
      assert (ws + v)[0] == ws[0];
      assert (ws + v)[1..] == ws[1..] + v;
      TrimStartOfPadded(ws[1..], v);
    }
  }

  // ---------------------------------------------------------------------
  // Prefixes, substrings, splitting
  // ---------------------------------------------------------------------

  /** `s.startsWith(prefix)`, case-sensitive. */
  predicate StartsWith(s: string, prefix: string) {
    |prefix| <= |s| && s[..|prefix|] == prefix
  }

  /** `sub` occurs in `s` starting at index `i`. */
  predicate OccursAt(s: string, sub: string, i: nat) {
    i + |sub| <= |s| && s[i..i + |sub|] == sub
  }

  /** `s.includes(sub)`. */
  predicate Contains(s: string, sub: string)
    decreases |s|
  {
    StartsWith(s, sub) || (|s| > 0 && Contains(s[1..], sub))
  }

  /** `s.includes(sub)` holds exactly when `sub` occurs at some position of `s`. */
  lemma {:induction false} ContainsIffOccurs(s: string, sub: string)
    ensures Contains(s, sub) <==> exists i: nat :: OccursAt(s, sub, i)
    decreases |s|
  {
    if StartsWith(s, sub) {
      OccursAtStart(s, sub);
    } else if |s| > 0 {
      ContainsIffOccurs(s[1..], sub);
      if Contains(s[1..], sub) {
        var i: nat :| OccursAt(s[1..], sub, i);
        OccursShift(s, sub, i);
      } else {
        forall i: nat | OccursAt(s, sub, i) ensures false {
          if i > 0 {
            OccursShift(s, sub, i - 1);
          } else {
            OccursAtStart(s, sub);
          }
        }
      }
    } else {
      forall i: nat | OccursAt(s, sub, i) ensures false {
        OccursAtStart(s, sub);
      }
    }
  }

  /** Occurring at position 0 is being a prefix. */
  lemma OccursAtStart(s: string, sub: string)
    ensures OccursAt(s, sub, 0) <==> StartsWith(s, sub)
  {
    if |sub| <= |s| {
      assert s[0..|sub|] == s[..|sub|];
    }
  }

  /** Dropping the first character moves every occurrence one place left. */
  lemma OccursShift(s: string, sub: string, i: nat)
    requires |s| > 0
    ensures OccursAt(s[1..], sub, i) <==> OccursAt(s, sub, i + 1)
  {
    if i + 1 + |sub| <= |s| {
      var a := s[1..][i..i + |sub|];
      var b := s[i + 1..i + 1 + |sub|];
      assert |a| == |b|;
      forall k | 0 <= k < |a| ensures a[k] == b[k] {
        assert a[k] == s[1..][i + k] == s[i + 1 + k];
      }
      assert a == b;
    }
  }

  /** `v` occurs in `u + v + w` right after `u`. */
  lemma OccursInMiddle(u: string, v: string, w: string)
    ensures OccursAt(u + v + w, v, |u|)
  {
    assert (u + v + w)[|u|..|u| + |v|] == v;
  }

  /** A text in which `sub` occurs at some position contains it. */
  lemma ContainsAt(s: string, sub: string, i: nat)
    requires OccursAt(s, sub, i)
    ensures Contains(s, sub)
  {
    ContainsIffOccurs(s, sub);
  }

  /** A text that lacks one of `sub`'s characters does not contain `sub`. */
  lemma MissingCharExcludes(s: string, sub: string, k: nat)
    requires k < |sub| && sub[k] !in s
    ensures !Contains(s, sub)
  {
    ContainsIffOccurs(s, sub);
    forall i: nat | OccursAt(s, sub, i) ensures false {}
  }

  /** `s.indexOf(c)`, with None for -1. */
  function IndexOf(s: string, c: char): (r: Option<nat>)
    ensures r.Some? ==> r.value < |s| && s[r.value] == c && c !in s[..r.value]
    ensures r.None? <==> c !in s
  {
    if |s| == 0 then None
    else if s[0] == c then Some(0)
    else match IndexOf(s[1..], c)
      case None => None
      case Some(i) => Some(i + 1)
  }

  /** `s.split(sep)` for a one-character separator. */
  function Split(s: string, sep: char): (parts: seq<string>)
    ensures |parts| >= 1
    ensures forall i :: 0 <= i < |parts| ==> sep !in parts[i]
    ensures |parts| == 1 <==> sep !in s
    decreases |s|
  {
    match IndexOf(s, sep)
    case None => [s]
    case Some(i) => [s[..i]] + Split(s[i + 1..], sep)
  }

  /** The first piece of a split runs up to the first separator. */
  lemma SplitAtFirst(p: string, t: string, sep: char)
    requires sep !in p
    ensures Split(p + [sep] + t, sep) == [p] + Split(t, sep)
  {
    var s := p + [sep] + t;
    assert s[|p|] == sep;
    assert s[..|p|] == p;
    assert IndexOf(s, sep) == Some(|p|);
    assert s[|p| + 1..] == t;
  }

  /** `parts.join(sep)`. */
  function Join(parts: seq<string>, sep: char): string
    requires |parts| >= 1
  {
    if |parts| == 1 then parts[0] else parts[0] + [sep] + Join(parts[1..], sep)
  }

  lemma JoinCons(p: string, rest: seq<string>, sep: char)
    requires |rest| >= 1
    ensures Join([p] + rest, sep) == p + [sep] + Join(rest, sep)
  {
    assert ([p] + rest)[1..] == rest;
  }

  /** A text is its part before position `i`, the character at `i`, and the rest. */
  lemma CutAt(s: string, i: nat)
    requires i < |s|
    ensures s[..i] + [s[i]] + s[i + 1..] == s
  {}

  /** Splitting loses nothing: joining the pieces with the separator gives the text back. */
  lemma {:induction false} JoinSplit(s: string, sep: char)
    ensures Join(Split(s, sep), sep) == s
    decreases |s|
  {
    var idx := IndexOf(s, sep);
    if idx.Some? {
      var i := idx.value;
      var rest := Split(s[i + 1..], sep);
      assert Split(s, sep) == [s[..i]] + rest;
      JoinSplit(s[i + 1..], sep);
      JoinCons(s[..i], rest, sep);
      CutAt(s, i);
    } else {
      assert Split(s, sep) == [s];
    }
  }

  /** Conversely, pieces free of the separator are recovered by splitting their join. */
  lemma {:induction false} SplitJoin(parts: seq<string>, sep: char)
    requires |parts| >= 1
    requires forall i :: 0 <= i < |parts| ==> sep !in parts[i]
    ensures Split(Join(parts, sep), sep) == parts
    decreases |parts|
  {
    if |parts| > 1 {
      var tail := Join(parts[1..], sep);
      assert Join(parts, sep) == parts[0] + [sep] + tail;
      SplitAtFirst(parts[0], tail, sep);
      SplitJoin(parts[1..], sep);
      assert parts == [parts[0]] + parts[1..];
    } else {
      assert Join(parts, sep) == parts[0];
    }
  }

  // ---------------------------------------------------------------------
  // Digits, String(n) and parseInt
  // ---------------------------------------------------------------------

  /** The value of `c` as a digit of radix up to 36; 36 when it is no digit at all. */
  function DigitValue(c: char): (d: nat)
    ensures d <= 36
  {
    if '0' <= c <= '9' then c as int - '0' as int
    else if 'a' <= c <= 'z' then c as int - 'a' as int + 10
    else if 'A' <= c <= 'Z' then c as int - 'A' as int + 10
    else 36
  }

  predicate IsDigit(c: char, radix: nat) {
    DigitValue(c) < radix
  }

  predicate AllDigits(s: string, radix: nat) {
    forall i :: 0 <= i < |s| ==> IsDigit(s[i], radix)
  }

  /** The length of the longest prefix of `s` made of radix digits. */
  function DigitPrefixLength(s: string, radix: nat): (n: nat)
    ensures n <= |s|
  {
    if |s| > 0 && IsDigit(s[0], radix) then DigitPrefixLength(s[1..], radix) + 1 else 0
  }

  /** The digit prefix is made of digits and is the longest such prefix. */
  lemma {:induction false} DigitPrefixIsLongest(s: string, radix: nat)
    ensures var n := DigitPrefixLength(s, radix);
      AllDigits(s[..n], radix) && (n < |s| ==> !IsDigit(s[n], radix))
    decreases |s|
  {
    if |s| > 0 && IsDigit(s[0], radix) {
      DigitPrefixIsLongest(s[1..], radix);
      var k := DigitPrefixLength(s[1..], radix);
      assert s[..k + 1] == [s[0]] + s[1..][..k];
    }
  }

  /** The positional value of a digit string, most significant digit first. */
  function Value(digits: string, radix: nat): nat {
    if |digits| == 0 then 0
    else Value(digits[..|digits| - 1], radix) * radix + DigitValue(digits[|digits| - 1])
  }

  function DigitChar(d: nat): (c: char)
    requires d < 10
    ensures IsDigit(c, 10) && DigitValue(c) == d
  {
    ('0' as int + d) as char
  }

  /** `String(n)` for a non-negative integer: its decimal digits, no leading zero. */
  function NatToString(n: nat): (s: string)
    ensures |s| > 0 && AllDigits(s, 10)
    ensures n > 0 ==> s[0] != '0'
    ensures Value(s, 10) == n
  {
    if n < 10 then [DigitChar(n)]
    else
      var s := NatToString(n / 10) + [DigitChar(n % 10)];
      assert s[..|s| - 1] == NatToString(n / 10);
      s
  }

  /** `String(n)` for an integer (`-` then the digits of its magnitude). */
  function IntToString(n: int): string {
    if n < 0 then "-" + NatToString(-n) else NatToString(n)
  }

  /** The longest prefix of radix digits read as a number; None when it is empty. */
  function ParseDigits(body: string, radix: nat): Option<nat> {
    var n := DigitPrefixLength(body, radix);
    if n == 0 then None else Some(Value(body[..n], radix))
  }

  /** The unsigned part of `parseInt`: a `0x`/`0X` prefix selects radix 16,
      otherwise radix 10. */
  function ParseMagnitude(u: string): Option<nat> {
    if |u| >= 2 && u[0] == '0' && (u[1] == 'x' || u[1] == 'X') then ParseDigits(u[2..], 16)
    else ParseDigits(u, 10)
  }

  /** JavaScript's `parseInt(s)` with no radix, None standing for `NaN`:
      skip leading white space, take one optional sign, then read the
      magnitude; no digits at all is `NaN`. The result is unbounded, so the
      loss of precision of large doubles is not modelled. */
  function ParseInt(s: string): Option<int> {
    var t := TrimStart(s);
    if |t| > 0 && (t[0] == '-' || t[0] == '+') then
      match ParseMagnitude(t[1..])
      case None => None
      case Some(m) =>
        var value: int := if t[0] == '-' then -(m as int) else m;
        Some(value)
    else
      match ParseMagnitude(t)
      case None => None
      case Some(m) => Some(m)
  }

  /** The longest digit prefix of digits followed by a non-digit is exactly those digits. */
  lemma {:induction false} DigitPrefixOfDigits(digits: string, rest: string, radix: nat)
    requires AllDigits(digits, radix)
    requires |rest| == 0 || !IsDigit(rest[0], radix)
    ensures DigitPrefixLength(digits + rest, radix) == |digits|
    decreases |digits|
  {
    if |digits| == 0 {
      assert digits + rest == rest;
    } else {
      assert (digits + rest)[0] == digits[0];
      assert (digits + rest)[1..] == digits[1..] + rest;
      DigitPrefixOfDigits(digits[1..], rest, radix);
    }
  }

  /** Decimal digits followed by a non-digit read as their value, unless they
      are a lone `0` followed by `x`. */
  lemma MagnitudeOfDigits(digits: string, rest: string)
    requires |digits| > 0 && AllDigits(digits, 10)
    requires |rest| == 0 || !IsDigit(rest[0], 10)
    requires !(digits == "0" && |rest| > 0 && (rest[0] == 'x' || rest[0] == 'X'))
    ensures ParseMagnitude(digits + rest) == Some(Value(digits, 10))
  {
    var u := digits + rest;
    assert u[0] == digits[0];
    assert !(|u| >= 2 && u[0] == '0' && (u[1] == 'x' || u[1] == 'X')) by {
      if |digits| >= 2 {
        assert u[1] == digits[1];
        assert IsDigit(digits[1], 10);
      } else if |u| >= 2 {
        assert u[1] == rest[0];
        assert digits == [digits[0]];
      }
    }
    DigitPrefixOfDigits(digits, rest, 10);
    assert u[..|digits|] == digits;
    assert ParseDigits(u, 10) == Some(Value(digits, 10));
  }

  /** A decimal digit is neither white space nor a sign. */
  lemma DigitIsNoSpaceNorSign(c: char)
    requires IsDigit(c, 10)
    ensures !IsWhiteSpace(c) && c != '-' && c != '+'
  {}

  /** Leading white space does not change what `parseInt` reads. */
  lemma ParseIntSkipsSpace(ws: string, v: string)
    requires AllWhiteSpace(ws)
    requires |v| == 0 || !IsWhiteSpace(v[0])
    ensures ParseInt(ws + v) == ParseInt(v)
  {
    TrimStartOfPadded(ws, v);
    TrimStartOfPadded("", v);
    assert "" + v == v;
  }

  /** Unsigned decimal text reads as the value of its digit prefix. */
  lemma ParseIntUnsigned(digits: string, rest: string)
    requires |digits| > 0 && AllDigits(digits, 10)
    requires |rest| == 0 || !IsDigit(rest[0], 10)
    requires !(digits == "0" && |rest| > 0 && (rest[0] == 'x' || rest[0] == 'X'))
    ensures ParseInt(digits + rest) == Some(Value(digits, 10) as int)
  {
    MagnitudeOfDigits(digits, rest);
    DigitIsNoSpaceNorSign(digits[0]);
    assert (digits + rest)[0] == digits[0];
    assert TrimStart(digits + rest) == digits + rest;
  }

  /** A sign in front of a readable magnitude negates (for `-`) or keeps (for `+`) it. */
  lemma ParseIntSigned(sign: char, u: string, m: nat)
    requires sign == '-' || sign == '+'
    requires ParseMagnitude(u) == Some(m)
    ensures ParseInt([sign] + u) == Some(if sign == '-' then -(m as int) else m as int)
  {
    var v := [sign] + u;
    assert v[0] == sign;
    assert TrimStart(v) == v;
    assert v[1..] == u;
  }

  /** A sign in front of decimal text negates (for `-`) or keeps (for `+`) its value. */
  lemma ParseIntSignedDigits(sign: char, digits: string, rest: string)
    requires sign == '-' || sign == '+'
    requires |digits| > 0 && AllDigits(digits, 10)
    requires |rest| == 0 || !IsDigit(rest[0], 10)
    requires !(digits == "0" && |rest| > 0 && (rest[0] == 'x' || rest[0] == 'X'))
    ensures ParseInt([sign] + (digits + rest))
         == Some(if sign == '-' then -(Value(digits, 10) as int) else Value(digits, 10) as int)
  {
    MagnitudeOfDigits(digits, rest);
    ParseIntSignedValue(sign, digits + rest, digits);
  }

  /** ParseIntSigned for a magnitude that is the value of some digits. */
  lemma ParseIntSignedValue(sign: char, u: string, digits: string)
    requires sign == '-' || sign == '+'
    requires ParseMagnitude(u) == Some(Value(digits, 10))
    ensures ParseInt([sign] + u) == Some(if sign == '-' then -(Value(digits, 10) as int) else Value(digits, 10) as int)
  {
    ParseIntSigned(sign, u, Value(digits, 10));
  }

  /** The leading-decimal-prefix rule: after white space and an optional sign,
      the longest run of decimal digits is the value and whatever follows it
      is ignored ("12abc" gives 12), unless that run is a lone `0` followed
      by `x`, which switches to hexadecimal. */
  lemma ParseIntDecimalPrefix(ws: string, sign: string, digits: string, rest: string)
    requires AllWhiteSpace(ws)
    requires sign == "" || sign == "+" || sign == "-"
    requires |digits| > 0 && AllDigits(digits, 10)
    requires |rest| == 0 || !IsDigit(rest[0], 10)
    requires !(digits == "0" && |rest| > 0 && (rest[0] == 'x' || rest[0] == 'X'))
    ensures ParseInt(ws + (sign + (digits + rest)))
         == Some(if sign == "-" then -(Value(digits, 10) as int) else Value(digits, 10) as int)
  {
    var v := sign + (digits + rest);
    DigitIsNoSpaceNorSign(digits[0]);
    if sign == "" {
      assert v == digits + rest;
      assert v[0] == digits[0];
      ParseIntSkipsSpace(ws, v);
      ParseIntUnsigned(digits, rest);
    } else {
      assert v == [sign[0]] + (digits + rest);
      ParseIntSkipsSpace(ws, v);
      ParseIntSignedDigits(sign[0], digits, rest);
    }
  }

  /** With no digit after the white space and optional sign, `parseInt` is NaN. */
  lemma ParseIntNoDigits(ws: string, sign: string, rest: string)
    requires AllWhiteSpace(ws)
    requires sign == "" || sign == "+" || sign == "-"
    requires |rest| == 0 || (!IsDigit(rest[0], 10) && rest[0] != '+' && rest[0] != '-' && !IsWhiteSpace(rest[0]))
    ensures ParseInt(ws + sign + rest) == None
  {
    var v := sign + rest;
    assert ws + sign + rest == ws + v;
    assert |v| == 0 || !IsWhiteSpace(v[0]) by {
      if |v| > 0 {
        if sign == "" { assert v[0] == rest[0]; } else { assert v[0] == sign[0]; }
      }
    }
    TrimStartOfPadded(ws, v);
    if sign == "" {
      assert v == rest;
    } else {
      assert v[1..] == rest;
    }
    if |rest| > 0 {
      assert DigitPrefixLength(rest, 10) == 0;
    }
  }

  /** `parseInt(String(n)) === n`: the decimal rendering of an integer reads back as itself. */
  lemma ParseIntOfIntToString(n: int)
    ensures ParseInt(IntToString(n)) == Some(n)
  {
    var m: nat := if n < 0 then -n else n;
    var d := NatToString(m);
    if n < 0 {
      assert IntToString(n) == "" + ("-" + (d + ""));
      ParseIntDecimalPrefix("", "-", d, "");
    } else {
      assert IntToString(n) == "" + ("" + (d + ""));
      ParseIntDecimalPrefix("", "", d, "");
    }
  }
}

=== FILE: js_value.dfy ===
/** The JavaScript values a JSON request body can carry into a handler, with
    the two coercions the handlers rely on: truthiness (`!x`, `x && y`) and
    conversion to a string (`parseInt(x)`, template literals). */
module JsValues {
  import opened Wrappers
  import opened JsText

  /** A body field. Numbers are integral: fractional numbers, `NaN` and the
      infinities are not modelled. Arrays and objects are not modelled. */
  datatype JsValue = Undefined | Null | Bool(b: bool) | Num(n: int) | Str(s: string)

  /** JavaScript truthiness: `undefined`, `null`, `false`, `0` and `""` are falsy. */
  predicate Truthy(v: JsValue) {
    match v
    case Undefined => false
    case Null => false
    case Bool(b) => b
    case Num(n) => n != 0
    case Str(s) => s != ""
  }

  /** `String(v)`. */
  function ToString(v: JsValue): string {
    match v
    case Undefined => "undefined"
    case Null => "null"
    case Bool(b) => if b then "true" else "false"
    case Num(n) => IntToString(n)
    case Str(s) => s
  }

  /** `parseInt(v)`: the argument is converted to a string first. None is `NaN`. */
  function ParseIntOf(v: JsValue): Option<int> {
    ParseInt(ToString(v))
  }

  /** `parseInt` of a number is that number. */
  lemma ParseIntOfNum(n: int)
    ensures ParseIntOf(Num(n)) == Some(n)
  {
    ParseIntOfIntToString(n);
  }

  /** `undefined`, `null` and the booleans are `NaN` to `parseInt`, since their
      string forms start with a letter. */
  lemma ParseIntOfNonNumeric(v: JsValue)
    requires v.Undefined? || v.Null? || v.Bool?
    ensures ParseIntOf(v) == None
  {
    var t := ToString(v);
    assert t[0] in "unft";
    ParseIntNoDigits("", "", t);
    assert "" + "" + t == t;
  }
}

=== FILE: jwt.dfy ===
/** The JWT middleware: the payload a token is signed with, and the
    `authenticate` gate that reads the bearer token (section 2.1 of RFC 6750)
    from the Authorization header. Signing and verification are the
    uninterpreted `Env.sign` and `Env.verify`. */
module Jwt {
  import opened Wrappers
  import opened JsText
  import opened Database
  import opened Http

  /** `{ id: user.id, email: user.email, role: user.role }`. A user row has
      no role column, so the role is always absent. */
  function TokenPayload(user: Row<User>): (c: Claims)
    ensures c.id == user.id && c.email == Some(user.value.email) && c.role.None?
  {
    Claims(user.id, Some(user.value.email), None)
  }

  /** `generateToken(user)`. */
  function GenerateToken(env: Env, user: Row<User>): string {
    env.sign(TokenPayload(user))
  }

  const Scheme: string := "Bearer "

  /** `authHeader.split(' ')[1]`: the text between the first and the second
      space. The header starts with `"Bearer "`, so the split has at least two parts. */
  function TokenOf(header: string): (token: string)
    requires StartsWith(header, Scheme)
    ensures ' ' !in token
  {
    assert header[6] == ' ';
    Split(header, ' ')[1]
  }

  /** The outcome of `authenticate`: either it answers with 401 and `next`
      is not called, or `next` runs with `req.user` set. */
  datatype Gate = Rejected(response: Response) | Admitted(user: Claims)

  const NoToken: Response := Reply(401, Message("Unauthorized: No token provided"))
  const BadToken: Response := Reply(401, Message("Unauthorized: Invalid token"))

  /** `authenticate`. The scheme is matched case-sensitively and with exactly
      one space, which is stricter than section 2.1 of RFC 7235 (schemes are
      case-insensitive there). */
  function Authenticate(env: Env, header: Option<string>): (g: Gate)
    ensures (header.None? || !StartsWith(header.value, Scheme)) ==> g == Rejected(NoToken)
    ensures header.Some? && StartsWith(header.value, Scheme) ==>
              match env.verify(TokenOf(header.value))
              case None => g == Rejected(BadToken)
              case Some(c) => g == Admitted(c)
    ensures g.Rejected? ==> g.response.Reply? && g.response.status == 401
  {
    if header.None? || header.value == "" || !StartsWith(header.value, Scheme) then Rejected(NoToken)
    else
      match env.verify(TokenOf(header.value))
      case None => Rejected(BadToken)
      case Some(c) => Admitted(c)
  }

  /** The token is whatever follows `"Bearer "` up to the next space. */
  lemma TokenIsSecondPiece(h: string, u: string)
    requires h == Scheme + u
    ensures StartsWith(h, Scheme)
    ensures TokenOf(h) == Split(u, ' ')[0]
  {
    assert h[..|Scheme|] == Scheme;
    var word := Scheme[..6];
    assert ' ' !in word;
    assert h == word + [' '] + u by {
      assert Scheme == word + [' '];
    }
    SplitAtFirst(word, u, ' ');
  }

  /** The first piece of a split is the text before the first space. */
  lemma FirstPiece(token: string, rest: string)
    requires ' ' !in token
    requires rest == "" || rest[0] == ' '
    ensures Split(token + rest, ' ')[0] == token
  {
    if rest == "" {
      assert token + rest == token;
      assert Split(token, ' ') == [token];
    } else {
      assert token + rest == token + [' '] + rest[1..];
      SplitAtFirst(token, rest[1..], ' ');
    }
  }

  /** The token is the run of non-space text right after `"Bearer "`, and
      stops at the next space. */
  lemma TokenAfterScheme(token: string, rest: string)
    requires ' ' !in token
    requires rest == "" || rest[0] == ' '
    ensures StartsWith(Scheme + (token + rest), Scheme)
    ensures TokenOf(Scheme + (token + rest)) == token
  {
    TokenIsSecondPiece(Scheme + (token + rest), token + rest);
    FirstPiece(token, rest);
  }

  /** A token issued at sign-up or sign-in, sent back as `"Bearer <token>"`,
      admits its user with the issued payload, provided verification
      inverts signing on it and the signed text has no space. */
  lemma IssuedTokenAdmits(env: Env, user: Row<User>)
    requires env.verify(GenerateToken(env, user)) == Some(TokenPayload(user))
    requires ' ' !in GenerateToken(env, user)
    ensures Authenticate(env, Some(Scheme + GenerateToken(env, user))) == Admitted(TokenPayload(user))
  {
    var token := GenerateToken(env, user);
    TokenAfterScheme(token, "");
    assert token + "" == token;
  }

  /** `"Bearer a b"` carries the token `"a"`, and `"Bearer  x"` the empty token. */
  lemma TokenExamples()
    ensures TokenOf("Bearer a b") == "a"
    ensures TokenOf("Bearer  x") == ""
  {
    TokenAfterScheme("a", " b");
    assert Scheme + ("a" + " b") == "Bearer a b";
    TokenAfterScheme("", " x");
    assert Scheme + ("" + " x") == "Bearer  x";
  }

  /** The scheme is matched case-sensitively: a lower-case `bearer` header
      is answered as if no token had been sent. */
  lemma LowerCaseSchemeRejected(env: Env, header: string)
    requires |header| > 0 && header[0] == 'b'
    ensures Authenticate(env, Some(header)) == Rejected(NoToken)
  {
    assert !StartsWith(header, Scheme) by {
      if |Scheme| <= |header| {
        assert header[..|Scheme|][0] == 'b';
      }
    }
  }
}

=== FILE: lists.dfy ===
/** The array operations the client-side reducers are built from:
    `filter`, `find` and the `map(x => cond ? replacement : x)` idiom, with
    the facts about them that the reducers' properties rest on. */
module Lists {
  import opened Wrappers

  /** `xs` is obtained from `ys` by deleting elements; order is kept. */
  predicate IsSubsequence<T(==)>(xs: seq<T>, ys: seq<T>)
    decreases |ys|
  {
    if |ys| == 0 then |xs| == 0
    else (|xs| > 0 && xs[0] == ys[0] && IsSubsequence(xs[1..], ys[1..])) || IsSubsequence(xs, ys[1..])
  }

  /** Every sequence is a subsequence of itself. */
  lemma {:induction false} SubsequenceOfItself<T>(xs: seq<T>)
    ensures IsSubsequence(xs, xs)
    decreases |xs|
  {
    if |xs| > 0 {
      SubsequenceOfItself(xs[1..]);
    }
  }

  /** `xs.filter(keep)`. */
  function Filter<T(==)>(xs: seq<T>, keep: T -> bool): (r: seq<T>)
    ensures |r| <= |xs|
    ensures forall i :: 0 <= i < |r| ==> r[i] in xs && keep(r[i])
    ensures forall i :: 0 <= i < |xs| && keep(xs[i]) ==> xs[i] in r
    ensures IsSubsequence(r, xs)
    decreases |xs|
  {
    if |xs| == 0 then []
    else
      var rest := Filter(xs[1..], keep);
      assert xs == [xs[0]] + xs[1..];
      if keep(xs[0]) then
        assert ([xs[0]] + rest)[1..] == rest;
        [xs[0]] + rest
      else rest
  }

  /** The filter keeps every copy of a passing element, duplicates included,
      and no copy of a failing one. */
  lemma {:induction false} FilterCounts<T(!new)>(xs: seq<T>, keep: T -> bool)
    ensures forall x :: multiset(Filter(xs, keep))[x] == if keep(x) then multiset(xs)[x] else 0
    decreases |xs|
  {
    if |xs| > 0 {
      FilterCounts(xs[1..], keep);
      assert xs == [xs[0]] + xs[1..];
      assert multiset(xs) == multiset{xs[0]} + multiset(xs[1..]);
      var rest := Filter(xs[1..], keep);
      if keep(xs[0]) {
        assert multiset([xs[0]] + rest) == multiset{xs[0]} + multiset(rest);
      }
    }
  }

  /** Filtering a concatenation filters each part. */
  lemma {:induction false} FilterAppend<T>(a: seq<T>, b: seq<T>, keep: T -> bool)
    ensures Filter(a + b, keep) == Filter(a, keep) + Filter(b, keep)
    decreases |a|
  {
    if |a| == 0 {
      assert a + b == b;
    } else {
      assert (a + b)[0] == a[0];
      assert (a + b)[1..] == a[1..] + b;
      FilterAppend(a[1..], b, keep);
    }
  }

  /** A filter that every element passes changes nothing. */
  lemma {:induction false} FilterAllPass<T>(xs: seq<T>, keep: T -> bool)
    requires forall i :: 0 <= i < |xs| ==> keep(xs[i])
    ensures Filter(xs, keep) == xs
    decreases |xs|
  {
    if |xs| > 0 {
      FilterAllPass(xs[1..], keep);
      assert [xs[0]] + xs[1..] == xs;
    }
  }

  /** `xs.map(x => hit(x) ? change(x) : x)`. */
  function MapWhere<T>(xs: seq<T>, hit: T -> bool, change: T -> T): (r: seq<T>)
    ensures |r| == |xs|
    ensures forall i :: 0 <= i < |xs| ==> r[i] == if hit(xs[i]) then change(xs[i]) else xs[i]
    decreases |xs|
  {
    if |xs| == 0 then []
    else [if hit(xs[0]) then change(xs[0]) else xs[0]] + MapWhere(xs[1..], hit, change)
  }

  /** A map that hits nothing changes nothing. */
  lemma MapWhereMissesAll<T>(xs: seq<T>, hit: T -> bool, change: T -> T)
    requires forall i :: 0 <= i < |xs| ==> !hit(xs[i])
    ensures MapWhere(xs, hit, change) == xs
  {
    var r := MapWhere(xs, hit, change);
    assert forall i :: 0 <= i < |xs| ==> r[i] == xs[i];
  }

  /** `xs.findIndex(p)`, with `-1` as `None`. */
  function FindIndex<T>(xs: seq<T>, p: T -> bool): (r: Option<nat>)
    ensures r.Some? ==> r.value < |xs| && p(xs[r.value]) && forall j :: 0 <= j < r.value ==> !p(xs[j])
    ensures r.None? <==> forall i :: 0 <= i < |xs| ==> !p(xs[i])
    decreases |xs|
  {
    if |xs| == 0 then None
    else if p(xs[0]) then Some(0)
    else
      match FindIndex(xs[1..], p)
      case None => None
      case Some(k) =>
        assert forall j :: 1 <= j < k + 1 ==> xs[j] == xs[1..][j - 1];
        Some(k + 1)
  }

  /** `xs.find(p)`, with `undefined` as `None`: the first element satisfying `p`. */
  function Find<T>(xs: seq<T>, p: T -> bool): (r: Option<T>)
    ensures r.None? <==> forall i :: 0 <= i < |xs| ==> !p(xs[i])
    ensures r.Some? ==> exists i :: 0 <= i < |xs| && xs[i] == r.value && p(xs[i])
                                   && forall j :: 0 <= j < i ==> !p(xs[j])
  {
    match FindIndex(xs, p)
    case None => None
    case Some(i) => Some(xs[i])
  }
}

=== FILE: module_manager.dfy ===
/** The module screen of one course: the client-side list of modules (each
    with its videos) and how each successful request reshapes it. A request
    outcome is an `Option`: `None` when the request failed, which only
    raises an alert and leaves the list as it was; a failed load is the
    exception and empties the list (`AdminCommon.LoadOrEmpty`). Deletions
    additionally wait for the user's confirmation. */
module ModuleManager {
  import opened Wrappers
  import opened JsValues
  import opened Lists
  import opened VideoSystem
  import opened ModuleSystem
  import opened AdminCommon

  /** `toggleModuleExpand`. */
  function ToggleModuleExpand(expanded: Option<JsValue>, moduleId: JsValue): (r: Option<JsValue>)
    ensures r == Toggle(expanded, moduleId)
    ensures r.Some? ==> r.value == moduleId
  {
    Toggle(expanded, moduleId)
  }

  // ---------------------------------------------------------------------
  // Modules
  // ---------------------------------------------------------------------

  /** The bare module row the server's create and update handlers reply
      with: it has no `videos` field. */
  datatype ModuleRow = ModuleRow(id: JsValue, title: string, courseId: JsValue)

  /** A list entry as the screen's handlers can leave it: a module with its
      videos, or a bare server row stored in its place. */
  datatype Entry = Full(m: Module) | Bare(row: ModuleRow)

  function Entries(ms: seq<Module>): (r: seq<Entry>)
    ensures |r| == |ms| && forall i :: 0 <= i < |ms| ==> r[i] == Full(ms[i])
  {
    seq(|ms|, i requires 0 <= i < |ms| => Full(ms[i]))
  }

  /** `module.videos.length`, read by every module card's header; a bare
      row has no `videos`, so the read throws a TypeError (`None`). */
  function CardVideoCount(e: Entry): (r: Option<nat>)
    ensures r.None? <==> e.Bare?
    ensures e.Full? ==> r == Some(|e.m.videos|)
  {
    match e
    case Full(m) => Some(|m.videos|)
    case Bare(_) => None
  }

  /** `handleAddModule` as written: `setModules([...modules, res.data])`. */
  function AddModuleAsWritten(ms: seq<Module>, reply: Option<ModuleRow>): (r: seq<Entry>)
    ensures reply.None? ==> r == Entries(ms)
    ensures reply.Some? ==> |r| == |ms| + 1 && r[..|ms|] == Entries(ms) && r[|ms|] == Bare(reply.value)
  {
    match reply
    case None => Entries(ms)
    case Some(row) => Entries(ms) + [Bare(row)]
  }

  /** After a successful add, the new entry's card cannot render its header. */
  lemma AddModuleAsWrittenBreaksCard(ms: seq<Module>, row: ModuleRow)
    ensures var r := AddModuleAsWritten(ms, Some(row));
      |r| == |ms| + 1 && CardVideoCount(r[|ms|]).None?
  {}

  /** `handleAddModule` as intended: the created module is appended with an
      empty video list. */
  function AddModule(ms: seq<Module>, reply: Option<ModuleRow>): (r: seq<Module>)
    ensures reply.None? ==> r == ms
    ensures reply.Some? ==> |r| == |ms| + 1 && r[..|ms|] == ms
    ensures reply.Some? ==> r[|ms|] == Module(reply.value.id, reply.value.title, [])
  {
    match reply
    case None => ms
    case Some(row) => ms + [Module(row.id, row.title, [])]
  }

  /** Every card of the corrected list renders; the new one shows 0 videos. */
  lemma AddModuleRendersEveryCard(ms: seq<Module>, reply: Option<ModuleRow>)
    ensures var e := Entries(AddModule(ms, reply));
      forall i :: 0 <= i < |e| ==> CardVideoCount(e[i]).Some?
    ensures reply.Some? ==> CardVideoCount(Entries(AddModule(ms, reply))[|ms|]) == Some(0)
  {}

  predicate HasId(m: Module, id: JsValue) {
    m.id == id
  }

  /** `handleUpdateModule` as written: every module with that id is replaced
      by the bare server row. */
  function UpdateModuleAsWritten(ms: seq<Module>, moduleId: JsValue, reply: Option<ModuleRow>): (r: seq<Entry>)
    ensures reply.None? ==> r == Entries(ms)
    ensures reply.Some? ==> |r| == |ms| && forall i :: 0 <= i < |ms| ==>
              r[i] == if ms[i].id == moduleId then Bare(reply.value) else Full(ms[i])
  {
    match reply
    case None => Entries(ms)
    case Some(row) => seq(|ms|, i requires 0 <= i < |ms| => if ms[i].id == moduleId then Bare(row) else Full(ms[i]))
  }

  /** After a successful rename, the renamed module's card cannot render. */
  lemma UpdateModuleAsWrittenBreaksCard(ms: seq<Module>, i: nat, row: ModuleRow)
    requires i < |ms|
    ensures CardVideoCount(UpdateModuleAsWritten(ms, ms[i].id, Some(row))[i]).None?
  {}

  /** `handleUpdateModule` as intended: the module keeps its videos and takes
      the new title from the reply. */
  function UpdateModule(ms: seq<Module>, moduleId: JsValue, reply: Option<ModuleRow>): (r: seq<Module>)
    ensures reply.None? ==> r == ms
    ensures |r| == |ms|
    ensures reply.Some? ==> forall i :: 0 <= i < |ms| ==>
              r[i] == if ms[i].id == moduleId then ms[i].(title := reply.value.title) else ms[i]
  {
    match reply
    case None => ms
    case Some(row) => MapWhere(ms, (m: Module) => HasId(m, moduleId), (m: Module) => m.(title := row.title))
  }

  /** A rename changes only titles: ids, videos and order stay as they were. */
  lemma UpdateModuleOnlyRetitles(ms: seq<Module>, moduleId: JsValue, reply: Option<ModuleRow>)
    ensures var r := UpdateModule(ms, moduleId, reply);
      forall i :: 0 <= i < |ms| ==> r[i].id == ms[i].id && r[i].videos == ms[i].videos
  {}

  /** `handleDeleteModule`: after confirmation and a successful request,
      the modules with that id are removed, the others kept in order. */
  function DeleteModule(ms: seq<Module>, moduleId: JsValue, confirmed: bool, ok: bool): (r: seq<Module>)
    ensures !(confirmed && ok) ==> r == ms
    ensures confirmed && ok ==> forall i :: 0 <= i < |r| ==> r[i].id != moduleId
    ensures confirmed && ok ==> forall i :: 0 <= i < |ms| && ms[i].id != moduleId ==> ms[i] in r
    ensures confirmed && ok ==> forall m :: multiset(r)[m] == if m.id == moduleId then 0 else multiset(ms)[m]
    ensures IsSubsequence(r, ms)
  {
    if confirmed && ok then
      var keep := (m: Module) => !HasId(m, moduleId);
      FilterCounts(ms, keep);
      Filter(ms, keep)
    else
      SubsequenceOfItself(ms);
      ms
  }

  /** Deleting a module just added (under an id no listed module has)
      restores the list. */
  lemma AddThenDeleteModule(ms: seq<Module>, row: ModuleRow)
    requires forall i :: 0 <= i < |ms| ==> ms[i].id != row.id
    ensures DeleteModule(AddModule(ms, Some(row)), row.id, true, true) == ms
  {
    var keep := (m: Module) => !HasId(m, row.id);
    FilterAppend(ms, [Module(row.id, row.title, [])], keep);
    FilterAllPass(ms, keep);
  }

  // ---------------------------------------------------------------------
  // Videos inside modules
  // ---------------------------------------------------------------------

  /** `handleAddVideo`: the reply is appended to the videos of the modules
      with that id; every other module is unchanged. */
  function AddVideo(ms: seq<Module>, moduleId: JsValue, reply: Option<Video>): (r: seq<Module>)
    ensures reply.None? ==> r == ms
    ensures |r| == |ms|
    ensures reply.Some? ==> forall i :: 0 <= i < |ms| ==>
              r[i] == if ms[i].id == moduleId then ms[i].(videos := ms[i].videos + [reply.value]) else ms[i]
  {
    match reply
    case None => ms
    case Some(v) => MapWhere(ms, (m: Module) => HasId(m, moduleId), (m: Module) => m.(videos := m.videos + [v]))
  }

  predicate VideoHasId(v: Video, id: JsValue) {
    v.id == id
  }

  /** `handleUpdateVideo`: inside the modules with that id, the videos with
      that id are replaced by the reply; nothing else changes. */
  function UpdateVideo(ms: seq<Module>, videoId: JsValue, moduleId: JsValue, reply: Option<Video>): (r: seq<Module>)
    ensures reply.None? ==> r == ms
    ensures |r| == |ms|
    ensures reply.Some? ==> forall i :: 0 <= i < |ms| ==>
              && r[i].id == ms[i].id && r[i].title == ms[i].title
              && |r[i].videos| == |ms[i].videos|
              && forall k :: 0 <= k < |ms[i].videos| ==>
                   r[i].videos[k] == if ms[i].id == moduleId && ms[i].videos[k].id == videoId then reply.value
                                     else ms[i].videos[k]
  {
    match reply
    case None => ms
    case Some(v) =>
      MapWhere(ms, (m: Module) => HasId(m, moduleId),
               (m: Module) => m.(videos := MapWhere(m.videos, (x: Video) => VideoHasId(x, videoId), (x: Video) => v)))
  }

  /** `handleDeleteVideo`: after confirmation and a successful request, the
      videos with that id leave the modules with that id; nothing else changes. */
  function DeleteVideo(ms: seq<Module>, moduleId: JsValue, videoId: JsValue, confirmed: bool, ok: bool): (r: seq<Module>)
    ensures !(confirmed && ok) ==> r == ms
    ensures |r| == |ms|
    ensures confirmed && ok ==> forall i :: 0 <= i < |ms| ==>
              && r[i].id == ms[i].id && r[i].title == ms[i].title
              && (ms[i].id != moduleId ==> r[i] == ms[i])
              && (ms[i].id == moduleId ==>
                    (forall k :: 0 <= k < |r[i].videos| ==> r[i].videos[k].id != videoId)
                    && IsSubsequence(r[i].videos, ms[i].videos)
                    && (forall k :: 0 <= k < |ms[i].videos| && ms[i].videos[k].id != videoId ==>
                          ms[i].videos[k] in r[i].videos)
                    && forall v :: multiset(r[i].videos)[v] ==
                                   if v.id == videoId then 0 else multiset(ms[i].videos)[v])
  {
    if confirmed && ok then
      var keep := (x: Video) => !VideoHasId(x, videoId);
      FilterCountsEach(ms, keep);
      MapWhere(ms, (m: Module) => HasId(m, moduleId), (m: Module) => m.(videos := Filter(m.videos, keep)))
    else ms
  }

  /** The filter's counting fact for the videos of every module at once. */
  lemma FilterCountsEach(ms: seq<Module>, keep: Video -> bool)
    ensures forall i :: 0 <= i < |ms| ==> forall v ::
              multiset(Filter(ms[i].videos, keep))[v] == if keep(v) then multiset(ms[i].videos)[v] else 0
  {
    forall i | 0 <= i < |ms| {
      FilterCounts(ms[i].videos, keep);
    }
  }

  /** Deleting a video just added to a module (under an id that module's
      videos do not use) restores the list. */
  lemma AddThenDeleteVideo(ms: seq<Module>, moduleId: JsValue, v: Video)
    requires forall i, k :: 0 <= i < |ms| && ms[i].id == moduleId && 0 <= k < |ms[i].videos| ==>
               ms[i].videos[k].id != v.id
    ensures DeleteVideo(AddVideo(ms, moduleId, Some(v)), moduleId, v.id, true, true) == ms
  {
    var added := AddVideo(ms, moduleId, Some(v));
    var r := DeleteVideo(added, moduleId, v.id, true, true);
    var keep := (x: Video) => !VideoHasId(x, v.id);
    forall i | 0 <= i < |ms|
      ensures r[i] == ms[i]
    {
      if ms[i].id == moduleId {
        FilterDropsAppended(ms[i].videos, v, keep);
        assert r[i].videos == Filter(added[i].videos, keep);
      }
    }
  }

  /** Filtering out a video appended to videos that all pass the filter
      gives those videos back. */
  lemma FilterDropsAppended(vs: seq<Video>, v: Video, keep: Video -> bool)
    requires !keep(v)
    requires forall k :: 0 <= k < |vs| ==> keep(vs[k])
    ensures Filter(vs + [v], keep) == vs
  {
    FilterAppend(vs, [v], keep);
    FilterAllPass(vs, keep);
  }

  /** The video a card's edit button belongs to lives in this module. */
  predicate HoldsVideo(m: Module, videoId: JsValue) {
    exists k :: 0 <= k < |m.videos| && m.videos[k].id == videoId
  }

  /** `openEditVideoModal`: the selected module becomes the first module
      holding the video; when none holds it, the selection stays. */
  function OpenEditVideoModal(ms: seq<Module>, video: Video, selected: Option<JsValue>): (r: Option<JsValue>)
    ensures (forall i :: 0 <= i < |ms| ==> !HoldsVideo(ms[i], video.id)) ==> r == selected
    ensures (exists i :: 0 <= i < |ms| && HoldsVideo(ms[i], video.id)) ==>
              exists i :: 0 <= i < |ms| && r == Some(ms[i].id) && HoldsVideo(ms[i], video.id)
                          && forall j :: 0 <= j < i ==> !HoldsVideo(ms[j], video.id)
  {
    match Find(ms, (m: Module) => HoldsVideo(m, video.id))
    case None => selected
    case Some(m) => Some(m.id)
  }

  /** After a video is added to a module, editing it selects that module's
      id, provided no module listed before it holds a video with the same id. */
  lemma EditAfterAddSelectsItsModule(ms: seq<Module>, i: nat, v: Video, selected: Option<JsValue>)
    requires i < |ms|
    requires forall j :: 0 <= j < i ==> !HoldsVideo(ms[j], v.id)
    ensures OpenEditVideoModal(AddVideo(ms, ms[i].id, Some(v)), v, selected) == Some(ms[i].id)
  {
    var r := AddVideo(ms, ms[i].id, Some(v));
    assert r[i].videos[|r[i].videos| - 1] == v;
    assert HoldsVideo(r[i], v.id);
  }
}

=== FILE: module_system.dfy ===
/** The admin's module type and the submit guards of the add-module and
    edit-module modals. */
module ModuleSystem {
  import opened Wrappers
  import opened JsText
  import opened JsValues
  import opened VideoSystem

  /** A module as the module screen holds it: with its list of videos. */
  datatype Module = Module(id: JsValue, title: string, videos: seq<Video>)

  /** The effect of a submit: the title handed to `onSubmit`, if any, and
      whether the modal calls `onClose`. */
  datatype TitleSubmit = TitleSubmit(call: Option<string>, closes: bool)

  /** `AddModuleModal.handleSubmit`: a title that trims to nothing is
      ignored; any other title is passed on as typed, untrimmed, and the
      modal closes. */
  function SubmitAddModule(title: string): (r: TitleSubmit)
    ensures r.call.Some? <==> !AllWhiteSpace(title)
    ensures r.call.Some? ==> r.call.value == title
    ensures r.closes <==> r.call.Some?
  {
    TrimIsEmptyIffBlank(title);
    if Trim(title) == "" then TitleSubmit(None, false) else TitleSubmit(Some(title), true)
  }

  /** `EditModuleModal.handleSubmit`: a blank title or the module's current
      title closes the modal without a call; any other title is passed on
      untrimmed and the modal stays open (the parent closes it on success). */
  function SubmitEditModule(m: Module, title: string): (r: TitleSubmit)
    ensures r.call.None? <==> AllWhiteSpace(title) || title == m.title
    ensures r.call.None? ==> r.closes
    ensures r.call.Some? ==> r.call.value == title && !r.closes
  {
    TrimIsEmptyIffBlank(title);
    if Trim(title) == "" || title == m.title then TitleSubmit(None, true)
    else TitleSubmit(Some(title), false)
  }

  /** A title with a non-blank character stays non-blank when text is appended. */
  lemma NonBlankAppend(s: string, t: string)
    requires !AllWhiteSpace(s)
    ensures !AllWhiteSpace(s + t)
  {
    var i :| 0 <= i < |s| && !IsWhiteSpace(s[i]);
    assert (s + t)[i] == s[i];
  }

  /** The comparison with the current title is exact: the same title with a
      trailing space counts as a change and is sent. */
  lemma TrailingSpaceIsAChange(m: Module)
    requires !AllWhiteSpace(m.title)
    ensures SubmitEditModule(m, m.title + " ").call == Some(m.title + " ")
  {
    NonBlankAppend(m.title, " ");
    assert |m.title + " "| != |m.title|;
  }

  /** Every title the add modal sends passes the server's title check
      (a truthy string). */
  lemma SentTitleIsTruthy(title: string)
    ensures SubmitAddModule(title).call.Some? ==> Truthy(Str(SubmitAddModule(title).call.value))
  {}
}

=== FILE: modules_controller.dfy ===
/** The module handlers: the admin's create/update/delete (the delete
    cascading to the module's videos) and the public list by course. */
module ModulesController {
  import opened Wrappers
  import opened JsText
  import opened JsValues
  import opened Database
  import opened Http

  /** The guard `!x || isNaN(parseInt(x))` on a path parameter, and the id it yields. */
  function PathId(param: string): (r: Option<int>)
    ensures r.Some? ==> param != ""
    ensures param != "" ==> r == ParseInt(param)
  {
    if param == "" then None else ParseInt(param)
  }

  /** `POST /module`. Title and course id are checked before the store is
      read; an unknown course is a 400, not a 404. */
  function AddModule(s: Store, title: JsValue, courseId: JsValue, fault: bool): (o: Outcome)
    requires TablesValid(s)
    ensures !Truthy(title) || !Truthy(courseId) || ParseIntOf(courseId).None? ==>
              o == Outcome(Reply(400, Error("Missing or invalid 'courseId'")), s)
    ensures Truthy(title) && Truthy(courseId) && ParseIntOf(courseId).Some? ==>
              var id := ParseIntOf(courseId).value;
              if id !in s.courses.rows then o == Outcome(Reply(400, Error("Invalid courseId. Course not found.")), s)
              else if fault then o == Outcome(Reply(500, Error("Internal server error")), s)
              else
                o.response.Reply? && o.response.status == 200 && o.response.body.ModuleRow?
                && var row := o.response.body.mod;
                   row.value == Module(title, id) && row.id !in s.modules.rows
                   && o.store == s.(modules := o.store.modules)
                   && o.store.modules.rows == s.modules.rows[row.id := row.value]
  {
    if !Truthy(title) || !Truthy(courseId) || ParseIntOf(courseId).None? then
      Outcome(Reply(400, Error("Missing or invalid 'courseId'")), s)
    else
      var id := ParseIntOf(courseId).value;
      if id !in s.courses.rows then Outcome(Reply(400, Error("Invalid courseId. Course not found.")), s)
      else if fault then Outcome(Reply(500, Error("Internal server error")), s)
      else
        var m := Module(title, id);
        var (t, newId) := s.modules.Insert(m);
        Outcome(Reply(200, ModuleRow(Row(newId, m))), s.(modules := t))
  }

  /** A course id with a numeric prefix is accepted: `"5abc"` adds to course 5. */
  lemma AddModuleAcceptsNumericPrefix(s: Store, title: JsValue)
    requires TablesValid(s) && Truthy(title) && 5 in s.courses.rows
    ensures var o := AddModule(s, title, Str("5abc"), false);
      o.response.Reply? && o.response.status == 200 && o.response.body.ModuleRow?
      && o.response.body.mod.value.courseId == 5
  {
    var digits := "5";
    assert AllDigits(digits, 10);
    assert Value(digits, 10) == 5 by {
      assert digits[..0] == "";
    }
    ParseIntDecimalPrefix("", "", digits, "abc");
    assert "" + ("" + (digits + "abc")) == "5abc";
  }

  /** `PUT /modules/:moduleId`: only the title changes. A missing module makes
      Prisma's update throw, which lands in the 500 branch. */
  function UpdateModule(s: Store, moduleId: string, title: JsValue, fault: bool): (o: Outcome)
    ensures PathId(moduleId).None? ==> o == Outcome(Reply(400, Error("Invalid module ID")), s)
    ensures PathId(moduleId).Some? && !(title.Str? && title.s != "") ==>
              o == Outcome(Reply(400, Error("Module title is required")), s)
    ensures PathId(moduleId).Some? && title.Str? && title.s != "" ==>
              var id := PathId(moduleId).value;
              if id !in s.modules.rows || fault then
                o == Outcome(Reply(500, Error("Failed to update module")), s)
              else
                var m := s.modules.rows[id].(title := title);
                o == Outcome(Reply(200, ModuleRow(Row(id, m))), s.(modules := s.modules.Put(id, m)))
  {
    match PathId(moduleId)
    case None => Outcome(Reply(400, Error("Invalid module ID")), s)
    case Some(id) =>
      if !Truthy(title) || !title.Str? then Outcome(Reply(400, Error("Module title is required")), s)
      else if id !in s.modules.rows || fault then Outcome(Reply(500, Error("Failed to update module")), s)
      else
        var m := s.modules.rows[id].(title := title);
        Outcome(Reply(200, ModuleRow(Row(id, m))), s.(modules := s.modules.Put(id, m)))
  }

  /** The store after deleting module `id`: its videos, then the module. */
  function ModuleCascade(s: Store, id: int): (t: Store)
    ensures t.modules.rows.Keys == s.modules.rows.Keys - {id}
    ensures forall v :: v in t.videos.rows <==> v in s.videos.rows && s.videos.rows[v].moduleId != id
    ensures forall m :: m in t.modules.rows ==> t.modules.rows[m] == s.modules.rows[m]
    ensures forall v :: v in t.videos.rows ==> t.videos.rows[v] == s.videos.rows[v]
    ensures t == s.(modules := t.modules, videos := t.videos)
  {
    var videos := VideosOfModule(s, id);
    var s' := if |videos| > 0 then s.(videos := s.videos.Without(videos.Keys)) else s;
    assert |videos| == 0 ==> forall v :: v !in videos;
    s'.(modules := s'.modules.Without({id}))
  }

  /** `DELETE /modules/:moduleId`. The reply counts the videos read before the
      transaction; the fallback name uses the raw path text. */
  function DeleteModule(s: Store, moduleId: string, fault: bool): (o: Outcome)
    ensures PathId(moduleId).None? ==> o == Outcome(Reply(400, Error("Invalid module ID")), s)
    ensures PathId(moduleId).Some? && PathId(moduleId).value !in s.modules.rows ==>
              o == Outcome(Reply(404, Error("Module not found")), s)
    ensures PathId(moduleId).Some? && PathId(moduleId).value in s.modules.rows ==>
              var id := PathId(moduleId).value;
              o == if fault then Outcome(Reply(500, Error("Failed to delete module")), s)
                   else Outcome(Reply(200, ModuleDeleted("Module and all related videos deleted successfully",
                                                         if Truthy(s.modules.rows[id].title) then s.modules.rows[id].title
                                                         else Str("Module ID: " + moduleId),
                                                         |VideosOfModule(s, id)|)),
                                ModuleCascade(s, id))
  {
    match PathId(moduleId)
    case None => Outcome(Reply(400, Error("Invalid module ID")), s)
    case Some(id) =>
      if id !in s.modules.rows then Outcome(Reply(404, Error("Module not found")), s)
      else if fault then Outcome(Reply(500, Error("Failed to delete module")), s)
      else
        var existing := s.modules.rows[id];
        var name := if Truthy(existing.title) then existing.title else Str("Module ID: " + moduleId);
        Outcome(Reply(200, ModuleDeleted("Module and all related videos deleted successfully", name,
                                         |VideosOfModule(s, id)|)),
                ModuleCascade(s, id))
  }

  /** The reported count is the number of videos the delete removed. */
  lemma DeletedVideosCountIsExact(s: Store, id: int)
    requires id in s.modules.rows
    ensures |VideosOfModule(s, id)| == |s.videos.rows.Keys - ModuleCascade(s, id).videos.rows.Keys|
  {
    var t := ModuleCascade(s, id);
    assert VideosOfModule(s, id).Keys == s.videos.rows.Keys - t.videos.rows.Keys;
  }

  /** Deleting a module keeps the store consistent: its videos go with it. */
  lemma DeleteModuleKeepsConsistency(s: Store, moduleId: string, fault: bool)
    requires Consistent(s)
    ensures Consistent(DeleteModule(s, moduleId, fault).store)
  {
    if PathId(moduleId).Some? && PathId(moduleId).value in s.modules.rows && !fault {
      var id := PathId(moduleId).value;
      var t := ModuleCascade(s, id);
      forall v | v in t.videos.rows
        ensures t.videos.rows[v].moduleId in t.modules.rows
      {
        assert s.videos.rows[v].moduleId != id;
      }
    }
  }

  /** Adding or updating a module keeps the store consistent: the new module's
      course exists. */
  lemma AddModuleKeepsConsistency(s: Store, title: JsValue, courseId: JsValue, fault: bool)
    requires Consistent(s)
    ensures Consistent(AddModule(s, title, courseId, fault).store)
  {}

  lemma UpdateModuleKeepsConsistency(s: Store, moduleId: string, title: JsValue, fault: bool)
    requires Consistent(s)
    ensures Consistent(UpdateModule(s, moduleId, title, fault).store)
  {}

  /** `GET /modules/:courseId`: exactly the course's modules with their
      videos; none is the empty list, and the course need not exist. */
  function GetModules(s: Store, courseId: string): (o: Outcome)
    ensures o.store == s
    ensures PathId(courseId).None? ==> o.response == Reply(400, Message("Invalid course ID"))
    ensures PathId(courseId).Some? ==>
              o.response.Reply? && o.response.status == 200 && o.response.body.Modules?
              && var ms := o.response.body.modules;
                 (forall m :: m in ms <==> m in s.modules.rows && s.modules.rows[m].courseId == PathId(courseId).value)
                 && (forall m :: m in ms ==> ms[m].mod == s.modules.rows[m] && ms[m].videos == VideosOfModule(s, m))
  {
    match PathId(courseId)
    case None => Outcome(Reply(400, Message("Invalid course ID")), s)
    case Some(id) => Outcome(Reply(200, Modules(ModuleTrees(s, id))), s)
  }
}

=== FILE: routes.dfy ===
/** The route table mounted under `/api`: which handler a request reaches and
    which middleware runs before it. */
module Routes {
  import opened Wrappers
  import opened JsValues
  import opened Database
  import opened Http
  import Jwt
  import AdminGate
  import Courses = CoursesController
  import Modules = ModulesController
  import Videos = VideosController
  import Auth = AuthController
  import Comments = CommentsController

  datatype Method = Get | Post | Put | Delete

  /** A request: its method, the path below `/api` split at `/` (already
      decoded), the Authorization header and the JSON body's fields. */
  datatype Request = Request(verb: Method, path: seq<string>, authorization: Option<string>,
                             body: map<string, JsValue>)

  /** `req.body[name]`, undefined when absent. */
  function Field(req: Request, name: string): JsValue {
    if name in req.body then req.body[name] else Undefined
  }

  /** The routes, one per line of the table; a parameter is the raw path segment. */
  datatype Route =
    | PostSignUp | PostSignIn | GetProfile | PutProfile
    | GetCourses | GetCourse(courseId: string)
    | PostEnroll | GetMyCourses
    | GetModules(courseId: string) | GetVideo(videoId: string)
    | PostComment
    | PostCourse | PutCourse(courseId: string) | DeleteCourse(courseId: string)
    | PostModule | PutModule(moduleId: string) | DeleteModule(moduleId: string)
    | PostVideo | PutVideo(videoId: string) | DeleteVideo(videoId: string)

  /** The middleware in front of a route: none, `authenticate`, or
      `authenticate` then `isAdmin`. */
  datatype Access = Public | Authenticated | AdminOnly

  function AccessOf(r: Route): Access {
    match r
    case PostSignUp => Public
    case PostSignIn => Public
    case GetProfile => Authenticated
    case PutProfile => Authenticated
    case GetCourses => Public
    case GetCourse(_) => Public
    case PostEnroll => Authenticated
    case GetMyCourses => Authenticated
    case GetModules(_) => Public
    case GetVideo(_) => Public
    case PostComment => Authenticated
    case _ => AdminOnly
  }

  /** A route parameter `:x` matches one non-empty segment. */
  predicate IsParam(segment: string) {
    segment != ""
  }

  /** The line of the route table a route comes from: its method and its
      path below `/api`, with the parameter in place. */
  function Endpoint(r: Route): (Method, seq<string>) {
    match r
    case PostSignUp => (Post, ["signUp"])
    case PostSignIn => (Post, ["signIn"])
    case GetProfile => (Get, ["profile"])
    case PutProfile => (Put, ["profile"])
    case GetCourses => (Get, ["courses"])
    case GetCourse(x) => (Get, ["courses", x])
    case PostEnroll => (Post, ["enroll"])
    case GetMyCourses => (Get, ["mycourses"])
    case GetModules(x) => (Get, ["modules", x])
    case GetVideo(x) => (Get, ["video", x])
    case PostComment => (Post, ["comment"])
    case PostCourse => (Post, ["courses"])
    case PutCourse(x) => (Put, ["courses", x])
    case DeleteCourse(x) => (Delete, ["courses", x])
    case PostModule => (Post, ["module"])
    case PutModule(x) => (Put, ["modules", x])
    case DeleteModule(x) => (Delete, ["modules", x])
    case PostVideo => (Post, ["video"])
    case PutVideo(x) => (Put, ["video", x])
    case DeleteVideo(x) => (Delete, ["video", x])
  }

  /** A route whose parameter, if it has one, is a non-empty segment. */
  predicate WellFormed(r: Route) {
    |Endpoint(r).1| == 1 || IsParam(Endpoint(r).1[1])
  }

  /** The route of a one-segment path, if any. */
  function MatchPlain(verb: Method, p: string): (r: Option<Route>)
    ensures r.Some? ==> Endpoint(r.value) == (verb, [p])
  {
    match verb
    case Post =>
      if p == "signUp" then Some(PostSignUp)
      else if p == "signIn" then Some(PostSignIn)
      else if p == "enroll" then Some(PostEnroll)
      else if p == "comment" then Some(PostComment)
      else if p == "courses" then Some(PostCourse)
      else if p == "module" then Some(PostModule)
      else if p == "video" then Some(PostVideo)
      else None
    case Get =>
      if p == "profile" then Some(GetProfile)
      else if p == "courses" then Some(GetCourses)
      else if p == "mycourses" then Some(GetMyCourses)
      else None
    case Put => if p == "profile" then Some(PutProfile) else None
    case Delete => None
  }

  /** The route of a path of a segment and a parameter `x`, if any. */
  function MatchParam(verb: Method, p: string, x: string): (r: Option<Route>)
    ensures r.Some? ==> Endpoint(r.value) == (verb, [p, x])
  {
    match verb
    case Get =>
      if p == "courses" then Some(GetCourse(x))
      else if p == "modules" then Some(GetModules(x))
      else if p == "video" then Some(GetVideo(x))
      else None
    case Put =>
      if p == "courses" then Some(PutCourse(x))
      else if p == "modules" then Some(PutModule(x))
      else if p == "video" then Some(PutVideo(x))
      else None
    case Delete =>
      if p == "courses" then Some(DeleteCourse(x))
      else if p == "modules" then Some(DeleteModule(x))
      else if p == "video" then Some(DeleteVideo(x))
      else None
    case Post => None
  }

  /** The route a request's method and path select, if any: only the
      endpoint of the selected route matches. */
  function Match(verb: Method, path: seq<string>): (r: Option<Route>)
    ensures r.Some? ==> 1 <= |path| <= 2
    ensures r.Some? ==> Endpoint(r.value) == (verb, path) && WellFormed(r.value)
  {
    if |path| == 1 then
      assert path == [path[0]];
      MatchPlain(verb, path[0])
    else if |path| == 2 && IsParam(path[1]) then
      assert path == [path[0], path[1]];
      MatchParam(verb, path[0], path[1])
    else None
  }

  /** Every line of the table is reachable: a request to a route's endpoint
      selects that route. With the ensures of Match, the table and Match are
      inverse to each other. */
  lemma MatchFindsEveryRoute(r: Route)
    requires WellFormed(r)
    ensures Match(Endpoint(r).0, Endpoint(r).1) == Some(r)
  {}

  /** The handler of a public route. Only a sign-up whose insert succeeds
      writes to the store. */
  function HandlePublic(env: Env, s: Store, r: Route, req: Request, fault: bool): (o: Outcome)
    requires TablesValid(s)
    requires AccessOf(r) == Public
    ensures o.store != s ==> r.PostSignUp? && !fault
  {
    match r
    case PostSignUp =>
      Auth.SignUp(env, s, Field(req, "name"), Field(req, "email"), Field(req, "password"), fault)
    case PostSignIn => Auth.SignIn(env, s, Field(req, "email"), Field(req, "password"))
    case GetCourses => Courses.GetAllCourses(s)
    case GetCourse(id) => Courses.GetCourseById(s, id)
    case GetModules(id) => Modules.GetModules(s, id)
    case GetVideo(id) => Comments.GetCommentsByVideoId(s, id)
  }

  /** The handler of a route behind `authenticate`, run with `req.user`.
      Reading the profile, listing one's courses and commenting never write
      to the store, and a failing write leaves it as it was. */
  function HandleAuthenticated(env: Env, s: Store, r: Route, user: Claims, req: Request, fault: bool): (o: Outcome)
    requires TablesValid(s)
    requires AccessOf(r) != Public
    ensures o.store != s ==> !fault && !r.GetProfile? && !r.GetMyCourses? && !r.PostComment?
  {
    match r
    case GetProfile => Auth.GetUserProfile(s, user)
    case PutProfile => Auth.UpdateUserProfile(s, user, Field(req, "name"), fault)
    case PostEnroll => Courses.Enroll(s, user, Field(req, "courseId"), fault)
    case GetMyCourses => Courses.GetUserCourses(s, user)
    case PostComment => Comments.CommentOnVideo(s, Field(req, "videoId"), Field(req, "comment"))
    case PostCourse =>
      Courses.AddCourse(s, Field(req, "title"), Field(req, "description"), Field(req, "thumbnail"),
                        Field(req, "price"), Field(req, "originalprice"), fault)
    case PutCourse(id) =>
      Courses.UpdateCourse(env, s, id, Field(req, "title"), Field(req, "description"), Field(req, "thumbnail"),
                           Field(req, "price"), Field(req, "originalprice"), fault)
    case DeleteCourse(id) => Courses.DeleteCourse(s, id, fault)
    case PostModule => Modules.AddModule(s, Field(req, "title"), Field(req, "courseId"), fault)
    case PutModule(id) => Modules.UpdateModule(s, id, Field(req, "title"), fault)
    case DeleteModule(id) => Modules.DeleteModule(s, id, fault)
    case PostVideo =>
      Videos.AddVideo(s, Field(req, "title"), Field(req, "url"), Field(req, "moduleId"), Field(req, "thumbnail"), fault)
    case PutVideo(id) => Videos.UpdateVideo(s, id, Field(req, "title"), Field(req, "url"), Field(req, "thumbnail"), fault)
    case DeleteVideo(id) => Videos.DeleteVideo(s, id, fault)
  }

  /** One request through the router: no route is Express's 404; otherwise
      the route's middleware runs in order and the first that answers ends
      the request. `fault` stands for a failing write to the store. */
  function Dispatch(env: Env, s: Store, req: Request, fault: bool): (o: Outcome)
    requires TablesValid(s)
    ensures Match(req.verb, req.path).None? ==> o == Outcome(Reply(404, NoRoute), s)
  {
    match Match(req.verb, req.path)
    case None => Outcome(Reply(404, NoRoute), s)
    case Some(r) =>
      if AccessOf(r) == Public then HandlePublic(env, s, r, req, fault)
      else
        match Jwt.Authenticate(env, req.authorization)
        case Rejected(response) => Outcome(response, s)
        case Admitted(user) =>
          if AccessOf(r) == AdminOnly && AdminGate.CheckAdmin(env, Some(user)).Some? then
            Outcome(AdminGate.Denied, s)
          else HandleAuthenticated(env, s, r, user, req, fault)
  }

  /** Every create/update/delete of a course, module or video runs
      `authenticate` and then `isAdmin`: it reaches its handler only with a
      verified token whose e-mail is the admin's, and is otherwise answered
      401 or 403 with the store untouched. */
  lemma AdminRoutesAreGuarded(env: Env, s: Store, req: Request, fault: bool)
    requires TablesValid(s)
    requires Match(req.verb, req.path).Some? && AccessOf(Match(req.verb, req.path).value) == AdminOnly
    ensures var o := Dispatch(env, s, req, fault);
      var g := Jwt.Authenticate(env, req.authorization);
      if g.Rejected? then o == Outcome(g.response, s) && o.response.status == 401
      else if !AdminGate.IsAdmin(env, Some(g.user)) then o == Outcome(AdminGate.Denied, s)
      else o == HandleAuthenticated(env, s, Match(req.verb, req.path).value, g.user, req, fault)
  {}

  /** The profile routes, enrolling, listing one's courses and commenting run
      `authenticate` alone: a rejected token is its 401 with the store
      untouched, and any verified caller, admin or not, reaches the handler. */
  lemma UserRoutesAuthenticateOnly(env: Env, s: Store, req: Request, fault: bool)
    requires TablesValid(s)
    requires Match(req.verb, req.path).Some?
    requires var r := Match(req.verb, req.path).value;
      r.GetProfile? || r.PutProfile? || r.PostEnroll? || r.GetMyCourses? || r.PostComment?
    ensures var o := Dispatch(env, s, req, fault);
      var g := Jwt.Authenticate(env, req.authorization);
      if g.Rejected? then o == Outcome(g.response, s) && o.response.status == 401
      else o == HandleAuthenticated(env, s, Match(req.verb, req.path).value, g.user, req, fault)
  {}

  /** Sign-up, sign-in, the course list, a course, a course's modules and a
      video's comments run no middleware: the request goes straight to the
      handler, whatever its header. */
  lemma PublicRoutesReachHandler(env: Env, s: Store, req: Request, fault: bool)
    requires TablesValid(s)
    requires Match(req.verb, req.path).Some?
    requires var r := Match(req.verb, req.path).value;
      r.PostSignUp? || r.PostSignIn? || r.GetCourses? || r.GetCourse? || r.GetModules? || r.GetVideo?
    ensures Dispatch(env, s, req, fault) == HandlePublic(env, s, Match(req.verb, req.path).value, req, fault)
  {}

  /** Authentication runs first, so a request without a token to an admin
      route is a 401, never a 403. */
  lemma NoTokenIsNever403(env: Env, s: Store, req: Request, fault: bool)
    requires TablesValid(s)
    requires Match(req.verb, req.path).Some? && AccessOf(Match(req.verb, req.path).value) != Public
    requires req.authorization.None?
    ensures Dispatch(env, s, req, fault) == Outcome(Jwt.NoToken, s)
  {}

  /** Public routes do not look at the Authorization header. */
  lemma PublicRoutesIgnoreHeader(env: Env, s: Store, req: Request, header: Option<string>, fault: bool)
    requires TablesValid(s)
    requires Match(req.verb, req.path).Some? && AccessOf(Match(req.verb, req.path).value) == Public
    ensures Dispatch(env, s, req, fault) == Dispatch(env, s, req.(authorization := header), fault)
  {}

  /** No public handler answers with the enrollment statistics. */
  lemma PublicNeverAnswersStats(env: Env, s: Store, r: Route, req: Request, fault: bool)
    requires TablesValid(s)
    requires AccessOf(r) == Public
    ensures var o := HandlePublic(env, s, r, req, fault);
      o.response.Reply? ==> !o.response.body.Stats?
  {
    match r
    case PostSignUp =>
    case PostSignIn =>
    case GetCourses =>
    case GetCourse(id) =>
    case GetModules(id) =>
    case GetVideo(id) =>
  }

  /** No handler behind `authenticate` alone answers with the enrollment statistics. */
  lemma UserRoutesNeverAnswerStats(env: Env, s: Store, r: Route, user: Claims, req: Request, fault: bool)
    requires TablesValid(s)
    requires AccessOf(r) == Authenticated
    ensures var o := HandleAuthenticated(env, s, r, user, req, fault);
      o.response.Reply? ==> !o.response.body.Stats?
  {
    match r
    case GetProfile =>
    case PutProfile =>
    case PostEnroll =>
    case GetMyCourses =>
    case PostComment =>
  }

  /** No admin handler answers with the enrollment statistics. */
  lemma AdminRoutesNeverAnswerStats(env: Env, s: Store, r: Route, user: Claims, req: Request, fault: bool)
    requires TablesValid(s)
    requires AccessOf(r) == AdminOnly
    ensures var o := HandleAuthenticated(env, s, r, user, req, fault);
      o.response.Reply? ==> !o.response.body.Stats?
  {
    match r
    case PostCourse =>
    case PutCourse(id) =>
    case DeleteCourse(id) =>
    case PostModule =>
    case PutModule(id) =>
    case DeleteModule(id) =>
    case PostVideo =>
    case PutVideo(id) =>
    case DeleteVideo(id) =>
  }

  /** No route answers with the enrollment statistics: that handler is not
      in the table. */
  lemma StatsAreUnreachable(env: Env, s: Store, req: Request, fault: bool)
    requires TablesValid(s)
    ensures var o := Dispatch(env, s, req, fault);
      o.response.Reply? ==> !o.response.body.Stats?
  {
    match Match(req.verb, req.path)
    case None =>
    case Some(r) =>
      if AccessOf(r) == Public {
        PublicNeverAnswersStats(env, s, r, req, fault);
      } else if Jwt.Authenticate(env, req.authorization).Admitted? {
        var user := Jwt.Authenticate(env, req.authorization).user;
        if AccessOf(r) == Authenticated {
          UserRoutesNeverAnswerStats(env, s, r, user, req, fault);
        } else {
          AdminRoutesNeverAnswerStats(env, s, r, user, req, fault);
        }
      }
  }

  /** Every public handler keeps the store consistent. */
  lemma PublicKeepsConsistency(env: Env, s: Store, r: Route, req: Request, fault: bool)
    requires Consistent(s)
    requires AccessOf(r) == Public
    ensures Consistent(HandlePublic(env, s, r, req, fault).store)
  {
    if r.PostSignUp? {
      Auth.SignUpKeepsConsistency(env, s, Field(req, "name"), Field(req, "email"), Field(req, "password"), fault);
    }
  }

  /** Every handler behind `authenticate` alone keeps the store consistent. */
  lemma UserRoutesKeepConsistency(env: Env, s: Store, r: Route, user: Claims, req: Request, fault: bool)
    requires Consistent(s)
    requires AccessOf(r) == Authenticated
    ensures Consistent(HandleAuthenticated(env, s, r, user, req, fault).store)
  {
    match r
    case GetProfile =>
    case PutProfile => Auth.UpdateUserProfileOnlyName(s, user, Field(req, "name"), fault);
    case PostEnroll => Courses.EnrollKeepsConsistency(s, user, Field(req, "courseId"), fault);
    case GetMyCourses =>
    case PostComment =>
  }

  /** Every admin handler keeps the store consistent. */
  lemma AdminRoutesKeepConsistency(env: Env, s: Store, r: Route, user: Claims, req: Request, fault: bool)
    requires Consistent(s)
    requires AccessOf(r) == AdminOnly
    ensures Consistent(HandleAuthenticated(env, s, r, user, req, fault).store)
  {
    match r
    case PostCourse =>
      Courses.AddCourseKeepsConsistency(s, Field(req, "title"), Field(req, "description"), Field(req, "thumbnail"),
                                        Field(req, "price"), Field(req, "originalprice"), fault);
    case PutCourse(id) =>
      Courses.UpdateCourseKeepsConsistency(env, s, id, Field(req, "title"), Field(req, "description"),
                                           Field(req, "thumbnail"), Field(req, "price"), Field(req, "originalprice"),
                                           fault);
    case DeleteCourse(id) => Courses.DeleteCourseKeepsConsistency(s, id, fault);
    case PostModule => Modules.AddModuleKeepsConsistency(s, Field(req, "title"), Field(req, "courseId"), fault);
    case PutModule(id) => Modules.UpdateModuleKeepsConsistency(s, id, Field(req, "title"), fault);
    case DeleteModule(id) => Modules.DeleteModuleKeepsConsistency(s, id, fault);
    case PostVideo =>
      Videos.AddVideoKeepsConsistency(s, Field(req, "title"), Field(req, "url"), Field(req, "moduleId"),
                                      Field(req, "thumbnail"), fault);
    case PutVideo(id) =>
      Videos.UpdateVideoKeepsConsistency(s, id, Field(req, "title"), Field(req, "url"), Field(req, "thumbnail"), fault);
    case DeleteVideo(id) => Videos.DeleteVideoKeepsConsistency(s, id, fault);
  }

  /** Every request keeps the store consistent: no module or video loses its
      parent, e-mails and enrollment pairs stay unique. */
  lemma DispatchKeepsConsistency(env: Env, s: Store, req: Request, fault: bool)
    requires Consistent(s)
    ensures Consistent(Dispatch(env, s, req, fault).store)
  {
    match Match(req.verb, req.path)
    case None =>
    case Some(r) =>
      if AccessOf(r) == Public {
        PublicKeepsConsistency(env, s, r, req, fault);
      } else if Jwt.Authenticate(env, req.authorization).Admitted? {
        var user := Jwt.Authenticate(env, req.authorization).user;
        if AccessOf(r) == Authenticated {
          UserRoutesKeepConsistency(env, s, r, user, req, fault);
        } else {
          AdminRoutesKeepConsistency(env, s, r, user, req, fault);
        }
      }
  }
}

=== FILE: thumbnail_slider.dfy ===
/** The course card's thumbnail slider: an index into the thumbnails that a
    2.5-second timer advances cyclically. The timer runs only while there
    are at least two thumbnails; it restarts when their number changes, and
    the index is not reset when that happens. */
module ThumbnailSlider {

  /** The index the slider mounts with. */
  const Start: nat := 0

  /** Whether the effect starts a timer for `n` thumbnails. */
  predicate TimerRuns(n: nat) {
    n > 1
  }

  /** One timer tick: `(idx + 1) % n`. Both operands are non-negative, so
      JavaScript's remainder and the Euclidean one agree. */
  function Tick(idx: nat, n: nat): (r: nat)
    requires n > 0
    ensures r < n
    ensures idx + 1 < n ==> r == idx + 1
    ensures idx + 1 == n ==> r == 0
  {
    (idx + 1) % n
  }

  /** The index after `k` periods of 2.5 seconds with `n` thumbnails. */
  function Ticks(idx: nat, n: nat, k: nat): (r: nat)
    ensures !TimerRuns(n) ==> r == idx
    ensures TimerRuns(n) && k > 0 ==> r < n
    decreases k
  {
    if !TimerRuns(n) || k == 0 then idx else Tick(Ticks(idx, n, k - 1), n)
  }

  /** Below the wrap-around point, `k` ticks add `k` to the index. */
  lemma {:induction false} TicksCount(idx: nat, n: nat, k: nat)
    requires TimerRuns(n) && idx + k < n
    ensures Ticks(idx, n, k) == idx + k
    decreases k
  {
    if k > 0 {
      TicksCount(idx, n, k - 1);
    }
  }

  /** Ticking `a` times and then `b` times is ticking `a + b` times. */
  lemma {:induction false} TicksCompose(idx: nat, n: nat, a: nat, b: nat)
    ensures Ticks(idx, n, a + b) == Ticks(Ticks(idx, n, a), n, b)
    decreases b
  {
    if b > 0 && TimerRuns(n) {
      TicksCompose(idx, n, a, b - 1);
      assert a + b - 1 == a + (b - 1);
    }
  }

  /** Starting from the mount index, the index is always a valid thumbnail. */
  lemma StaysInRange(n: nat, k: nat)
    requires n >= 1
    ensures Ticks(Start, n, k) < n
  {}

  /** After `n` ticks the slider is back where it started. */
  lemma FullCycleReturns(idx: nat, n: nat)
    requires TimerRuns(n) && idx < n
    ensures Ticks(idx, n, n) == idx
  {
    var toEnd := n - 1 - idx;
    TicksCount(idx, n, toEnd);
    assert Ticks(idx, n, toEnd + 1) == 0;
    TicksCount(0, n, idx);
    TicksCompose(idx, n, toEnd + 1, idx);
    assert toEnd + 1 + idx == n;
  }

  /** When the list shrinks below the current index, the index stays out of
      range if fewer than two thumbnails remain (no image is shown), and is
      back in range after one tick otherwise. */
  lemma ShrinkBehaviour(idx: nat, n: nat)
    requires idx >= n
    ensures !TimerRuns(n) ==> Ticks(idx, n, 1) == idx && Ticks(idx, n, 1) >= n
    ensures TimerRuns(n) ==> Ticks(idx, n, 1) < n
  {}
}

=== FILE: video_system.dfy ===
/** The admin's video widgets: the grid of video cards under a module, and
    the submit guards of the add-video and edit-video modals. */
module VideoSystem {
  import opened Wrappers
  import opened JsText
  import opened JsValues

  /** A video as the admin screens hold it; `thumbnail` is optional. */
  datatype Video = Video(id: JsValue, title: string, url: string, thumbnail: Option<string>)

  /** One card of the grid: the video and the module it is listed under. */
  datatype VideoCard = VideoCard(video: Video, moduleId: JsValue)

  /** What `VideoGrid` renders: the "Add First Video" prompt, or the cards. */
  datatype Grid = AddFirstVideo(moduleId: JsValue) | Cards(cards: seq<VideoCard>)

  /** `VideoGrid`: an empty list shows the prompt; otherwise one card per
      video, in list order. */
  function VideoGrid(videos: seq<Video>, moduleId: JsValue): (g: Grid)
    ensures g.AddFirstVideo? <==> |videos| == 0
    ensures g.AddFirstVideo? ==> g.moduleId == moduleId
    ensures g.Cards? ==> forall i :: 0 <= i < |g.cards| ==> g.cards[i].moduleId == moduleId
  {
    if |videos| == 0 then AddFirstVideo(moduleId)
    else Cards(seq(|videos|, i requires 0 <= i < |videos| => VideoCard(videos[i], moduleId)))
  }

  /** The videos a grid shows, in screen order. */
  function VideosShown(g: Grid): seq<Video> {
    match g
    case AddFirstVideo(_) => []
    case Cards(cards) => seq(|cards|, i requires 0 <= i < |cards| => cards[i].video)
  }

  /** The grid shows every video of the list, each once, in order. */
  lemma GridShowsEveryVideo(videos: seq<Video>, moduleId: JsValue)
    ensures VideosShown(VideoGrid(videos, moduleId)) == videos
  {}

  /** The three text fields of the video modals. */
  datatype VideoForm = VideoForm(title: string, url: string, thumbnail: string)

  const BlankForm: VideoForm := VideoForm("", "", "")

  /** The call `onSubmit(moduleId, formData)` of the add-video modal. */
  datatype AddCall = AddCall(moduleId: JsValue, data: VideoForm)

  /** The effect of submitting the add-video modal: the call made, if any,
      the form left behind, and whether `onClose` runs. */
  datatype AddVideoSubmit = AddVideoSubmit(call: Option<AddCall>, form: VideoForm, closes: bool)

  /** `AddVideoModal.handleSubmit`: an empty title or url is ignored (white
      space counts as text); otherwise the form goes to the parent with the
      module id unchanged, is reset, and the modal closes. */
  function SubmitAddVideo(moduleId: JsValue, form: VideoForm): (r: AddVideoSubmit)
    ensures r.call.None? <==> form.title == "" || form.url == ""
    ensures r.call.None? ==> r.form == form && !r.closes
    ensures r.call.Some? ==> r.call.value == AddCall(moduleId, form) && r.form == BlankForm && r.closes
  {
    if form.title == "" || form.url == "" then AddVideoSubmit(None, form, false)
    else AddVideoSubmit(Some(AddCall(moduleId, form)), BlankForm, true)
  }

  /** The form the edit-video modal opens with: the video's fields, a
      missing thumbnail as the empty string. */
  function EditForm(video: Video): (f: VideoForm)
    ensures f.title == video.title && f.url == video.url
    ensures video.thumbnail.Some? ==> f.thumbnail == video.thumbnail.value
    ensures video.thumbnail.None? ==> f.thumbnail == ""
  {
    VideoForm(video.title, video.url, video.thumbnail.GetOr(""))
  }

  /** The call `onSubmit(video.id, moduleId, formData)` of the edit-video modal. */
  datatype EditCall = EditCall(videoId: JsValue, moduleId: JsValue, data: VideoForm)

  datatype EditVideoSubmit = EditVideoSubmit(call: Option<EditCall>, closes: bool)

  /** `EditVideoModal.handleSubmit`: a title or url that trims to nothing is
      ignored; otherwise the edited form goes to the parent under the
      original video's id and the modal closes. */
  function SubmitEditVideo(video: Video, moduleId: JsValue, form: VideoForm): (r: EditVideoSubmit)
    ensures r.call.None? <==> AllWhiteSpace(form.title) || AllWhiteSpace(form.url)
    ensures r.call.None? ==> !r.closes
    ensures r.call.Some? ==> r.call.value == EditCall(video.id, moduleId, form) && r.closes
  {
    TrimIsEmptyIffBlank(form.title);
    TrimIsEmptyIffBlank(form.url);
    if Trim(form.title) == "" || Trim(form.url) == "" then EditVideoSubmit(None, false)
    else EditVideoSubmit(Some(EditCall(video.id, moduleId, form)), true)
  }

  /** The edit guard is the stricter one: whatever it sends, the add guard
      would send too, but a white-space title passes only the add guard. */
  lemma EditGuardIsStricter(video: Video, moduleId: JsValue, form: VideoForm)
    ensures SubmitEditVideo(video, moduleId, form).call.Some? ==> SubmitAddVideo(moduleId, form).call.Some?
    ensures var blank := VideoForm(" ", "u", "");
      SubmitAddVideo(moduleId, blank).call.Some? && SubmitEditVideo(video, moduleId, blank).call.None?
  {
    var blank := VideoForm(" ", "u", "");
    assert IsWhiteSpace(blank.title[0]);
  }

  /** Saving an untouched edit form re-sends the video's own fields. */
  lemma UntouchedEditResends(video: Video, moduleId: JsValue)
    requires !AllWhiteSpace(video.title) && !AllWhiteSpace(video.url)
    ensures var r := SubmitEditVideo(video, moduleId, EditForm(video));
      r.call.Some? && r.call.value.videoId == video.id
      && r.call.value.data.title == video.title && r.call.value.data.url == video.url
  {}
}

=== FILE: videos_controller.dfy ===
/** The admin's video handlers: create, partial update and delete. */
module VideosController {
  import opened Wrappers
  import opened JsText
  import opened JsValues
  import opened Database
  import opened Http
  import opened ModulesController

  /** `POST /video`. The module id is used as the body gave it, without
      `parseInt`: anything but a number fails Prisma's validation outside any
      `try`. Title and url are not checked. */
  function AddVideo(s: Store, title: JsValue, url: JsValue, moduleId: JsValue, thumbnail: JsValue,
                    fault: bool): (o: Outcome)
    requires TablesValid(s)
    ensures !moduleId.Num? ==> o == Outcome(Unanswered, s)
    ensures moduleId.Num? && moduleId.n !in s.modules.rows ==>
              o == Outcome(Reply(400, Error("Invalid moduleId. Module not found.")), s)
    ensures moduleId.Num? && moduleId.n in s.modules.rows && fault ==> o == Outcome(Unanswered, s)
    ensures moduleId.Num? && moduleId.n in s.modules.rows && !fault ==>
              o.response.Reply? && o.response.status == 200 && o.response.body.VideoRow?
              && var row := o.response.body.video;
                 row.value == Video(title, url, moduleId.n, thumbnail) && row.id !in s.videos.rows
                 && o.store == s.(videos := o.store.videos)
                 && o.store.videos.rows == s.videos.rows[row.id := row.value]
  {
    match moduleId
    case Num(m) =>
      if m !in s.modules.rows then Outcome(Reply(400, Error("Invalid moduleId. Module not found.")), s)
      else if fault then Outcome(Unanswered, s)
      else
        var v := Video(title, url, m, thumbnail);
        var (t, id) := s.videos.Insert(v);
        Outcome(Reply(200, VideoRow(Row(id, v))), s.(videos := t))
    case _ => Outcome(Unanswered, s)
  }

  /** The fields `...(x && { x })` puts into the update: each truthy one
      replaces the stored value, the others keep it. */
  function Patch(v: Video, title: JsValue, url: JsValue, thumbnail: JsValue): (r: Video)
    ensures r.moduleId == v.moduleId
    ensures r.title == (if Truthy(title) then title else v.title)
    ensures r.url == (if Truthy(url) then url else v.url)
    ensures r.thumbnail == (if Truthy(thumbnail) then thumbnail else v.thumbnail)
  {
    var v1 := if Truthy(title) then v.(title := title) else v;
    var v2 := if Truthy(url) then v1.(url := url) else v1;
    if Truthy(thumbnail) then v2.(thumbnail := thumbnail) else v2
  }

  /** A patch never clears a field that was set: a field becomes falsy only if it already was. */
  lemma PatchNeverClears(v: Video, title: JsValue, url: JsValue, thumbnail: JsValue)
    ensures var r := Patch(v, title, url, thumbnail);
      (Truthy(v.title) ==> Truthy(r.title)) && (Truthy(v.url) ==> Truthy(r.url))
      && (Truthy(v.thumbnail) ==> Truthy(r.thumbnail))
  {}

  /** `PUT /video/:videoId`. A missing video makes the update throw, which
      lands in the 500 branch. */
  function UpdateVideo(s: Store, videoId: string, title: JsValue, url: JsValue, thumbnail: JsValue,
                       fault: bool): (o: Outcome)
    ensures PathId(videoId).None? ==> o == Outcome(Reply(400, Error("Invalid video ID")), s)
    ensures PathId(videoId).Some? && !Truthy(title) && !Truthy(url) && !Truthy(thumbnail) ==>
              o == Outcome(Reply(400, Error("No fields provided to update")), s)
    ensures PathId(videoId).Some? && (Truthy(title) || Truthy(url) || Truthy(thumbnail)) ==>
              var id := PathId(videoId).value;
              if id !in s.videos.rows || fault then
                o == Outcome(Reply(500, Error("Internal server error")), s)
              else
                var v := Patch(s.videos.rows[id], title, url, thumbnail);
                o == Outcome(Reply(200, VideoRow(Row(id, v))), s.(videos := s.videos.Put(id, v)))
  {
    match PathId(videoId)
    case None => Outcome(Reply(400, Error("Invalid video ID")), s)
    case Some(id) =>
      if !Truthy(title) && !Truthy(url) && !Truthy(thumbnail) then
        Outcome(Reply(400, Error("No fields provided to update")), s)
      else if id !in s.videos.rows || fault then Outcome(Reply(500, Error("Internal server error")), s)
      else
        var v := Patch(s.videos.rows[id], title, url, thumbnail);
        Outcome(Reply(200, VideoRow(Row(id, v))), s.(videos := s.videos.Put(id, v)))
  }

  /** `DELETE /video/:videoId`. Prisma's not-found error P2025 is the 404;
      any other failure is the 500. */
  function DeleteVideo(s: Store, videoId: string, fault: bool): (o: Outcome)
    ensures PathId(videoId).None? ==> o == Outcome(Reply(400, Error("Invalid video ID")), s)
    ensures PathId(videoId).Some? && PathId(videoId).value !in s.videos.rows ==>
              o == Outcome(Reply(404, Error("Video not found")), s)
    ensures PathId(videoId).Some? && PathId(videoId).value in s.videos.rows && fault ==>
              o == Outcome(Reply(500, Error("Internal server error")), s)
    ensures PathId(videoId).Some? && PathId(videoId).value in s.videos.rows && !fault ==>
              o.response == Reply(200, Message("Video deleted successfully"))
              && o.store == s.(videos := o.store.videos)
              && o.store.videos.rows.Keys == s.videos.rows.Keys - {PathId(videoId).value}
              && forall v :: v in o.store.videos.rows ==> o.store.videos.rows[v] == s.videos.rows[v]
  {
    match PathId(videoId)
    case None => Outcome(Reply(400, Error("Invalid video ID")), s)
    case Some(id) =>
      if id !in s.videos.rows then Outcome(Reply(404, Error("Video not found")), s)
      else if fault then Outcome(Reply(500, Error("Internal server error")), s)
      else Outcome(Reply(200, Message("Video deleted successfully")), s.(videos := s.videos.Without({id})))
  }

  /** The video handlers keep the store consistent: a new video's module exists. */
  lemma AddVideoKeepsConsistency(s: Store, title: JsValue, url: JsValue, moduleId: JsValue, thumbnail: JsValue,
                                 fault: bool)
    requires Consistent(s)
    ensures Consistent(AddVideo(s, title, url, moduleId, thumbnail, fault).store)
  {}

  lemma UpdateVideoKeepsConsistency(s: Store, videoId: string, title: JsValue, url: JsValue, thumbnail: JsValue,
                                    fault: bool)
    requires Consistent(s)
    ensures Consistent(UpdateVideo(s, videoId, title, url, thumbnail, fault).store)
  {}

  lemma DeleteVideoKeepsConsistency(s: Store, videoId: string, fault: bool)
    requires Consistent(s)
    ensures Consistent(DeleteVideo(s, videoId, fault).store)
  {}
}

=== FILE: wrappers.dfy ===
/** Optional values, standing in for JavaScript's `undefined` / `null` /
    `NaN` results wherever the source returns "no value". */
module Wrappers {

  datatype Option<+T> = None | Some(value: T) {

    /** The wrapped value, or `default` when there is none (JavaScript's `x ?? d`). */
    function GetOr(default: T): T {
      match this
      case Some(v) => v
      case None => default
    }
  }
}
